=== FILE: README.md ===
# Obon combat runtime in Dafny

This project models the side-scrolling combat runtime of the Obon story game, as a set of pure step functions over immutable records:

- the sprite-sheet animation clock;
- fighters and their attack lifecycle;
- projectiles;
- rectangle geometry;
- damage with its invulnerability windows;
- the encounter scheduler, which handles spawning, scene load and retry, and the next-scene and death hooks;
- the scene normalisation helpers.

Two smaller pieces are modelled with it:

- the frame-index arithmetic that the story layer uses for its sprite elements;
- the attack toolbar's per-slot cooldown bookkeeping.

Modelling conventions:

- Positions are `real`.
- The animation/time scale `frameScale` is fixed at 2, so one tick is one 30 fps step.
- Game time is an `int` of milliseconds passed in as a parameter.
- A `-Infinity` time stamp is `None`.
- The toolbar's `performance.now()` readings are `real` milliseconds.

Modules:

| module | file | what it holds |
|---|---|---|
| `Wrappers` | wrappers.dfy | `Option` |
| `Clock` | clock.dfy | time stamps and the cooldown and invulnerability-window tests |
| `JsMath` | jsmath.dfy | JavaScript's truncating `%`, `Math.ceil`, and `Math.sign(d) \|\| 1` |
| `Geometry` | geometry.dfy | rectangles, overlap, hurt boxes, contact, `blockMovementX`, melee box |
| `Config` | config.dfy | the per-kind configuration table, reduced to what the simulation reads |
| `Animation` | animation.dfy | `Sprite._animate` |
| `Fighters` | fighter.dfy | the Fighter record, `switchSprite`, `startAttack`, the trigger-frame effect, damage |
| `Projectiles` | projectile.dfy | the fly/hit projectile |
| `Combat` | combat.dfy | the player's active attack, shots against enemies and player, contact damage |
| `Scenes` | scenes.dfy | `bgPath`, `normalizeScenes`, the default scenes |
| `Encounter` | encounter.dfy | spawning, scene flow, hooks, attack slots, the finale transformation, one tick's damage |
| `SpriteFrames` | spriteframes.dfy | `setSpriteFrame2x2` and `setSpriteFrame` |
| `Text` | text.dfy | decimal rendering of naturals and its inverse |
| `Toolbar` | toolbar.dfy | `formatDuration` and the toolbar's event handlers and tick |

The model keeps these behaviours of the code, although a reader of the game's design might expect otherwise:

- `blockMovementX` lets the actor advance up to the gap plus the margin, so it can end up to `margin` past the collider's near edge.
- A resolved pre-spawn line sets the spawn timer to `-Infinity`, so the next spawn ignores the scene's spawn cooldown.
- A flying projectile's range budget can drop below 0 before the projectile is removed.
- The spawn cursor advances even when the entry's enemy kind is unknown and nothing spawns.
- With no `onReadyForNext` hook, a cleared scene only sets the flag. Nothing advances.
- The `_preShown` mark lives on the scene's queue entry, so a line once shown is not shown again after a retry.
- Without a death hook, a death to the finale boss revives the player with health still 0 until the transformation replaces it.
- Loading a scene leaves projectiles in flight, both hit stamps and the cutscene flag as they were.
- An attack key turns the player toward the nearest live enemy even when the attack then refuses to start.

## Model

| member | source | states |
|---|---|---|
| JsMath.JsRem | ObonProject/src/Game/GamePart2.js:251 | JavaScript `%` result lies strictly between -n and n, has the dividend's sign, and is congruent to the dividend modulo n |
| JsMath.PushDir | ObonProject/src/Game/GamePart2.js:864 | `Math.sign(d) \|\| 1` is ±1 and points along d; a zero displacement pushes right |
| JsMath.Ceil | ObonProject/src/toolbar.js:13 | `Math.ceil`: the least integer not below x |
| Clock.CooledDown | ObonProject/src/Game/GamePart2.js:394 | a never-used attack is always ready; otherwise it is ready from the instant `last + cooldown` on |
| Clock.WindowPassed | ObonProject/src/Game/GamePart2.js:852 | with no earlier hit the window has passed; otherwise it passes strictly after `last + window`, i.e. it is the cooldown test with one more millisecond |
| Animation.Hold | ObonProject/src/Game/GamePart2.js:240-241 | `framesHold \|\| 1` is at least 1 and keeps a positive hold |
| Animation.Restart | ObonProject/src/Game/GamePart2.js:383-385 | a restarted clip is well-formed and keeps its frame count and mode |
| Animation.AdvanceWellFormed | ObonProject/src/Game/GamePart2.js:243-252 | one frame step keeps loop frames in [0, framesMax) and ping-pong frames in [0, framesMax-1] with the direction pointing inward at the ends |
| Animation.PingPongFlipsAtEnds | ObonProject/src/Game/GamePart2.js:243-249 | ping-pong moves one frame along its direction and flips direction exactly when it lands on the first or last frame |
| Animation.StepsWellFormed | ObonProject/src/Game/GamePart2.js:241-253 | any number of frame steps stays well-formed |
| Animation.Advance | ObonProject/src/Game/GamePart2.js:243-252 | one frame step keeps frame count, hold, accumulator and mode; a looping clip moves to the next frame modulo `framesMax` and keeps its direction |
| Animation.Steps | ObonProject/src/Game/GamePart2.js:241-253 | any number of frame steps keeps frame count, hold, accumulator and mode |
| Animation.LoopStepsClosedForm | ObonProject/src/Game/GamePart2.js:251 | after n loop steps the frame is (start + n) mod framesMax |
| Animation.Animate | ObonProject/src/Game/GamePart2.js:238-254 | one tick adds frameScale to the accumulator and advances one frame per whole hold period it drains, leaving less than one hold; a sheet of at most one frame is untouched; well-formedness is kept |
| Geometry.OverlapSymmetric | ObonProject/src/Game/GamePart2.js:547-548 | `rectanglesOverlap` is symmetric |
| Geometry.Overlap | ObonProject/src/Game/GamePart2.js:547-548 | for boxes of positive size, `rectanglesOverlap` holds iff the intersection box has positive width and height; two boxes that both have no width (or both no height) never overlap |
| Geometry.OverlapIffCommonPoint | ObonProject/src/Game/GamePart2.js:547-548 | two boxes of positive size overlap iff some point lies strictly inside both |
| Geometry.OverlapMonotone | ObonProject/src/Game/GamePart2.js:547-548 | a box that contains an overlapping box overlaps too |
| Geometry.HurtRect | ObonProject/src/Game/GamePart2.js:497-504 | `enemyHurtRect` never has negative width or height |
| Geometry.HurtRectInsets | ObonProject/src/Game/GamePart2.js:497-504 | the hurt box's left edge moves in by `insetX` and its top down by `insetTop`, each times `scale \|\| 1`; the width loses both side insets and the height the top inset when they fit |
| Geometry.HurtRectWithin | ObonProject/src/Game/GamePart2.js:497-504 | with insets that fit, the hurt box lies inside the sprite box, so a hit on it is a hit on the sprite |
| Geometry.GapIsIntervalDistance | ObonProject/src/Game/GamePart2.js:509-510 | the contact gap is the distance between the horizontal intervals: 0 when they overlap, symmetric, never negative |
| Geometry.NearContact | ObonProject/src/Game/GamePart2.js:505-512 | `isNearContact` is false without vertical overlap and treats horizontally overlapping boxes as gap 0 |
| Geometry.NearContactIsIntervalTest | ObonProject/src/Game/GamePart2.js:505-512 | contact iff vertical overlap and interval distance at most the pad; symmetric |
| Geometry.BlockFrom | ObonProject/src/Game/GamePart2.js:516-534 | the collider loop never lets the step grow, respects every limit it has passed, and ends on the desired step or one collider's limit |
| Geometry.BlockMovementX | ObonProject/src/Game/GamePart2.js:513-535 | a zero request gives 0; otherwise the result is the one step that no relevant collider's gap-plus-margin limit cuts shorter and that equals the request or some limit |
| Geometry.BlockedStepUnique | ObonProject/src/Game/GamePart2.js:513-535 | that declarative description fixes the step uniquely |
| Geometry.BlockMovementBounds | ObonProject/src/Game/GamePart2.js:522-531 | with margin ≥ 0 the step lies between 0 and the request, and the leading edge ends at most `margin` past any blocking collider's near edge |
| Geometry.NonBlockingIgnored | ObonProject/src/Game/GamePart2.js:518-521 | a collider that is the actor itself, dead, or vertically disjoint from the actor never changes the result, whether it comes first or last in the list |
| Geometry.MeleeRect | ObonProject/src/Game/GamePart2.js:536-546 | the melee box has the scaled size, sits at the scaled vertical offset, and starts in front of the facing edge |
| Geometry.MeleeRectMirror | ObonProject/src/Game/GamePart2.js:543-544 | the left- and right-facing boxes are mirror images about the sprite's centre line |
| Fighters.NewFighter | ObonProject/src/Game/GamePart2.js:259-312 | a new fighter is alive, idle, at full health (player: `maxHp ?? 20`, others `hp ?? 3`), with no attack and no cooldowns, and a well-formed clip |
| Fighters.SpriteRect | ObonProject/src/Game/GamePart2.js:488-496 | the sprite box has the frame's on-screen size |
| Fighters.MeleeRectOf | ObonProject/src/Game/GamePart2.js:536-537 | a fighter without a melee definition has the empty box |
| Fighters.SwitchSprite | ObonProject/src/Game/GamePart2.js:372-388 | a switch happens only when the fighter is alive, is not locked in an unfinished attack clip under another name, and the sheet exists and is not already bound; it then sets the clip and restarts frame, accumulator and direction, changing nothing else |
| Fighters.SwitchSpriteIdempotent | ObonProject/src/Game/GamePart2.js:376 | switching to the same clip twice is switching once |
| Fighters.SwitchSpriteGuards | ObonProject/src/Game/GamePart2.js:373-376 | each of the three guards alone makes the switch a no-op |
| Fighters.StartAttack | ObonProject/src/Game/GamePart2.js:389-402 | an attack starts iff it is defined, the fighter is alive and its cooldown has passed; a refusal changes nothing; a start marks the fighter attacking with the definition active, untriggered, and stamps the cooldown; its clip (the attack's own, else "attack1") starts from frame 0 whenever `switchSprite` accepts it, and otherwise the clip and playback are left as they were |
| Fighters.CooldownBlocksRestart | ObonProject/src/Game/GamePart2.js:393-394 | within the cooldown after a start the same attack cannot start again |
| Fighters.AttackStep | ObonProject/src/Game/GamePart2.js:840-882 | an effect fires iff the attack is active, untriggered and on its trigger frame; projectile attacks fire their projectile, melee ones swing their damage; the last frame ends the attack and, when `switchSprite` accepts it, returns to the idle clip at frame 0; before the last frame the clip is untouched; health, life, position and cooldowns are untouched |
| Fighters.EffectAtMostOnce | ObonProject/src/Game/GamePart2.js:844-874 | over any sequence of frames an attack produces its effect at most once |
| Fighters.KillAsWrittenKeepsClip | ObonProject/src/Game/GamePart2.js:861 | the fatal-hit update as written leaves the clip unchanged (see Findings) |
| Fighters.KillAsWritten | ObonProject/src/Game/GamePart2.js:861 | as written, the fatal-hit update only sets the dead flag: clip and playback stay as they were |
| Fighters.HitEnemyAsWritten | ObonProject/src/Game/GamePart2.js:860-867 | as written, health is floored at 0 and at 0 the enemy is marked dead but keeps its clip; a survivable hit is the corrected `HitEnemy` |
| Fighters.HitPlayerAsWritten | ObonProject/src/Game/GamePart2.js:1018-1028 | as written, health is floored at 0 and at 0 the player is marked dead and stopped but keeps its clip; a survivable hit is the corrected `HitPlayer` |
| Fighters.Kill | ObonProject/src/Game/GamePart2.js:861 | the corrected fatal-hit update: dead, and on the death clip whenever a switch was possible |
| Fighters.HpAfter | ObonProject/src/Game/GamePart2.js:860 | health after a hit is `max(0, hp - dmg)`: 0 exactly when the damage covers it |
| Fighters.HitEnemy | ObonProject/src/Game/GamePart2.js:860-867 | an enemy hit loses health floored at 0, dies exactly at 0, and otherwise is knocked away from the player |
| Fighters.DeathClipNeverShown | ObonProject/src/Game/GamePart2.js:861 | a running rat killed as written stays in its run clip; corrected, it plays the death clip |
| Fighters.HitPlayer | ObonProject/src/Game/GamePart2.js:1018-1028 | the player hit loses health floored at 0, dies and stops at 0 and (corrected order, see Findings) shows the death clip, otherwise is knocked away from the hit's source; its attack state is untouched |
| Fighters.PlayerDeathClipNeverShown | ObonProject/src/Game/GamePart2.js:1022 | Anko on her idle clip, killed by a 14-damage hit, stays on the idle clip as written and plays the death clip corrected |
| Projectiles.NewProjectile | ObonProject/src/Game/GamePart2.js:407-424 | a new projectile flies at `speed ?? 6` in its direction with `rangePx ?? 500` of budget, animation at frame 0 |
| Projectiles.SpawnPoint | ObonProject/src/Game/GamePart2.js:828-837 | a right-facing shot starts `spawnX` right of the box's left edge; any other direction puts the tile's right edge `spawnX` left of the box's right edge, the tile being `tile ?? 16` times `scale ?? 1` wide; both start `spawnY` below the top |
| Projectiles.SpawnPointMirror | ObonProject/src/Game/GamePart2.js:832-834 | left- and right-facing spawn tiles are mirror images about the shooter's centre line |
| Projectiles.Explode | ObonProject/src/Game/GamePart2.js:476-483 | `_explode` acts only in flight: it stops the projectile and restarts the animation; in the hit state it changes nothing |
| Projectiles.ExplodeIdempotent | ObonProject/src/Game/GamePart2.js:477 | exploding twice is exploding once |
| Projectiles.ClipStep | ObonProject/src/Game/GamePart2.js:466-473 | one animation step moves only frame, direction and budget; an impact step past the last frame sets the budget to 0 |
| Projectiles.Drain | ObonProject/src/Game/GamePart2.js:465-474 | draining the accumulator leaves less than one hold and changes the budget only to 0, never in flight |
| Projectiles.DrainImpactFrames | ObonProject/src/Game/GamePart2.js:465-471 | the impact clip advances one frame per whole hold period |
| Projectiles.DrainImpactSpends | ObonProject/src/Game/GamePart2.js:472 | once the impact clip passes its last frame the budget is 0 |
| Projectiles.Update | ObonProject/src/Game/GamePart2.js:455-475 | in flight the projectile moves by `velocityX * frameScale`, pays exactly that distance from its budget and explodes when the budget reaches 0; a non-negative budget never grows |
| Projectiles.RemainingOvershoots | ObonProject/src/Game/GamePart2.js:458-459 | a shot with 1 px left flying 10 px per tick ends at -9, exploded and due for removal |
| Projectiles.FlightSpentIffRangeUsed | ObonProject/src/Game/GamePart2.js:1006 | a flying shot is removed after a tick (`remaining <= 0`) exactly when that tick's move uses up its remaining range |
| Projectiles.ImpactEndsInRemoval | ObonProject/src/Game/GamePart2.js:465-472 | an impact animation that plays past its last frame makes the projectile due for removal |
| Projectiles.HitRect | ObonProject/src/Game/GamePart2.js:427-431 | the hit box has the configured hitbox's width and height (16 by 16 when none is given) times the projectile's scale |
| Projectiles.HitRectMovesWithShot | ObonProject/src/Game/GamePart2.js:427-431 | the hit box moves with the projectile and keeps its size |
| Combat.SweepOne | ObonProject/src/Game/GamePart2.js:856-868 | a live enemy whose hurt box the melee box overlaps takes the (corrected) enemy hit; a dead or missed enemy is left exactly as it was |
| Combat.MeleeSweep | ObonProject/src/Game/GamePart2.js:853-870 | the sweep goes through every enemy in place, applying `SweepOne` to each with no early exit; the flag says whether any enemy was struck |
| Combat.ResolveSwing | ObonProject/src/Game/GamePart2.js:851-871 | a swing inside the 300 ms enemy window does nothing; otherwise the enemies are exactly the melee sweep's result and the stamp moves to now iff some live enemy was under the melee box; no enemy revives, and with non-negative damage none gains health |
| Combat.PlayerShot | ObonProject/src/Game/GamePart2.js:828-837 | a player shot starts flying in the player's facing direction |
| Combat.HandlePlayerActiveAttack | ObonProject/src/Game/GamePart2.js:840-882 | the attack step advances the lifecycle; a fired projectile that is configured adds exactly the player's shot, an unknown one adds nothing; only a swing touches enemies, through the enemy window; nothing happens off the trigger frame |
| Combat.FirstStruck | ObonProject/src/Game/GamePart2.js:988-1001 | the first live enemy in order whose hurt box the shot overlaps, or none |
| Combat.ShotVsEnemies | ObonProject/src/Game/GamePart2.js:984-1004 | a shot hits iff it flies, no cutscene runs, the enemy window has passed and it overlaps some live enemy; the first such enemy in order alone takes the hit, the window is stamped and the shot explodes; otherwise nothing changes |
| Combat.ShotHitsOnce | ObonProject/src/Game/GamePart2.js:984-993 | after a hit, the exploded shot can hit nothing on the next tick |
| Combat.PlayerShotsTick | ObonProject/src/Game/GamePart2.js:981-1007 | the loop keeps only shots with budget left, registers at most one enemy hit per tick, stamps the window when it does, and changes no enemy when it does not |
| Combat.PlayerShotsSurvivors | ObonProject/src/Game/GamePart2.js:981-1007 | with no hit the surviving shots are exactly the updated shots that are not spent, in their order |
| Combat.PlayerShotsHitIff | ObonProject/src/Game/GamePart2.js:981-1004 | the loop hits iff, outside a cutscene and the enemy window, some updated shot lands on a live enemy |
| Combat.PlayerShotsWhichHit | ObonProject/src/Game/GamePart2.js:981-1007 | a hit comes from the last landing shot (the loop runs from the end): it explodes, the other shots are updated, spent ones dropped, and the enemies take that shot's hit |
| Combat.OwnerName | ObonProject/src/Game/GamePart2.js:1019 | an empty owner kind counts as none |
| Combat.ShotVsPlayer | ObonProject/src/Game/GamePart2.js:1013-1030 | an enemy shot hits iff it flies, no cutscene runs, the 900 ms window has passed, it overlaps the player and the player lives; a fatal hit records the shot's owner (or none) as the killer, a non-fatal one leaves the killer |
| Combat.EnemyShotsTick | ObonProject/src/Game/GamePart2.js:1010-1033 | at most one enemy shot hits the player per tick; none inside the window; the killer changes only with a fatal hit |
| Combat.EnemyShotsSurvivors | ObonProject/src/Game/GamePart2.js:1010-1033 | with no hit the surviving enemy shots are exactly the updated shots that are not spent, in their order |
| Combat.EnemyShotsHitIff | ObonProject/src/Game/GamePart2.js:1010-1029 | the loop hits iff, outside a cutscene and the player window, some updated shot strikes the live player |
| Combat.EnemyShotsWhichHit | ObonProject/src/Game/GamePart2.js:1010-1033 | a hit comes from the last striking shot: it explodes, the others are updated, spent ones dropped, and the player takes that shot's hit |
| Combat.TouchFrom | ObonProject/src/Game/GamePart2.js:1037-1054 | outside the window and while the player lives, the first live grounded enemy within 10 px deals its contact damage, stamps the window and, on a fatal touch, becomes the killer; with no such enemy nothing changes |
| Combat.FirstToucher | ObonProject/src/Game/GamePart2.js:1037-1041 | the first enemy in order that is alive, grounded and within contact distance, or none |
| Combat.TouchDamage | ObonProject/src/Game/GamePart2.js:1035-1055 | no contact damage during a cutscene; otherwise the first touching enemy hits, as in TouchFrom |
| Combat.ContactOncePerWindow | ObonProject/src/Game/GamePart2.js:1040-1041 | two contact ticks within 900 ms cost health only once |
| Scenes.BgPath | ObonProject/src/Game/GamePart2.js:557 | a path with '/' is kept; anything else, including a missing value read as "undefined", goes under the backgrounds directory; the result always has a '/' |
| Scenes.BgPathIdempotent | ObonProject/src/Game/GamePart2.js:557 | normalising a background twice is normalising once |
| Scenes.NormalizeFlow | ObonProject/src/Game/GamePart2.js:561 | flow defaults are 0.9, 160 px and 600 ms, for a missing flow and for each missing field of a given one, each overridden by a given value |
| Scenes.NormalizeScene | ObonProject/src/Game/GamePart2.js:558-563 | id kept, background normalised, flow completed with the defaults, missing queue read as empty |
| Scenes.NormalizeScenes | ObonProject/src/Game/GamePart2.js:558-563 | scenes are normalised one by one, order and count preserved; a missing list gives none |
| Scenes.NormalizeSceneIdempotent | ObonProject/src/Game/GamePart2.js:558-563 | a normalised scene normalises to itself |
| Scenes.ChooseScenes | ObonProject/src/Game/GamePart2.js:578 | a non-empty caller list wins, otherwise the defaults; the result is never empty |
| Scenes.DefaultScenesShape | ObonProject/src/Game/GamePart2.js:564-577 | five default scenes, ids 6 to 10, the finale last with a 10 s spawn cooldown |
| Encounter.SpawnFromRight | ObonProject/src/Game/GamePart2.js:594-602 | a known kind adds one live enemy at full health beyond the right edge, on the ground or 140 px above it if it flies, with its kind's configuration and its kind's measured frame (the zero box while the image has not loaded), so its sprite box has that frame's size around its position; an unknown kind adds nothing |
| Encounter.MaybeSpawn | ObonProject/src/Game/GamePart2.js:654-686 | a spawn happens iff no cutscene, no live enemy, an entry remains, it has no unshown line and the cooldown has passed; a spawn advances the cursor by exactly one and stamps now; otherwise cursor, timer and enemies are unchanged |
| Encounter.OfferLine | ObonProject/src/Game/GamePart2.js:664-679 | an unshown line goes to the host hook when it drives speech and has one (once while a call is pending), otherwise to the bubble, which starts a cutscene unless the host drives speech |
| Encounter.SpawnNext | ObonProject/src/Game/GamePart2.js:683-685 | a spawn consumes the entry and stamps the timer |
| Encounter.HookNotReinvoked | ObonProject/src/Game/GamePart2.js:666 | while a pre-spawn hook call is pending it is not called again and nothing spawns |
| Encounter.ResolvePreLine | ObonProject/src/Game/GamePart2.js:664-678 | a resolved line marks its entry shown and clears the spawn timer; the hook path clears the pending mark, the bubble path ends the cutscene |
| Encounter.LineThenImmediateSpawn | ObonProject/src/Game/GamePart2.js:664-685 | after its line resolves, the entry spawns on the very next call, whatever the spawn cooldown |
| Encounter.UnknownKindStillAdvances | ObonProject/src/Game/GamePart2.js:681-685 | an unknown kind consumes its entry and stamps the timer without spawning |
| Encounter.ClearedSceneIsQuiet | ObonProject/src/Game/GamePart2.js:688-691 | a cleared scene spawns nothing and changes nothing |
| Encounter.RemoveFinished | ObonProject/src/Game/GamePart2.js:976-978 | only dead enemies whose death clip has ended are removed; a lone enemy is kept iff it is not finished; whether any enemy is alive is unchanged |
| Encounter.Finished | ObonProject/src/Game/GamePart2.js:949 | a removable enemy is dead and on the death clip, and in a well-formed clip on its last frame; a dead enemy on the last frame of its death clip is removable |
| Encounter.RemoveFinishedAppend | ObonProject/src/Game/GamePart2.js:976-978 | the removal keeps order: it distributes over concatenation, so the survivors are the unfinished enemies in their original order |
| Encounter.LoadSceneByIndex | ObonProject/src/Game/GamePart2.js:693-715 | the index is clamped into the list; enemies and allies are emptied; cursor, timer, hook flags, killer and pending line are reset; the player is alive at full health at the left start with no horizontal speed; projectiles, hit stamps and the cutscene flag are left as they were |
| Encounter.LoadIdempotent | ObonProject/src/Game/GamePart2.js:693-715 | loading the same scene twice is loading it once |
| Encounter.FindScene | ObonProject/src/Game/GamePart2.js:716 | the first scene with the id, or none |
| Encounter.LoadSceneById | ObonProject/src/Game/GamePart2.js:716 | an unknown id changes nothing; a known one loads its first scene |
| Encounter.GotoNextScene | ObonProject/src/Game/GamePart2.js:717 | the next scene is loaded unless this is the last, which reports the win instead and changes nothing |
| Encounter.IsLastScene | ObonProject/src/Game/GamePart2.js:823 | for a session on a valid scene index, the current scene is last iff it is the final one; otherwise a next scene exists |
| Encounter.SceneCleared | ObonProject/src/Game/GamePart2.js:688-691 | a scene is cleared iff its spawn queue is used up and every enemy is dead |
| Encounter.RetryScene | ObonProject/src/Game/GamePart2.js:718 | a retry is a reload of the current scene: player revived at full health, no enemies, cursor, hook flags and killer reset, scenes kept |
| Encounter.RetryIdempotent | ObonProject/src/Game/GamePart2.js:718 | retrying twice is retrying once |
| Encounter.ReadyStep | ObonProject/src/Game/GamePart2.js:1058-1072 | a cleared scene sets the flag once; the hook, if any, gets the scene id, index, whether it is the last, and whether the player's right edge has reached the scene's exit ratio of the view |
| Encounter.ReadyOncePerLoad | ObonProject/src/Game/GamePart2.js:1058-1059 | the ready hook fires at most once between loads |
| Encounter.DeathCheck | ObonProject/src/Game/GamePart2.js:1075-1097 | a due death is reported once to the hook; without a hook, a boss death in the finale revives the player with health unchanged and begins the transformation, any other death retries |
| Encounter.DeathHookOnce | ObonProject/src/Game/GamePart2.js:1075-1076 | the death hook fires at most once between loads |
| Encounter.AttackNameForSlot | ObonProject/src/Game/GamePart2.js:764-767 | the second hero maps slots 1 and 2 to slash and bolt; everyone else maps 3 and 4 to light and heavy; other slots name nothing |
| Encounter.SlotNamesDistinctAndConfigured | ObonProject/src/Game/GamePart2.js:764-767 | different slots never name the same attack, and each named attack is configured for its hero |
| Encounter.HeroTheme | ObonProject/src/Game/GamePart2.js:885-900 | the theme names exactly the hero's attack slots and carries every non-zero slot cooldown |
| Encounter.ThemeShowsHeroSlots | ObonProject/src/Game/GamePart2.js:885-900 | a toolbar themed for a hero shows exactly the slots that hero can use |
| Encounter.NearestLive | ObonProject/src/Game/GamePart2.js:738-747 | the aim target is the first live enemy at least horizontal distance, or none |
| Encounter.AimDirection | ObonProject/src/Game/GamePart2.js:738-747 | with no live enemy the player keeps its facing; otherwise it faces right iff the nearest live enemy stands at or beyond it |
| Encounter.AimTowardNearest | ObonProject/src/Game/GamePart2.js:738-747 | with an enemy alive, the chosen direction points at a live enemy that no live enemy is nearer than |
| Encounter.TriggerAttackBySlot | ObonProject/src/Game/GamePart2.js:768-779 | a slot without a configured attack changes nothing; otherwise only the player changes, to the result of aiming at the nearest enemy and starting the slot's attack, and a start is reported (with the slot, the attack's cooldown and now) exactly when it happened |
| Encounter.TriggerReportsIffStarted | ObonProject/src/Game/GamePart2.js:772-778 | the toolbar is told iff the slot names an attack the player can start now |
| Encounter.AimAndStart | ObonProject/src/Game/GamePart2.js:771-772 | the player faces the aim direction, even when the attack then refuses to start |
| Encounter.TransformToGrandpa | ObonProject/src/Game/GamePart2.js:794-817 | the transformation marks the finale done, adds the first hero as an ally and replaces the player with the second hero at full health, keeping its height and facing and at most half the view from the left |
| Encounter.TransformHappensOnce | ObonProject/src/Game/GamePart2.js:1084 | after the transformation a later death without a hook retries |
| Encounter.CombatTick | ObonProject/src/Game/GamePart2.js:935-1055 | one tick's damage never adds enemies, and a field with no live enemy stays without one; the player loses health only with a hit stamped now and never inside its window; the killer changes only on a fatal hit |
| SpriteFrames.Wrap | ObonProject/src/Game/DOM.js:200 | `((index % total) + total) % total` lands in [0, total) and is congruent to the index |
| SpriteFrames.Cell2x2 | ObonProject/src/Game/DOM.js:146-148 | column and row are 0 or 1 and `2*row + col` is the index mod 4 |
| SpriteFrames.Frame2x2 | ObonProject/src/Game/DOM.js:144-150 | each position component is 0% or 100% |
| SpriteFrames.Frame2x2MatchesPlayOrder | ObonProject/src/Game/DOM.js:144-164 | frame i of the 2x2 sheet is entry i mod 4 of the reading order that `playSprite2x2` steps through |
| SpriteFrames.CellOf | ObonProject/src/Game/DOM.js:196-202 | column below cols, row below rows, and `row*cols + col` is the index modulo the frame count |
| SpriteFrames.AxisPercent | ObonProject/src/Game/DOM.js:203-204 | 0 on a single-cell axis, otherwise the cell's share in [0, 100], first cell 0 and last cell 100 |
| SpriteFrames.SpriteFrame | ObonProject/src/Game/DOM.js:196-205 | the position is the column's and the row's percentage of the wrapped frame's cell, each in [0, 100] and 0 on a single-cell axis |
| SpriteFrames.AxisPercentIncreasing | ObonProject/src/Game/DOM.js:203-204 | a later cell along an axis gets a strictly larger percentage |
| SpriteFrames.SpriteFrameInjective | ObonProject/src/Game/DOM.js:196-205 | two different frames of one sheet are drawn from two different positions |
| SpriteFrames.CellPeriodic | ObonProject/src/Game/DOM.js:200 | the cell depends only on the index modulo the frame count |
| SpriteFrames.CellInjective | ObonProject/src/Game/DOM.js:200-202 | distinct frames of one sheet get distinct cells |
| SpriteFrames.SpriteFrameGeneralizes2x2 | ObonProject/src/Game/DOM.js:144-205 | on a 2x2 sheet the general routine and the 2x2 one agree |
| Text.NatToString | ObonProject/src/toolbar.js:13 | a natural prints as digits without leading zeros |
| Text.NatStringRoundTrip | ObonProject/src/toolbar.js:13 | reading printed digits back gives the number |
| Text.NatToStringInjective | ObonProject/src/toolbar.js:13 | different numbers print differently |
| Toolbar.FormatDuration | ObonProject/src/toolbar.js:11-14 | from 10 s on the text is whole seconds, below it seconds with one decimal; a negative duration prints as "0.0s" |
| Toolbar.FormatDurationReadsBack | ObonProject/src/toolbar.js:11-14 | the shown number is the duration rounded up to a whole second from 10 s on, and to the nearest tenth below |
| Toolbar.FormatDurationClampsNegative | ObonProject/src/toolbar.js:12 | negative input prints like 0 |
| Toolbar.Initial | ObonProject/src/toolbar.js:25-38 | the four slots start empty and idle, with buttons where the page has them |
| Toolbar.Caption | ObonProject/src/toolbar.js:79 | the caption is the name, then " (", then digits that read back as the slot, then ")" |
| Toolbar.ThemeSlot | ObonProject/src/toolbar.js:74-85 | a slot with a button is shown and captioned iff the theme names it, else hidden; its stored duration is overwritten only by a truthy cooldown; a slot without a button is untouched |
| Toolbar.OnHeroTheme | ObonProject/src/toolbar.js:70-87 | the theme step applies to each attack slot and to nothing else |
| Toolbar.OnHeroThemeIdempotent | ObonProject/src/toolbar.js:70-87 | applying the same theme twice is applying it once |
| Toolbar.Progress | ObonProject/src/toolbar.js:130-131 | the progress percentage lies in [0, 100]: 0 with the full cooldown left, 100 when none is left |
| Toolbar.ProgressMonotone | ObonProject/src/toolbar.js:130-131 | progress only grows as the remaining time shrinks |
| Toolbar.TickSlot | ObonProject/src/toolbar.js:119-144 | a slot with a button is disabled, marked cooling and given a progress value iff time remains and its stored duration is positive; the cooling countdown is the remaining time in `formatDuration`'s form; otherwise it is re-enabled and a captioned slot's countdown is cleared |
| Toolbar.Tick | ObonProject/src/toolbar.js:113-151 | the tick step applies to each attack slot; the loop keeps running iff some slot is cooling |
| Toolbar.TickStopsWhenIdle | ObonProject/src/toolbar.js:147-150 | with nothing cooling the loop stops and every button is enabled |
| Toolbar.OnAttackFired | ObonProject/src/toolbar.js:89-97 | a missing slot or a duration (event's, else stored, else 0) of at most 0 changes nothing; otherwise the slot's cooldown ends `duration` after the given start or now, every other slot keeps its end, and the loop runs afterwards iff it already ran or the kick tick finds a slot cooling |
| Toolbar.Kick | ObonProject/src/toolbar.js:96 | a running loop is returned unchanged; an idle one gets exactly one tick and runs afterwards iff some slot is cooling; stored ends and captions are untouched |
| Toolbar.FiredSlotCoolsDown | ObonProject/src/toolbar.js:89-144 | given a positive stored duration, a fired slot shows as cooling on every tick until its cooldown ends and is re-enabled from then on |
| Toolbar.FireStartsLoop | ObonProject/src/toolbar.js:89-97 | firing a slot with a button and a stored duration leaves the loop running |
| Toolbar.LateFireLeavesLoopIdle | ObonProject/src/toolbar.js:147-150 | a fire whose cooldown is already over, on an idle toolbar with nothing cooling, leaves the loop idle |
| Toolbar.OnControlsState | ObonProject/src/toolbar.js:99-105 | every attack slot with a button takes the flag; nothing else changes |

## Left out

- Drawing is not modelled: canvas drawing, health bars, the background, the fade overlay and its interpolation, and the hover motion (`Math.sin`).
- Image loading and pivot set-up are not modelled. A fighter's pivot offset and on-screen frame size (`FrameBox`) are supplied by the host instead of being measured from the loaded image: the heroes' as arguments of `Encounter.TransformToGrandpa` or with the session's player, the enemies' in the session's `enemyFrames` map, one box per kind. An enemy whose image has not loaded spawns with the zero box (`NoFrame`), as an unloaded image's width and height read 0.
- The animation-frame loop and its 30 fps limiter are not modelled. One tick is one step with `frameScale = 2`.
- `Fighter.update`'s movement, gravity and clamping to the view, and the enemies' chase-and-shoot AI, are not modelled: they are not part of the combat state machines listed here.
- `blockMovementX` is modelled; the AI code that calls it is not.
- `applyRunAnimation`, the allies' idle step and the enemies' shooting cooldown map are left out with that movement code.
- The enemy's `shootEnemy` is reduced to the spawn point (`Projectiles.SpawnPoint`). When an enemy fires is AI timing and is not modelled.
- `main.js` is not modelled: it only bootstraps the modules.
- Hooks and promises are not modelled as asynchronous code. They appear as outputs of the steps (`AskHook`, `ShowBubble`, `DeathHook`, `BeginTransform`) and as explicit resolution steps (`ResolvePreLine`, `TransformToGrandpa`). The 500 ms fades around the transformation are not modelled.
- Keyboard, mouse, touch and `CustomEvent` plumbing is not modelled. The speech-bubble DOM, `stop()` and the whole of the story layer except its frame-index helpers are also left out; only the `cutsceneActive` flag remains.
- `cloneEnemyConf`'s per-entry overrides are not modelled. Queue entries carry only a kind and an optional line.
- A `null` background is not modelled: only a missing one (read as "undefined").
- Combat: each hit in the source reads `performance.now()` again; here one `now` serves the whole tick.
- Toolbar.FormatDuration: rounds halves up on exact reals. `toFixed(1)` works on the binary double, so a value such as 0.15 s can print as "0.1s".
- SpriteFrames.SpriteFrame: requires at least one column and one row. With a zero count the source computes NaN.
- Toolbar.Tick: numbers are reals. NaN and non-numeric event fields are not modelled.
- Encounter.CombatTick: states the player-side and enemy-count facts only. The per-block contracts are in `Combat`.
- Encounter.CombatTick: applies the corrected fatal-hit order (`Fighters.Kill`) to enemies and player alike. As written, a killed fighter keeps its clip and a killed enemy is never removed (see Findings).
- Fighters.SpriteRect: uses one `FrameBox` per fighter. In the source the box follows the current clip: its size is the clip image divided by the clip's `gridCols`/`gridRows` (GamePart2.js:488-496), and `switchSprite` recomputes the pivot for each image (GamePart2.js:386). So here the sprite, hurt and melee boxes do not change when the clip changes.
- Fighters.HitPlayer: states the corrected fatal-hit order; the code as written is `Fighters.HitPlayerAsWritten`.
- `initializeToolbar` throws when its root element is missing (toolbar.js:23). The model assumes the root exists; the error is not modelled.
- A projectile clip with `framesHold` 0 is excluded (`Projectiles.Playable`): the source's drain loop (GamePart2.js:465) would never end. No configured clip has a hold of 0.
- A flow field present with the value `undefined` is not modelled: an object spread would let it replace the default. Here a field is either given or missing.

## Findings

| source | as written | input that shows it | evidently intended | confidence | as-written member | corrected member |
|---|---|---|---|---|---|---|
| ObonProject/src/Game/GamePart2.js:861 | a fatal hit sets `dead = true` and then calls `switchSprite('death')`, which returns at once for a dead fighter, so the death clip never starts; the same order appears at lines 994, 1022 and 1046, and the removal test at line 949 needs `state === 'death'`, so a killed enemy is never removed | a freshly spawned rat (3 hp) in its run clip, struck for 5 damage, ends dead but still on "run" (lemma `Fighters.DeathClipNeverShown`; `Fighters.KillAsWrittenKeepsClip` shows it for every fighter) | switch to the death clip, then mark the fighter dead, so the clip plays and the enemy is removed when it ends | high, not executed | Fighters.HitEnemyAsWritten | Fighters.HitEnemy |
| ObonProject/src/Game/GamePart2.js:1022 | a fatal enemy shot sets `player.dead = true` and then calls `switchSprite('death')`, which returns at once for a dead fighter; contact damage at line 1046 does the same, so the player never shows the death clip | Anko (14 hp) on her idle clip takes a 14-damage hit and ends dead but still on "idle" (lemma `Fighters.PlayerDeathClipNeverShown`) | switch to the death clip, then mark the player dead | high, not executed | Fighters.HitPlayerAsWritten | Fighters.HitPlayer |

=== FILE: animation.dfy ===
/** Sprite-sheet playback (`Sprite._animate`, GamePart2.js:238-254).

    Each simulation tick adds `FrameScale` reference frames to an accumulator;
    every whole hold period drains one frame advance. Loop playback wraps the
    frame index with JavaScript `%`; ping-pong playback walks back and forth,
    clamping into `[0, framesMax - 1]` and reversing at either end. */
module Animation {
  import opened JsMath

  /** Ticks run at 30 Hz against constants tuned for 60 Hz (GamePart2.js:912). */
  const FrameScale: nat := 2

  datatype Anim = Anim(
    framesMax: int,
    framesHold: nat,       // `framesHold || 1`: a hold of 0 counts as 1
    framesCurrent: int,
    framesElapsed: nat,
    frameDirection: int,
    pingPong: bool)

  /** Reference frames per shown frame. */
  function Hold(a: Anim): (h: nat)
    ensures h >= 1
    ensures a.framesHold > 0 ==> h == a.framesHold
  {
    if a.framesHold == 0 then 1 else a.framesHold
  }

  /** The index range playback keeps to: loop mode stays in `[0, framesMax)`;
      ping-pong stays in `[0, framesMax - 1]`, moves forward from the first frame
      and backward from the last one. A sheet of at most one frame never moves. */
  ghost predicate WellFormed(a: Anim) {
    a.framesMax > 1 ==>
      if a.pingPong then
        && 0 <= a.framesCurrent <= a.framesMax - 1
        && (a.frameDirection == 1 || a.frameDirection == -1)
        && (a.framesCurrent == 0 ==> a.frameDirection == 1)
        && (a.framesCurrent == a.framesMax - 1 ==> a.frameDirection == -1)
      else
        0 <= a.framesCurrent < a.framesMax
  }

  /** The playback position a freshly switched sheet starts from. */
  function Restart(a: Anim): (r: Anim)
    ensures WellFormed(r)
    ensures r.framesMax == a.framesMax && r.pingPong == a.pingPong
  {
    a.(framesCurrent := 0, framesElapsed := 0, frameDirection := 1)
  }

  /** One frame advance: the body of the drain loop. */
  function Advance(a: Anim): (r: Anim)
    requires a.framesMax > 1
    ensures r.framesMax == a.framesMax && r.framesHold == a.framesHold
    ensures r.framesElapsed == a.framesElapsed && r.pingPong == a.pingPong
    ensures !a.pingPong && a.framesCurrent >= 0 ==>
      r.framesCurrent == (a.framesCurrent + 1) % a.framesMax && r.frameDirection == a.frameDirection
  {
    if a.pingPong then
      var cur := a.framesCurrent + a.frameDirection;
      var end := a.framesMax - 1;
      if cur >= end || cur <= 0 then
        a.(framesCurrent := MaxI(0, MinI(cur, end)), frameDirection := -a.frameDirection)
      else
        a.(framesCurrent := cur)
    else
      a.(framesCurrent := JsRem(a.framesCurrent + 1, a.framesMax))
  }

  /** `n` frame advances in a row. */
  function Steps(a: Anim, n: nat): (r: Anim)
    requires a.framesMax > 1
    ensures r.framesMax == a.framesMax && r.framesHold == a.framesHold
    ensures r.framesElapsed == a.framesElapsed && r.pingPong == a.pingPong
  {
    if n == 0 then a else Advance(Steps(a, n - 1))
  }

  /** Advancing keeps playback inside its range. */
  lemma AdvanceWellFormed(a: Anim)
    requires a.framesMax > 1 && WellFormed(a)
    ensures WellFormed(Advance(a))
  {
  }

  /** Ping-pong reverses exactly when it lands on the first or the last frame. */
  lemma PingPongFlipsAtEnds(a: Anim)
    requires a.framesMax > 1 && a.pingPong && WellFormed(a)
    ensures var r := Advance(a);
      (r.frameDirection == -a.frameDirection) <==> (r.framesCurrent == 0 || r.framesCurrent == a.framesMax - 1)
    ensures var r := Advance(a); r.framesCurrent == a.framesCurrent + a.frameDirection
  {
  }

  lemma {:induction false} StepsWellFormed(a: Anim, n: nat)
    requires a.framesMax > 1 && WellFormed(a)
    ensures WellFormed(Steps(a, n))
  {
    if n > 0 {
      StepsWellFormed(a, n - 1);
      AdvanceWellFormed(Steps(a, n - 1));
    }
  }

  /** Loop playback in closed form: `n` advances from frame `f` land on
      frame `(f + n) mod framesMax`. */
  lemma {:induction false} LoopStepsClosedForm(a: Anim, n: nat)
    requires a.framesMax > 1 && !a.pingPong && 0 <= a.framesCurrent < a.framesMax
    ensures Steps(a, n).framesCurrent == (a.framesCurrent + n) % a.framesMax
  {
    if n > 0 {
      LoopStepsClosedForm(a, n - 1);
      RemSucc(a.framesCurrent + n - 1, a.framesMax);
    }
  }

  /** Taking the remainder before or after adding one gives the same frame. */
  lemma RemSucc(x: nat, m: int)
    requires m > 1
    ensures (x % m + 1) % m == (x + 1) % m
  {
    var q, p := x / m, x % m;
    assert x == m * q + p;
    if p + 1 < m {
      DivModUnique(x + 1, m, q, p + 1);
      DivModUnique(p + 1, m, 0, p + 1);
    } else {
      assert x + 1 == m * (q + 1) + 0;
      DivModUnique(x + 1, m, q + 1, 0);
      DivModUnique(p + 1, m, 1, 0);
    }
  }

  /** `_animate`: one tick of playback. A sheet with more than one frame gains
      `FrameScale` reference frames and then drains as many whole hold periods
      as it holds, advancing one frame for each; the leftover stays below one
      hold period. */
  method Animate(a: Anim) returns (r: Anim)
    ensures a.framesMax <= 1 ==> r == a
    ensures a.framesMax > 1 ==>
      var total := a.framesElapsed + FrameScale;
      r == Steps(a, total / Hold(a)).(framesElapsed := total % Hold(a))
    ensures a.framesMax > 1 ==> r.framesElapsed < Hold(a)
    ensures WellFormed(a) ==> WellFormed(r)
    ensures r.framesMax == a.framesMax && r.framesHold == a.framesHold && r.pingPong == a.pingPong
  {
    if a.framesMax <= 1 {
      return a;
    }
    var total := a.framesElapsed + FrameScale;
    var h := Hold(a);
    r := a.(framesElapsed := total);
    ghost var k: nat := 0;
    while r.framesElapsed >= h
      invariant k * h <= total
      invariant r == Steps(a, k).(framesElapsed := total - k * h)
      decreases r.framesElapsed
    {
      r := Advance(r).(framesElapsed := r.framesElapsed - h);
      k := k + 1;
    }
    DivModUnique(total, h, k, total - k * h);
    if WellFormed(a) {
      StepsWellFormed(a, k);
    }
  }
}

=== FILE: clock.dfy ===
/** Millisecond time stamps of the combat runtime. A stamp that was never set
    holds JavaScript's `-Infinity`; here it is `None`. Against `-Infinity` every
    "time since" comparison is `+Infinity`, so every cooldown has passed. */
module Clock {
  import opened Wrappers

  type Stamp = Option<int>

  /** The negation of `now - last < cooldown`. */
  predicate CooledDown(now: int, last: Stamp, cooldown: int): (r: bool)
    ensures last.None? ==> r
    ensures last.Some? ==> (r <==> now >= last.value + cooldown)
  {
    last.None? || now - last.value >= cooldown
  }

  /** `now - last > window`: an invulnerability window has run out. */
  predicate WindowPassed(now: int, last: Stamp, window: int): (r: bool)
    ensures last.None? ==> r
    ensures last.Some? ==> (r <==> now >= last.value + window + 1)
    ensures r <==> CooledDown(now, last, window + 1)
  {
    last.None? || now - last.value > window
  }
}

=== FILE: combat.dfy ===
/** The damage blocks of the simulation tick (GamePart2.js:840-882, 980-1055):
    the player's active attack, player shots against enemies, enemy shots
    against the player, and contact damage. Each is gated by an invulnerability
    window: 300 ms shared by all enemies, 900 ms for the player. */
module Combat {
  import opened Wrappers
  import opened Clock
  import opened JsMath
  import opened Geometry
  import opened Config
  import opened Fighters
  import opened Projectiles

  const PlayerInvMs := 900
  const EnemyInvMs := 300
  /** `MIN_SEP`, also the contact distance. */
  const MinSep: real := 10.0

  /** The enemies and the stamp of the last hit any of them took. */
  datatype EnemySide = EnemySide(enemies: seq<Fighter>, lastEnemyHitAt: Stamp)

  /** The player, the stamp of the last hit it took, and who dealt the fatal one. */
  datatype PlayerSide = PlayerSide(player: Fighter, lastPlayerHitAt: Stamp, lastKillerKind: Option<string>)

  /** A live enemy whose hurt box the given box overlaps. */
  predicate Struck(box: Rect, e: Fighter) {
    !e.dead && Overlap(box, HurtRectOf(e))
  }

  /** Enemies never come back to life and keep their maximum health. */
  ghost predicate OnlyWounded(before: seq<Fighter>, after: seq<Fighter>) {
    |after| == |before| &&
    forall i :: 0 <= i < |before| ==>
      (before[i].dead ==> after[i].dead) && after[i].maxHp == before[i].maxHp
  }

  /** No enemy's health rises (a negative health may only be floored at 0):
      what non-negative damage guarantees. */
  ghost predicate NoHealing(before: seq<Fighter>, after: seq<Fighter>) {
    |after| == |before| &&
    forall i :: 0 <= i < |before| ==> after[i].hp <= MaxI(before[i].hp, 0)
  }

  /** One enemy under the sweep: hit when the box strikes it, else untouched. */
  function SweepOne(box: Rect, e: Fighter, dmg: int, playerX: real): (r: Fighter)
    ensures Struck(box, e) ==> r == HitEnemy(e, dmg, playerX)
    ensures !Struck(box, e) ==> r == e
  {
    if Struck(box, e) then HitEnemy(e, dmg, playerX) else e
  }

  /** The melee sweep: every live enemy under the box takes the damage (no
      early exit); the flag reports whether any was hit. */
  function MeleeSweep(box: Rect, es: seq<Fighter>, dmg: int, playerX: real): (r: (seq<Fighter>, bool))
    ensures |r.0| == |es|
    ensures forall i :: 0 <= i < |es| ==> r.0[i] == SweepOne(box, es[i], dmg, playerX)
    ensures r.1 <==> exists i :: 0 <= i < |es| && Struck(box, es[i])
    decreases |es|
  {
    if |es| == 0 then ([], false)
    else
      var rest := MeleeSweep(box, es[1..], dmg, playerX);
      assert forall i :: 1 <= i < |es| ==> es[i] == es[1..][i - 1];
      ([SweepOne(box, es[0], dmg, playerX)] + rest.0, Struck(box, es[0]) || rest.1)
  }

  /** A melee swing lands only once the enemy window has passed, and any hit
      restarts that window. */
  function ResolveSwing(p: Fighter, side: EnemySide, dmg: int, now: int): (r: EnemySide)
    ensures !WindowPassed(now, side.lastEnemyHitAt, EnemyInvMs) ==> r == side
    ensures WindowPassed(now, side.lastEnemyHitAt, EnemyInvMs) ==>
      r.enemies == MeleeSweep(MeleeRectOf(p), side.enemies, dmg, p.pos.x).0
    ensures OnlyWounded(side.enemies, r.enemies)
    ensures dmg >= 0 ==> NoHealing(side.enemies, r.enemies)
    ensures r.lastEnemyHitAt == side.lastEnemyHitAt || r.lastEnemyHitAt == Some(now)
    ensures WindowPassed(now, side.lastEnemyHitAt, EnemyInvMs) ==>
      (r.lastEnemyHitAt == Some(now) <==> exists i :: 0 <= i < |side.enemies| && Struck(MeleeRectOf(p), side.enemies[i]))
  {
    if !WindowPassed(now, side.lastEnemyHitAt, EnemyInvMs) then side
    else
      var sweep := MeleeSweep(MeleeRectOf(p), side.enemies, dmg, p.pos.x);
      EnemySide(sweep.0, if sweep.1 then Some(now) else side.lastEnemyHitAt)
  }

  lemma PlayerProjectilesPlayable(name: string)
    requires name in PlayerProjectiles
    ensures Playable(PlayerProjectiles[name])
  {
  }

  /** A player shot for the named projectile, spawned on the player's facing side. */
  function PlayerShot(p: Fighter, name: string): (s: Projectile)
    requires name in PlayerProjectiles
    ensures s.phase == Fly && s.ownerTag == Player && s.dir == p.facing && Valid(s)
  {
    PlayerProjectilesPlayable(name);
    var conf := PlayerProjectiles[name];
    var xy := SpawnPoint(SpriteRect(p), conf, p.facing);
    NewProjectile(Player, Some(p.kind), conf, xy.0, xy.1, p.facing)
  }

  /** `handlePlayerActiveAttack`: advance the attack lifecycle, then resolve
      its effect — a projectile is added when its configuration exists, a
      melee swing hits through the enemy window. */
  function HandlePlayerActiveAttack(p: Fighter, side: EnemySide, now: int): (r: (Fighter, EnemySide, Option<Projectile>))
    ensures r.0 == AttackStep(p).0
    ensures r.2.Some? ==> AttackStep(p).1.Fire? && r.2.value.phase == Fly && r.2.value.ownerTag == Player
    ensures !AttackStep(p).1.Swing? ==> r.1 == side
    ensures OnlyWounded(side.enemies, r.1.enemies)
    ensures !Fires(p) ==> r.1 == side && r.2.None?
    ensures AttackStep(p).1.Fire? && AttackStep(p).1.projectile in PlayerProjectiles ==>
      r.2 == Some(PlayerShot(p, AttackStep(p).1.projectile))
    ensures AttackStep(p).1.Swing? ==> r.1 == ResolveSwing(p, side, AttackStep(p).1.damage, now)
  {
    var step := AttackStep(p);
    match step.1
    case NoEffect => (step.0, side, None)
    case Fire(name) =>
      (step.0, side, if name in PlayerProjectiles then Some(PlayerShot(p, name)) else None)
    case Swing(dmg) => (step.0, ResolveSwing(p, side, dmg, now), None)
  }

  /** The first live enemy under the box, scanning in order. */
  function FirstStruck(box: Rect, es: seq<Fighter>): (r: Option<nat>)
    ensures r.Some? ==> r.value < |es| && Struck(box, es[r.value])
    ensures r.Some? ==> forall j :: 0 <= j < r.value ==> !Struck(box, es[j])
    ensures r.None? ==> forall j :: 0 <= j < |es| ==> !Struck(box, es[j])
    decreases |es|
  {
    if |es| == 0 then None
    else if Struck(box, es[0]) then Some(0)
    else
      var rest := FirstStruck(box, es[1..]);
      assert forall i :: 1 <= i < |es| ==> es[i] == es[1..][i - 1];
      if rest.Some? then Some(rest.value + 1) else None
  }

  /** The shot struck enemy `i`, and only that enemy changed. */
  predicate LandsOn(shot: Projectile, before: seq<Fighter>, after: seq<Fighter>, playerX: real, i: int) {
    0 <= i < |before| && Struck(HitRect(shot), before[i]) &&
    after == before[i := HitEnemy(before[i], shot.conf.damage.GetOr(1), playerX)]
  }

  /** The shot is in flight and overlaps a live enemy. */
  predicate Lands(shot: Projectile, side: EnemySide) {
    shot.phase == Fly && FirstStruck(HitRect(shot), side.enemies).Some?
  }

  /** One player shot after its update (GamePart2.js:984-1004): while flying
      and outside the enemy window it hits the first live enemy it overlaps,
      once, and explodes. */
  function ShotVsEnemies(shot: Projectile, side: EnemySide, playerX: real, now: int, cutscene: bool): (r: (Projectile, EnemySide, bool))
    requires Valid(shot)
    ensures Valid(r.0)
    ensures !r.2 ==> r.0 == shot && r.1 == side
    ensures r.2 ==> !cutscene && shot.phase == Fly && WindowPassed(now, side.lastEnemyHitAt, EnemyInvMs)
    ensures r.2 ==> r.0 == Explode(shot) && r.1.lastEnemyHitAt == Some(now)
    ensures r.2 ==> exists i :: LandsOn(shot, side.enemies, r.1.enemies, playerX, i)
    ensures r.2 <==> !cutscene && WindowPassed(now, side.lastEnemyHitAt, EnemyInvMs) && Lands(shot, side)
    ensures r.2 ==> LandsOn(shot, side.enemies, r.1.enemies, playerX, FirstStruck(HitRect(shot), side.enemies).value)
    ensures OnlyWounded(side.enemies, r.1.enemies)
    ensures shot.conf.damage.GetOr(1) >= 0 ==> NoHealing(side.enemies, r.1.enemies)
  {
    if cutscene || shot.phase != Fly || !WindowPassed(now, side.lastEnemyHitAt, EnemyInvMs) then (shot, side, false)
    else
      match FirstStruck(HitRect(shot), side.enemies)
      case None => (shot, side, false)
      case Some(i) =>
        var e := HitEnemy(side.enemies[i], shot.conf.damage.GetOr(1), playerX);
        assert LandsOn(shot, side.enemies, side.enemies[i := e], playerX, i);
        (Explode(shot), EnemySide(side.enemies[i := e], Some(now)), true)
  }

  /** A projectile hits at most once: after an impact it can hit nothing more. */
  lemma ShotHitsOnce(shot: Projectile, side: EnemySide, playerX: real, now: int, later: int, cutscene: bool)
    requires Valid(shot)
    requires ShotVsEnemies(shot, side, playerX, now, cutscene).2
    ensures var r := ShotVsEnemies(shot, side, playerX, now, cutscene);
      !ShotVsEnemies(Update(r.0), r.1, playerX, later, false).2
  {
  }

  /** Every shot advanced by one update, in order. */
  ghost function Advanced(shots: seq<Projectile>): (r: seq<Projectile>)
    requires forall i :: 0 <= i < |shots| ==> Valid(shots[i])
    ensures |r| == |shots|
    ensures forall i :: 0 <= i < |shots| ==> r[i] == Update(shots[i])
    decreases |shots|
  {
    if |shots| == 0 then []
    else Advanced(shots[..|shots| - 1]) + [Update(shots[|shots| - 1])]
  }

  /** The shots that are not spent, in their order. */
  ghost function Unspent(shots: seq<Projectile>): (r: seq<Projectile>)
    ensures forall i :: 0 <= i < |r| ==> !Spent(r[i])
    ensures |r| <= |shots|
    ensures forall p :: p in r <==> p in shots && !Spent(p)
    decreases |shots|
  {
    if |shots| == 0 then []
    else
      var last := shots[|shots| - 1];
      assert shots == shots[..|shots| - 1] + [last];
      Unspent(shots[..|shots| - 1]) + (if Spent(last) then [] else [last])
  }

  lemma UnspentSnoc(shots: seq<Projectile>, x: Projectile)
    ensures Unspent(shots + [x]) == Unspent(shots) + (if Spent(x) then [] else [x])
  {
    assert (shots + [x])[..|shots|] == shots;
  }

  lemma SetLast(a: seq<Projectile>, x: Projectile, v: Projectile)
    ensures (a + [x])[|a| := v] == a + [v]
  {
  }

  lemma UpdateBeforeLast(a: seq<Projectile>, x: Projectile, i: int, v: Projectile)
    requires 0 <= i < |a|
    ensures (a + [x])[i := v] == a[i := v] + [x]
  {
  }

  /** No updated shot after the `i`-th lands. */
  ghost predicate NoLaterLands(shots: seq<Projectile>, side: EnemySide, i: int)
    requires forall k :: 0 <= k < |shots| ==> Valid(shots[k])
  {
    forall j :: 0 <= j < |shots| && i < j ==> !Lands(Update(shots[j]), side)
  }

  lemma NoLaterLandsSnoc(shots: seq<Projectile>, side: EnemySide, i: int)
    requires |shots| > 0 && forall k :: 0 <= k < |shots| ==> Valid(shots[k])
    requires NoLaterLands(shots[..|shots| - 1], side, i)
    requires !Lands(Update(shots[|shots| - 1]), side)
    ensures NoLaterLands(shots, side, i)
  {
    assert forall j :: 0 <= j < |shots| - 1 ==> shots[..|shots| - 1][j] == shots[j];
  }

  /** The tick's outcome when shot `i` is the one that hits: the last shot in
      the list that lands (the loop runs last to first); every shot is
      updated, shot `i` explodes, spent shots are dropped, and the enemies
      take that shot's hit. */
  ghost predicate PlayerShotHits(shots: seq<Projectile>, side: EnemySide, playerX: real, now: int, cutscene: bool,
                                 r: (seq<Projectile>, EnemySide, nat), i: int)
    requires forall k :: 0 <= k < |shots| ==> Valid(shots[k])
  {
    !cutscene && WindowPassed(now, side.lastEnemyHitAt, EnemyInvMs) &&
    0 <= i < |shots| && Lands(Update(shots[i]), side) && NoLaterLands(shots, side, i) &&
    r.0 == Unspent(Advanced(shots)[i := Explode(Update(shots[i]))]) &&
    r.1 == ShotVsEnemies(Update(shots[i]), side, playerX, now, cutscene).1
  }

  /** The player-shot loop of one tick: each shot (last to first) updates, may
      hit, and is dropped once spent. Returns the surviving shots in order and
      the number of hits: one when some updated shot lands outside the enemy
      window, else none. */
  function PlayerShotsTick(shots: seq<Projectile>, side: EnemySide, playerX: real, now: int, cutscene: bool): (r: (seq<Projectile>, EnemySide, nat))
    requires forall i :: 0 <= i < |shots| ==> Valid(shots[i])
    ensures forall i :: 0 <= i < |r.0| ==> Valid(r.0[i]) && !Spent(r.0[i])
    ensures |r.0| <= |shots|
    ensures OnlyWounded(side.enemies, r.1.enemies)
    ensures r.2 > 0 ==> r.1.lastEnemyHitAt == Some(now)
    ensures r.2 == 0 ==> r.1 == side
    ensures r.2 <= 1
    ensures !WindowPassed(now, side.lastEnemyHitAt, EnemyInvMs) ==> r.2 == 0
    decreases |shots|
  {
    if |shots| == 0 then ([], side, 0)
    else
      var pre := shots[..|shots| - 1];
      var last := shots[|shots| - 1];
      var u := Update(last);
      var hit := ShotVsEnemies(u, side, playerX, now, cutscene);
      var rest := PlayerShotsTick(pre, hit.1, playerX, now, cutscene);
      var kept := if Spent(hit.0) then rest.0 else rest.0 + [hit.0];
      (kept, rest.1, rest.2 + (if hit.2 then 1 else 0))
  }

  /** With no hit, the player-shot loop keeps exactly the updated, unspent
      shots, in order. */
  lemma {:induction false} PlayerShotsSurvivors(shots: seq<Projectile>, side: EnemySide, playerX: real, now: int, cutscene: bool)
    requires forall i :: 0 <= i < |shots| ==> Valid(shots[i])
    ensures var r := PlayerShotsTick(shots, side, playerX, now, cutscene);
      r.2 == 0 ==> r.0 == Unspent(Advanced(shots))
    decreases |shots|
  {
    if |shots| > 0 {
      var pre := shots[..|shots| - 1];
      var u := Update(shots[|shots| - 1]);
      var hit := ShotVsEnemies(u, side, playerX, now, cutscene);
      if !hit.2 {
        PlayerShotsSurvivors(pre, side, playerX, now, cutscene);
        assert forall j :: 0 <= j < |pre| ==> shots[j] == pre[j];
        assert Advanced(shots) == Advanced(pre) + [u];
        UnspentSnoc(Advanced(pre), u);
      }
    }
  }

  /** The player-shot loop scores a hit exactly when, outside a cutscene and
      the enemy window, some updated shot lands. */
  lemma {:induction false} PlayerShotsHitIff(shots: seq<Projectile>, side: EnemySide, playerX: real, now: int, cutscene: bool)
    requires forall i :: 0 <= i < |shots| ==> Valid(shots[i])
    ensures PlayerShotsTick(shots, side, playerX, now, cutscene).2 == 1 <==>
      !cutscene && WindowPassed(now, side.lastEnemyHitAt, EnemyInvMs) &&
      exists i :: 0 <= i < |shots| && Lands(Update(shots[i]), side)
    decreases |shots|
  {
    if |shots| > 0 {
      var pre := shots[..|shots| - 1];
      var u := Update(shots[|shots| - 1]);
      var hit := ShotVsEnemies(u, side, playerX, now, cutscene);
      if !hit.2 {
        PlayerShotsHitIff(pre, side, playerX, now, cutscene);
        assert forall j :: 0 <= j < |pre| ==> shots[j] == pre[j];
      }
    }
  }

  /** The last shot lands: it is the one that hits. */
  lemma LastShotHits(shots: seq<Projectile>, side: EnemySide, playerX: real, now: int, cutscene: bool)
    requires |shots| > 0 && forall i :: 0 <= i < |shots| ==> Valid(shots[i])
    requires ShotVsEnemies(Update(shots[|shots| - 1]), side, playerX, now, cutscene).2
    ensures PlayerShotHits(shots, side, playerX, now, cutscene, PlayerShotsTick(shots, side, playerX, now, cutscene), |shots| - 1)
  {
    var pre := shots[..|shots| - 1];
    var u := Update(shots[|shots| - 1]);
    var hit := ShotVsEnemies(u, side, playerX, now, cutscene);
    var rest := PlayerShotsTick(pre, hit.1, playerX, now, cutscene);
    var r := PlayerShotsTick(shots, side, playerX, now, cutscene);
    assert r.1 == rest.1 && r.0 == (if Spent(hit.0) then rest.0 else rest.0 + [hit.0]);
    assert rest.2 == 0 && rest.1 == hit.1;
    assert r.0 == Unspent(Advanced(shots)[|pre| := hit.0]) by {
      PlayerShotsSurvivors(pre, hit.1, playerX, now, cutscene);
      assert Advanced(shots) == Advanced(pre) + [u];
      UnspentSnoc(Advanced(pre), hit.0);
      SetLast(Advanced(pre), u, hit.0);
    }
  }

  /** Survivors and enemy side when an earlier shot hits. */
  lemma EarlierShotHitsKeeps(shots: seq<Projectile>, side: EnemySide, playerX: real, now: int, cutscene: bool, i: int)
    requires |shots| > 0 && forall k :: 0 <= k < |shots| ==> Valid(shots[k])
    requires !ShotVsEnemies(Update(shots[|shots| - 1]), side, playerX, now, cutscene).2
    requires PlayerShotHits(shots[..|shots| - 1], side, playerX, now, cutscene,
                            PlayerShotsTick(shots[..|shots| - 1], side, playerX, now, cutscene), i)
    ensures var r := PlayerShotsTick(shots, side, playerX, now, cutscene);
      r.0 == Unspent(Advanced(shots)[i := Explode(Update(shots[i]))]) && r.1 == ShotVsEnemies(Update(shots[i]), side, playerX, now, cutscene).1
  {
    var pre := shots[..|shots| - 1];
    var u := Update(shots[|shots| - 1]);
    var e := Explode(Update(shots[i]));
    var rest := PlayerShotsTick(pre, side, playerX, now, cutscene);
    assert pre[i] == shots[i];
    assert Advanced(shots) == Advanced(pre) + [u];
    UnspentSnoc(Advanced(pre)[i := e], u);
    UpdateBeforeLast(Advanced(pre), u, i, e);
  }

  /** The last shot misses and shot `i` hits among the others: shot `i` is
      still the one that hits once the last shot is added back. */
  lemma EarlierShotHits(shots: seq<Projectile>, side: EnemySide, playerX: real, now: int, cutscene: bool, i: int)
    requires |shots| > 0 && forall k :: 0 <= k < |shots| ==> Valid(shots[k])
    requires !ShotVsEnemies(Update(shots[|shots| - 1]), side, playerX, now, cutscene).2
    requires PlayerShotHits(shots[..|shots| - 1], side, playerX, now, cutscene,
                            PlayerShotsTick(shots[..|shots| - 1], side, playerX, now, cutscene), i)
    ensures PlayerShotHits(shots, side, playerX, now, cutscene, PlayerShotsTick(shots, side, playerX, now, cutscene), i)
  {
    var pre := shots[..|shots| - 1];
    assert Lands(Update(shots[i]), side) by {
      assert pre[i] == shots[i];
    }
    var u := Update(shots[|shots| - 1]);
    assert !Lands(u, side) by {
      assert !ShotVsEnemies(u, side, playerX, now, cutscene).2 && !cutscene && WindowPassed(now, side.lastEnemyHitAt, EnemyInvMs);
    }
    NoLaterLandsSnoc(shots, side, i);
    EarlierShotHitsKeeps(shots, side, playerX, now, cutscene, i);
  }

  /** When the player-shot loop hits, the hit comes from the last shot that
      lands, which explodes; the others are updated and the spent ones
      dropped. */
  lemma {:induction false} PlayerShotsWhichHit(shots: seq<Projectile>, side: EnemySide, playerX: real, now: int, cutscene: bool)
    requires forall i :: 0 <= i < |shots| ==> Valid(shots[i])
    ensures var r := PlayerShotsTick(shots, side, playerX, now, cutscene);
      r.2 == 1 ==> exists i :: PlayerShotHits(shots, side, playerX, now, cutscene, r, i)
    decreases |shots|
  {
    if |shots| > 0 {
      var pre := shots[..|shots| - 1];
      var hit := ShotVsEnemies(Update(shots[|shots| - 1]), side, playerX, now, cutscene);
      if hit.2 {
        LastShotHits(shots, side, playerX, now, cutscene);
      } else if PlayerShotsTick(pre, side, playerX, now, cutscene).2 == 1 {
        PlayerShotsWhichHit(pre, side, playerX, now, cutscene);
        var i :| PlayerShotHits(pre, side, playerX, now, cutscene, PlayerShotsTick(pre, side, playerX, now, cutscene), i);
        EarlierShotHits(shots, side, playerX, now, cutscene, i);
      }
    }
  }

  /** `proj.ownerKind || null`: an empty kind counts as none. */
  function OwnerName(shot: Projectile): (r: Option<string>)
    ensures r.Some? <==> shot.ownerKind.Some? && shot.ownerKind.value != ""
    ensures r.Some? ==> r == shot.ownerKind
  {
    if shot.ownerKind.Some? && shot.ownerKind.value != "" then shot.ownerKind else None
  }

  /** The shot is in flight and overlaps the live player. */
  predicate Strikes(shot: Projectile, side: PlayerSide) {
    shot.phase == Fly && Overlap(HitRect(shot), SpriteRect(side.player)) && !side.player.dead
  }

  /** One enemy shot after its update (GamePart2.js:1013-1030): while flying,
      outside the player window, it hits a live player it overlaps once,
      explodes, and records its owner as the killer only on a fatal hit. */
  function ShotVsPlayer(shot: Projectile, side: PlayerSide, now: int, cutscene: bool): (r: (Projectile, PlayerSide, bool))
    requires Valid(shot)
    ensures Valid(r.0)
    ensures !r.2 ==> r.0 == shot && r.1 == side
    ensures r.2 <==> !cutscene && WindowPassed(now, side.lastPlayerHitAt, PlayerInvMs) && Strikes(shot, side)
    ensures r.2 ==> (r.0 == Explode(shot) && r.1.lastPlayerHitAt == Some(now) &&
      r.1.player == HitPlayer(side.player, shot.conf.damage.GetOr(1), shot.xHit))
    ensures r.1.lastKillerKind != side.lastKillerKind ==> r.1.player.hp == 0 && r.1.player.dead
    ensures r.2 && r.1.player.hp == 0 ==> r.1.lastKillerKind == OwnerName(shot)
    ensures r.2 && r.1.player.hp > 0 ==> r.1.lastKillerKind == side.lastKillerKind
  {
    var p := side.player;
    if cutscene || shot.phase != Fly || !WindowPassed(now, side.lastPlayerHitAt, PlayerInvMs)
       || !Overlap(HitRect(shot), SpriteRect(p)) || p.dead then (shot, side, false)
    else
      var p' := HitPlayer(p, shot.conf.damage.GetOr(1), shot.xHit);
      var killer := if p'.hp <= 0 then OwnerName(shot) else side.lastKillerKind;
      (Explode(shot), PlayerSide(p', Some(now), killer), true)
  }

  /** The enemy shots loop of one tick, last to first, like the player's. */
  function EnemyShotsTick(shots: seq<Projectile>, side: PlayerSide, now: int, cutscene: bool): (r: (seq<Projectile>, PlayerSide, nat))
    requires forall i :: 0 <= i < |shots| ==> Valid(shots[i])
    ensures forall i :: 0 <= i < |r.0| ==> Valid(r.0[i]) && !Spent(r.0[i])
    ensures |r.0| <= |shots|
    ensures r.2 > 0 ==> r.1.lastPlayerHitAt == Some(now)
    ensures r.2 == 0 ==> r.1 == side
    ensures r.2 <= 1
    ensures !WindowPassed(now, side.lastPlayerHitAt, PlayerInvMs) ==> r.2 == 0
    ensures r.1.lastKillerKind != side.lastKillerKind ==> r.1.player.hp == 0 && r.1.player.dead
    decreases |shots|
  {
    if |shots| == 0 then ([], side, 0)
    else
      var u := Update(shots[|shots| - 1]);
      var hit := ShotVsPlayer(u, side, now, cutscene);
      var rest := EnemyShotsTick(shots[..|shots| - 1], hit.1, now, cutscene);
      var kept := if Spent(hit.0) then rest.0 else rest.0 + [hit.0];
      (kept, rest.1, rest.2 + (if hit.2 then 1 else 0))
  }

  /** No updated shot after the `i`-th strikes the player. */
  ghost predicate NoLaterStrikes(shots: seq<Projectile>, side: PlayerSide, i: int)
    requires forall k :: 0 <= k < |shots| ==> Valid(shots[k])
  {
    forall j :: 0 <= j < |shots| && i < j ==> !Strikes(Update(shots[j]), side)
  }

  lemma NoLaterStrikesSnoc(shots: seq<Projectile>, side: PlayerSide, i: int)
    requires |shots| > 0 && forall k :: 0 <= k < |shots| ==> Valid(shots[k])
    requires NoLaterStrikes(shots[..|shots| - 1], side, i)
    requires !Strikes(Update(shots[|shots| - 1]), side)
    ensures NoLaterStrikes(shots, side, i)
  {
    assert forall j :: 0 <= j < |shots| - 1 ==> shots[..|shots| - 1][j] == shots[j];
  }

  /** The tick's outcome when enemy shot `i` is the one that hits: the last
      shot that strikes; every shot is updated, shot `i` explodes, spent
      shots are dropped, and the player takes that shot's hit. */
  ghost predicate EnemyShotHits(shots: seq<Projectile>, side: PlayerSide, now: int, cutscene: bool,
                                r: (seq<Projectile>, PlayerSide, nat), i: int)
    requires forall k :: 0 <= k < |shots| ==> Valid(shots[k])
  {
    !cutscene && WindowPassed(now, side.lastPlayerHitAt, PlayerInvMs) &&
    0 <= i < |shots| && Strikes(Update(shots[i]), side) && NoLaterStrikes(shots, side, i) &&
    r.0 == Unspent(Advanced(shots)[i := Explode(Update(shots[i]))]) &&
    r.1 == ShotVsPlayer(Update(shots[i]), side, now, cutscene).1
  }

  /** With no hit, the enemy-shot loop keeps exactly the updated, unspent
      shots, in order. */
  lemma {:induction false} EnemyShotsSurvivors(shots: seq<Projectile>, side: PlayerSide, now: int, cutscene: bool)
    requires forall i :: 0 <= i < |shots| ==> Valid(shots[i])
    ensures var r := EnemyShotsTick(shots, side, now, cutscene);
      r.2 == 0 ==> r.0 == Unspent(Advanced(shots))
    decreases |shots|
  {
    if |shots| > 0 {
      var pre := shots[..|shots| - 1];
      var u := Update(shots[|shots| - 1]);
      if !ShotVsPlayer(u, side, now, cutscene).2 {
        EnemyShotsSurvivors(pre, side, now, cutscene);
        assert forall j :: 0 <= j < |pre| ==> shots[j] == pre[j];
        assert Advanced(shots) == Advanced(pre) + [u];
        UnspentSnoc(Advanced(pre), u);
      }
    }
  }

  /** The enemy-shot loop scores a hit exactly when, outside a cutscene and
      the player window, some updated shot strikes the live player. */
  lemma {:induction false} EnemyShotsHitIff(shots: seq<Projectile>, side: PlayerSide, now: int, cutscene: bool)
    requires forall i :: 0 <= i < |shots| ==> Valid(shots[i])
    ensures EnemyShotsTick(shots, side, now, cutscene).2 == 1 <==>
      !cutscene && WindowPassed(now, side.lastPlayerHitAt, PlayerInvMs) &&
      exists i :: 0 <= i < |shots| && Strikes(Update(shots[i]), side)
    decreases |shots|
  {
    if |shots| > 0 {
      var pre := shots[..|shots| - 1];
      if !ShotVsPlayer(Update(shots[|shots| - 1]), side, now, cutscene).2 {
        EnemyShotsHitIff(pre, side, now, cutscene);
        assert forall j :: 0 <= j < |pre| ==> shots[j] == pre[j];
      }
    }
  }

  /** The last enemy shot strikes: it is the one that hits. */
  lemma LastEnemyShotHits(shots: seq<Projectile>, side: PlayerSide, now: int, cutscene: bool)
    requires |shots| > 0 && forall i :: 0 <= i < |shots| ==> Valid(shots[i])
    requires ShotVsPlayer(Update(shots[|shots| - 1]), side, now, cutscene).2
    ensures EnemyShotHits(shots, side, now, cutscene, EnemyShotsTick(shots, side, now, cutscene), |shots| - 1)
  {
    var pre := shots[..|shots| - 1];
    var u := Update(shots[|shots| - 1]);
    var hit := ShotVsPlayer(u, side, now, cutscene);
    var rest := EnemyShotsTick(pre, hit.1, now, cutscene);
    var r := EnemyShotsTick(shots, side, now, cutscene);
    assert r.1 == rest.1 && r.0 == (if Spent(hit.0) then rest.0 else rest.0 + [hit.0]);
    assert rest.2 == 0 && rest.1 == hit.1;
    assert r.0 == Unspent(Advanced(shots)[|pre| := hit.0]) by {
      EnemyShotsSurvivors(pre, hit.1, now, cutscene);
      assert Advanced(shots) == Advanced(pre) + [u];
      UnspentSnoc(Advanced(pre), hit.0);
      SetLast(Advanced(pre), u, hit.0);
    }
  }

  /** Survivors and player side when an earlier shot hits. */
  lemma EarlierEnemyShotHitsKeeps(shots: seq<Projectile>, side: PlayerSide, now: int, cutscene: bool, i: int)
    requires |shots| > 0 && forall k :: 0 <= k < |shots| ==> Valid(shots[k])
    requires !ShotVsPlayer(Update(shots[|shots| - 1]), side, now, cutscene).2
    requires EnemyShotHits(shots[..|shots| - 1], side, now, cutscene,
                           EnemyShotsTick(shots[..|shots| - 1], side, now, cutscene), i)
    ensures var r := EnemyShotsTick(shots, side, now, cutscene);
      r.0 == Unspent(Advanced(shots)[i := Explode(Update(shots[i]))]) && r.1 == ShotVsPlayer(Update(shots[i]), side, now, cutscene).1
  {
    var pre := shots[..|shots| - 1];
    var u := Update(shots[|shots| - 1]);
    var e := Explode(Update(shots[i]));
    var rest := EnemyShotsTick(pre, side, now, cutscene);
    assert pre[i] == shots[i];
    assert Advanced(shots) == Advanced(pre) + [u];
    UnspentSnoc(Advanced(pre)[i := e], u);
    UpdateBeforeLast(Advanced(pre), u, i, e);
  }

  /** The last enemy shot misses and shot `i` hits among the others: shot
      `i` is still the one that hits once the last shot is added back. */
  lemma EarlierEnemyShotHits(shots: seq<Projectile>, side: PlayerSide, now: int, cutscene: bool, i: int)
    requires |shots| > 0 && forall k :: 0 <= k < |shots| ==> Valid(shots[k])
    requires !ShotVsPlayer(Update(shots[|shots| - 1]), side, now, cutscene).2
    requires EnemyShotHits(shots[..|shots| - 1], side, now, cutscene,
                           EnemyShotsTick(shots[..|shots| - 1], side, now, cutscene), i)
    ensures EnemyShotHits(shots, side, now, cutscene, EnemyShotsTick(shots, side, now, cutscene), i)
  {
    var pre := shots[..|shots| - 1];
    assert Strikes(Update(shots[i]), side) by {
      assert pre[i] == shots[i];
    }
    var u := Update(shots[|shots| - 1]);
    assert !Strikes(u, side) by {
      assert !ShotVsPlayer(u, side, now, cutscene).2 && !cutscene && WindowPassed(now, side.lastPlayerHitAt, PlayerInvMs);
    }
    NoLaterStrikesSnoc(shots, side, i);
    EarlierEnemyShotHitsKeeps(shots, side, now, cutscene, i);
  }

  /** When the enemy-shot loop hits, the hit comes from the last shot that
      strikes; its owner is recorded as the killer on a fatal hit. */
  lemma {:induction false} EnemyShotsWhichHit(shots: seq<Projectile>, side: PlayerSide, now: int, cutscene: bool)
    requires forall i :: 0 <= i < |shots| ==> Valid(shots[i])
    ensures var r := EnemyShotsTick(shots, side, now, cutscene);
      r.2 == 1 ==> exists i :: EnemyShotHits(shots, side, now, cutscene, r, i)
    decreases |shots|
  {
    if |shots| > 0 {
      var pre := shots[..|shots| - 1];
      if ShotVsPlayer(Update(shots[|shots| - 1]), side, now, cutscene).2 {
        LastEnemyShotHits(shots, side, now, cutscene);
      } else if EnemyShotsTick(pre, side, now, cutscene).2 == 1 {
        EnemyShotsWhichHit(pre, side, now, cutscene);
        var i :| EnemyShotHits(pre, side, now, cutscene, EnemyShotsTick(pre, side, now, cutscene), i);
        EarlierEnemyShotHits(shots, side, now, cutscene, i);
      }
    }
  }

  /** An enemy that can hurt by touch: alive and bound to the ground. */
  predicate Toucher(e: Fighter) {
    !e.dead && e.conf.usesGravity
  }

  /** A toucher within contact distance of the player. */
  predicate Touches(e: Fighter, p: Fighter) {
    Toucher(e) && NearContact(SpriteRect(e), SpriteRect(p), MinSep)
  }

  /** The first enemy, in order, that touches the player. */
  function FirstToucher(es: seq<Fighter>, p: Fighter): (r: Option<nat>)
    ensures r.Some? ==> r.value < |es| && Touches(es[r.value], p)
    ensures r.Some? ==> forall j :: 0 <= j < r.value ==> !Touches(es[j], p)
    ensures r.None? ==> forall j :: 0 <= j < |es| ==> !Touches(es[j], p)
    decreases |es|
  {
    if |es| == 0 then None
    else if Touches(es[0], p) then Some(0)
    else
      var rest := FirstToucher(es[1..], p);
      assert forall i :: 1 <= i < |es| ==> es[i] == es[1..][i - 1];
      if rest.Some? then Some(rest.value + 1) else None
  }

  /** The contact-damage loop (GamePart2.js:1036-1055): outside the player
      window and while the player lives, the first touching enemy deals its
      contact damage and restarts the window, which shields the player from
      the rest; a fatal touch records that enemy's kind as the killer. */
  function TouchFrom(es: seq<Fighter>, side: PlayerSide, now: int): (r: PlayerSide)
    ensures !WindowPassed(now, side.lastPlayerHitAt, PlayerInvMs) ==> r == side
    ensures side.player.dead ==> r == side
    ensures FirstToucher(es, side.player).None? ==> r == side
    ensures var k := FirstToucher(es, side.player);
      WindowPassed(now, side.lastPlayerHitAt, PlayerInvMs) && !side.player.dead && k.Some? ==>
        r.player == HitPlayer(side.player, es[k.value].conf.contactDamage.GetOr(1), es[k.value].pos.x) &&
        r.lastPlayerHitAt == Some(now) &&
        r.lastKillerKind == (if r.player.hp == 0 then Some(es[k.value].kind) else side.lastKillerKind)
    ensures r.lastKillerKind != side.lastKillerKind ==> r.player.hp == 0 && r.player.dead
    decreases |es|
  {
    if |es| == 0 then side
    else
      var e := es[0];
      var side' :=
        if Toucher(e) && WindowPassed(now, side.lastPlayerHitAt, PlayerInvMs) && !side.player.dead
           && NearContact(SpriteRect(e), SpriteRect(side.player), MinSep) then
          var p' := HitPlayer(side.player, e.conf.contactDamage.GetOr(1), e.pos.x);
          PlayerSide(p', Some(now), if p'.hp <= 0 then Some(e.kind) else side.lastKillerKind)
        else side;
      var r := TouchFrom(es[1..], side', now);
      assert forall i :: 1 <= i < |es| ==> es[i] == es[1..][i - 1];
      assert side' != side ==> !WindowPassed(now, side'.lastPlayerHitAt, PlayerInvMs);
      r
  }

  /** Contact damage for one tick; nothing while a cutscene runs. Otherwise
      the first touching enemy hits, as in `TouchFrom`. */
  function TouchDamage(es: seq<Fighter>, side: PlayerSide, now: int, cutscene: bool): (r: PlayerSide)
    ensures cutscene ==> r == side
    ensures r == side || (r.lastPlayerHitAt == Some(now) &&
      exists i :: 0 <= i < |es| && Toucher(es[i]) &&
        r.player == HitPlayer(side.player, es[i].conf.contactDamage.GetOr(1), es[i].pos.x))
    ensures var k := FirstToucher(es, side.player);
      !cutscene && WindowPassed(now, side.lastPlayerHitAt, PlayerInvMs) && !side.player.dead && k.Some? ==>
        r.player == HitPlayer(side.player, es[k.value].conf.contactDamage.GetOr(1), es[k.value].pos.x) &&
        r.lastPlayerHitAt == Some(now) &&
        r.lastKillerKind == (if r.player.hp == 0 then Some(es[k.value].kind) else side.lastKillerKind)
    ensures r.lastKillerKind != side.lastKillerKind ==> r.player.hp == 0 && r.player.dead
  {
    if cutscene then side else TouchFrom(es, side, now)
  }

  /** Two contacts within the player's window cost health only once: the
      second tick, up to 900 ms after the first hit, changes nothing. */
  lemma ContactOncePerWindow(es: seq<Fighter>, side: PlayerSide, t1: int, t2: int, es2: seq<Fighter>)
    requires t1 <= t2 <= t1 + PlayerInvMs
    ensures var r1 := TouchDamage(es, side, t1, false);
      r1 != side ==> TouchDamage(es2, r1, t2, false) == r1
  {
  }
}

=== FILE: config.dfy ===
/** Declarative per-kind configuration (the `ASSETS` table, GamePart2.js:45-194),
    reduced to the fields the simulation reads. Asset paths, tints and other
    drawing-only fields are not kept. */
module Config {
  import opened Wrappers
  import opened Geometry

  /** One named animation clip of a fighter. */
  datatype SheetConf = SheetConf(framesMax: int, framesHold: Option<nat>, hitFrame: Option<int>, pingPong: bool)

  /** One named attack: melee or projectile, with its animation, trigger frame
      and cooldown. `anim` is `""` when the definition has none. */
  datatype AttackDef = AttackDef(
    isProjectile: bool,
    anim: string,
    projectile: string,
    fireFrame: Option<int>,
    hitFrame: Option<int>,
    damage: Option<int>,
    cooldownMs: Option<int>)

  /** The legacy single melee definition (`conf.melee`). */
  datatype MeleeConf = MeleeConf(damage: Option<int>, box: Option<AttackBox>, hitFrame: Option<int>)

  /** One sub-animation of a projectile sheet (flight or impact). */
  datatype ProjClip = ProjClip(count: int, framesHold: Option<nat>, pingPong: bool)

  datatype HitBox = HitBox(x: real, y: real, w: real, h: real)

  datatype ProjConf = ProjConf(
    fly: ProjClip,
    hit: ProjClip,
    tile: Option<real>,
    scale: Option<real>,
    speed: Option<real>,
    rangePx: Option<real>,
    damage: Option<int>,
    spawnX: real,
    spawnY: real,
    hitbox: Option<HitBox>)

  /** Where a fighter's pivot sits inside its frame and how large the frame is
      on screen. In the source this is measured from the loaded image; here
      the host supplies it: for the heroes as an argument, for enemies through
      the session's per-kind frames. */
  datatype FrameBox = FrameBox(offX: real, offY: real, w: real, h: real)

  datatype FighterConf = FighterConf(
    name: string,
    usesGravity: bool,
    scale: real,
    maxHp: Option<int>,
    hp: Option<int>,
    contactDamage: Option<int>,
    insetX: real,
    insetTop: real,
    sheets: map<string, SheetConf>,
    attacks: map<string, AttackDef>,
    melee: Option<MeleeConf>,
    projectile: Option<ProjConf>,
    frame: FrameBox)

  function Sheet(framesMax: int, framesHold: Option<nat>): SheetConf {
    SheetConf(framesMax, framesHold, None, false)
  }

  /** The box of an image that has not loaded yet: its width and height read 0. */
  const NoFrame := FrameBox(0.0, 0.0, 0.0, 0.0)

  const HeroA := FighterConf(
    "Anko", false, 1.6, Some(14), None, None, 0.0, 0.0,
    map[
      "idle" := Sheet(4, Some(10)), "runRight" := Sheet(5, Some(10)), "runLeft" := Sheet(5, Some(10)),
      "castLight" := Sheet(4, Some(8)), "castHeavy" := Sheet(4, Some(8)),
      "takeHit" := Sheet(4, None), "death" := Sheet(4, None)],
    map[
      "light" := AttackDef(true, "castLight", "AnkoAttack1", Some(1), None, None, Some(1000)),
      "heavy" := AttackDef(true, "castHeavy", "AnkoAttack2", Some(2), None, None, Some(10000))],
    None, None, NoFrame)

  const HeroB := FighterConf(
    "Grandpa", false, 2.5, Some(100), None, None, 0.0, 0.0,
    map[
      "idle" := Sheet(10, None), "run" := Sheet(16, Some(10)),
      "attack1" := SheetConf(7, None, Some(3), false), "cast" := Sheet(7, Some(7)),
      "takeHit" := Sheet(4, None), "death" := Sheet(4, None)],
    map[
      "slash" := AttackDef(false, "attack1", "", None, Some(6), Some(5), Some(260)),
      "bolt" := AttackDef(true, "cast", "GrandpaChiSlash", Some(3), None, None, Some(500))],
    Some(MeleeConf(Some(5), Some(AttackBox(0.0, 60.0, 70.0, 120.0)), Some(6))), None, NoFrame)

  const Rat := FighterConf(
    "Rat", true, 2.0, None, Some(3), Some(1), 10.0, 8.0,
    map["idle" := Sheet(3, None), "run" := Sheet(2, Some(10)), "takeHit" := Sheet(4, None), "death" := Sheet(2, None)],
    map[], None, None, NoFrame)

  const RatElectric := FighterConf(
    "Rat (Electric)", true, 2.0, None, Some(6), Some(2), 10.0, 8.0,
    map["idle" := Sheet(3, Some(4)), "run" := Sheet(3, Some(4)), "takeHit" := Sheet(3, Some(4)), "death" := Sheet(3, Some(4))],
    map[], None, None, NoFrame)

  const GhostShot := ProjConf(
    ProjClip(4, Some(5), true), ProjClip(4, Some(5), false),
    Some(32.0), Some(1.6), Some(5.0), Some(700.0), Some(1), 36.0, 50.0, Some(HitBox(8.0, 8.0, 16.0, 12.0)))

  const GhostBossShot := ProjConf(
    ProjClip(4, Some(4), true), ProjClip(4, Some(4), false),
    Some(32.0), Some(3.0), Some(5.0), Some(900.0), Some(2), 40.0, 60.0, Some(HitBox(8.0, 8.0, 16.0, 12.0)))

  const Ghost := FighterConf(
    "Ghost", false, 0.45, None, Some(14), None, 20.0, 20.0,
    map["idle" := Sheet(4, Some(22)), "run" := Sheet(4, Some(26)), "takeHit" := Sheet(4, Some(26)), "death" := Sheet(4, Some(26))],
    map[], None, Some(GhostShot), NoFrame)

  const GhostBoss := FighterConf(
    "Ghost Boss", false, 0.6, None, Some(20), None, 20.0, 26.0,
    map["idle" := Sheet(4, Some(26)), "run" := Sheet(4, Some(30)), "takeHit" := Sheet(4, Some(30)), "death" := Sheet(4, Some(30))],
    map[], None, Some(GhostBossShot), NoFrame)

  const EnemyConfs: map<string, FighterConf> :=
    map["rat" := Rat, "ratElectric" := RatElectric, "ghost" := Ghost, "ghostBoss" := GhostBoss]

  const PlayerProjectiles: map<string, ProjConf> := map[
    "AnkoAttack1" := ProjConf(ProjClip(2, Some(12), true), ProjClip(2, Some(4), false),
      Some(32.0), Some(1.8), Some(4.0), Some(520.0), Some(1), 56.0, 64.0, Some(HitBox(8.0, 8.0, 16.0, 12.0))),
    "AnkoAttack2" := ProjConf(ProjClip(4, Some(3), true), ProjClip(4, Some(3), false),
      Some(32.0), Some(1.0), Some(2.0), Some(640.0), Some(3), 56.0, 64.0, Some(HitBox(8.0, 8.0, 16.0, 12.0))),
    "GrandpaChiSlash" := ProjConf(ProjClip(4, Some(3), true), ProjClip(4, Some(3), false),
      Some(32.0), Some(2.2), Some(7.0), Some(700.0), Some(2), 56.0, 84.0, Some(HitBox(8.0, 8.0, 16.0, 12.0)))]
}

=== FILE: encounter.dfy ===
/** The encounter scheduler of `startGame` (GamePart2.js:579-724, 764-826,
    1058-1097): the current scene, the spawn cursor and timer, pre-spawn
    lines, scene loading, the once-per-load hook flags, the finale
    transformation and attack slots. One record holds the game's mutable
    variables; every operation is a step on it. */
module Encounter {
  import opened Wrappers
  import opened Clock
  import opened JsMath
  import opened Geometry
  import opened Config
  import opened Animation
  import opened Fighters
  import opened Projectiles
  import opened Combat
  import opened Scenes
  import Toolbar

  /** How far above the ground a flying enemy enters. */
  const FlyerLift: real := 140.0
  /** Where a reloaded player's left edge is put. */
  const StartX: real := 40.0

  datatype Session = Session(
    scenes: seq<Scene>,
    index: nat,                      // currentSceneIndex
    cursor: nat,                     // spawnCursor
    lastSpawnAt: Stamp,
    nextHookSent: bool,
    deathHookSent: bool,
    finaleTransformed: bool,
    lastKillerKind: Option<string>,
    pendingPreSpawn: bool,           // a pre-spawn hook call is outstanding
    cutsceneActive: bool,
    player: Fighter,
    allies: seq<Fighter>,
    enemies: seq<Fighter>,
    playerShots: seq<Projectile>,
    enemyShots: seq<Projectile>,
    lastEnemyHitAt: Stamp,
    lastPlayerHitAt: Stamp,
    viewWidth: real,                 // cssWidth()
    groundY: real,
    enemyFrames: map<string, FrameBox>)  // measured frame of each enemy kind whose image has loaded

  /** The frame a newly spawned enemy of `kind` gets: the measured one, or the
      zero box of an image that has not loaded (its width and height read 0). */
  function EnemyFrame(s: Session, kind: string): FrameBox {
    if kind in s.enemyFrames then s.enemyFrames[kind] else NoFrame
  }

  ghost predicate Valid(s: Session) {
    0 < |s.scenes| && s.index < |s.scenes| &&
    (forall i :: 0 <= i < |s.playerShots| ==> Projectiles.Valid(s.playerShots[i])) &&
    (forall i :: 0 <= i < |s.enemyShots| ==> Projectiles.Valid(s.enemyShots[i]))
  }

  function Current(s: Session): Scene
    requires 0 < |s.scenes| && s.index < |s.scenes|
  {
    s.scenes[s.index]
  }

  /** `aliveEnemies()`. */
  predicate AnyAlive(es: seq<Fighter>) {
    exists i :: 0 <= i < |es| && !es[i].dead
  }

  // ---------------------------------------------------------------------
  // Spawning (GamePart2.js:594-602, 654-686)

  lemma EnemyConfsHaveIdle(kind: string)
    requires kind in EnemyConfs
    ensures "idle" in EnemyConfs[kind].sheets
  {
  }

  /** `spawnFromRight`: a known kind enters just beyond the right edge, on the
      ground or, if it flies, 140 px above it; an unknown kind adds nothing. */
  function SpawnFromRight(s: Session, spec: SpawnSpec): (r: Session)
    requires 0 < |s.scenes| && s.index < |s.scenes|
    ensures r.(enemies := s.enemies) == s
    ensures spec.kind !in EnemyConfs ==> r.enemies == s.enemies
    ensures spec.kind in EnemyConfs ==> |r.enemies| == |s.enemies| + 1 && r.enemies[..|s.enemies|] == s.enemies
    ensures spec.kind in EnemyConfs ==>
      var e := r.enemies[|s.enemies|];
      !e.dead && e.tag == Enemy && e.kind == spec.kind && e.hp == e.maxHp &&
      e.pos.x == s.viewWidth + Current(s).flow.offscreenSpawnPx &&
      e.pos.y == (if EnemyConfs[spec.kind].usesGravity then s.groundY else s.groundY - FlyerLift)
    ensures spec.kind in EnemyConfs ==>
      var e := r.enemies[|s.enemies|];
      var fb := EnemyFrame(s, spec.kind);
      e.conf == EnemyConfs[spec.kind].(frame := fb) &&
      SpriteRect(e) == Rect(e.pos.x - fb.offX, e.pos.y - fb.offY, fb.w, fb.h)
  {
    if spec.kind !in EnemyConfs then s
    else
      var conf := EnemyConfs[spec.kind].(frame := EnemyFrame(s, spec.kind));
      EnemyConfsHaveIdle(spec.kind);
      var y := if conf.usesGravity then s.groundY else s.groundY - FlyerLift;
      var x := s.viewWidth + Current(s).flow.offscreenSpawnPx;
      s.(enemies := s.enemies + [NewFighter(Enemy, spec.kind, conf, Vec(x, y))])
  }

  /** The entry has a line (a non-empty string) not yet shown. */
  predicate LinePending(spec: SpawnSpec) {
    spec.preLine.Some? && spec.preLine.value != "" && !spec.preShown
  }

  /** What one call of `maybeSpawnNextEnemy` did. */
  datatype SpawnStep =
    | NoSpawn
    | AskHook(line: string)          // `onPreSpawnLine` was called
    | ShowBubble(line: string)       // the internal speech bubble was opened
    | Spawned                        // the cursor moved on (an enemy entered if its kind is known)

  /** Every gate of `maybeSpawnNextEnemy` is open. */
  predicate SpawnGatesOpen(s: Session, now: int)
    requires 0 < |s.scenes| && s.index < |s.scenes|
  {
    && !s.cutsceneActive
    && !AnyAlive(s.enemies)
    && s.cursor < |Current(s).queue|
    && !LinePending(Current(s).queue[s.cursor])
    && CooledDown(now, s.lastSpawnAt, Current(s).flow.spawnCooldownMs)
  }

  /** `maybeSpawnNextEnemy(now)`. `useDomSpeech` and `hasLineHook` say whether
      the host drives speech and supplies `onPreSpawnLine`. */
  function MaybeSpawn(s: Session, now: int, useDomSpeech: bool, hasLineHook: bool): (r: (Session, SpawnStep))
    requires Valid(s)
    ensures Valid(r.0)
    ensures r.1 == Spawned <==> SpawnGatesOpen(s, now)
    ensures r.1 != Spawned ==>
      r.0.(pendingPreSpawn := s.pendingPreSpawn, cutsceneActive := s.cutsceneActive) == s
    ensures r.1 == Spawned ==> s.cursor < |Current(s).queue| && r.0 == SpawnNext(s, now)
    ensures r.1.AskHook? || r.1.ShowBubble? ==>
      s.cursor < |Current(s).queue| && LinePending(Current(s).queue[s.cursor]) &&
      r == OfferLine(s, useDomSpeech, hasLineHook)
    ensures s.cursor <= |Current(s).queue| ==> r.0.cursor <= |Current(r.0).queue|
  {
    var scene := Current(s);
    if s.cutsceneActive || AnyAlive(s.enemies) || s.cursor >= |scene.queue| then (s, NoSpawn)
    else if LinePending(scene.queue[s.cursor]) then OfferLine(s, useDomSpeech, hasLineHook)
    else if !CooledDown(now, s.lastSpawnAt, scene.flow.spawnCooldownMs) then (s, NoSpawn)
    else (SpawnNext(s, now), Spawned)
  }

  /** The pre-spawn line of the current entry: through the host's hook when
      it drives speech and has one (unless a call is outstanding), through
      the internal bubble otherwise. Nothing spawns. */
  function OfferLine(s: Session, useDomSpeech: bool, hasLineHook: bool): (r: (Session, SpawnStep))
    requires Valid(s) && s.cursor < |Current(s).queue| && LinePending(Current(s).queue[s.cursor])
    ensures r.1 != Spawned && Valid(r.0)
    ensures r.0.(pendingPreSpawn := s.pendingPreSpawn, cutsceneActive := s.cutsceneActive) == s
    ensures r.1.AskHook? <==> useDomSpeech && hasLineHook && !s.pendingPreSpawn
    ensures r.1.AskHook? ==> r.0.pendingPreSpawn
    ensures r.1.ShowBubble? <==> !(useDomSpeech && hasLineHook)
    ensures r.1.ShowBubble? ==> r.0.cutsceneActive == !useDomSpeech
    ensures r.1.NoSpawn? ==> r.0 == s
    ensures r.1.AskHook? || r.1.ShowBubble? ==> r.1.line == Current(s).queue[s.cursor].preLine.value
  {
    var line := Current(s).queue[s.cursor].preLine.value;
    if useDomSpeech && hasLineHook then
      if !s.pendingPreSpawn then (s.(pendingPreSpawn := true), AskHook(line)) else (s, NoSpawn)
    else (s.(cutsceneActive := !useDomSpeech), ShowBubble(line))
  }

  /** Spawn the current entry, consume it and restart the spawn timer. */
  function SpawnNext(s: Session, now: int): (r: Session)
    requires Valid(s) && s.cursor < |Current(s).queue|
    ensures Valid(r)
    ensures r.cursor == s.cursor + 1 && r.lastSpawnAt == Some(now)
    ensures r == SpawnFromRight(s, Current(s).queue[s.cursor]).(cursor := s.cursor + 1, lastSpawnAt := Some(now))
  {
    SpawnFromRight(s, Current(s).queue[s.cursor]).(cursor := s.cursor + 1, lastSpawnAt := Some(now))
  }

  /** While a pre-spawn hook call is outstanding the hook is not called again
      and nothing spawns. */
  lemma HookNotReinvoked(s: Session, now: int, later: int, hasLineHook: bool)
    requires Valid(s)
    requires MaybeSpawn(s, now, true, hasLineHook).1.AskHook?
    ensures var s1 := MaybeSpawn(s, now, true, hasLineHook).0;
      MaybeSpawn(s1, later, true, hasLineHook) == (s1, NoSpawn)
  {
  }

  /** A pre-spawn line resolving (GamePart2.js:668-671, 676, 626): the entry
      it belongs to, which may be in a scene left since, is marked shown and
      the spawn timer is cleared; the hook's pending mark or the bubble's
      cutscene ends. */
  function ResolvePreLine(s: Session, sceneIdx: nat, pos: nat, viaHook: bool): (r: Session)
    requires Valid(s) && sceneIdx < |s.scenes| && pos < |s.scenes[sceneIdx].queue|
    ensures Valid(r) && |r.scenes| == |s.scenes|
    ensures forall i :: 0 <= i < |s.scenes| ==> |r.scenes[i].queue| == |s.scenes[i].queue|
    ensures r.scenes[sceneIdx].queue[pos].preShown && r.lastSpawnAt.None?
    ensures viaHook ==> !r.pendingPreSpawn && r.cutsceneActive == s.cutsceneActive
    ensures !viaHook ==> !r.cutsceneActive && r.pendingPreSpawn == s.pendingPreSpawn
    ensures r.(scenes := s.scenes, lastSpawnAt := s.lastSpawnAt, pendingPreSpawn := s.pendingPreSpawn,
               cutsceneActive := s.cutsceneActive) == s
  {
    var scene := s.scenes[sceneIdx];
    var spec := scene.queue[pos].(preShown := true);
    var s1 := s.(scenes := s.scenes[sceneIdx := scene.(queue := scene.queue[pos := spec])], lastSpawnAt := None);
    if viaHook then s1.(pendingPreSpawn := false) else s1.(cutsceneActive := false)
  }

  /** Once its line has been shown, the entry spawns on the very next call,
      whatever the scene's spawn cooldown. */
  lemma LineThenImmediateSpawn(s: Session, now: int, later: int, useDomSpeech: bool, hasLineHook: bool)
    requires Valid(s)
    requires var step := MaybeSpawn(s, now, useDomSpeech, hasLineHook).1; step.AskHook? || step.ShowBubble?
    ensures var step := MaybeSpawn(s, now, useDomSpeech, hasLineHook);
      var s2 := ResolvePreLine(step.0, s.index, s.cursor, step.1.AskHook?);
      MaybeSpawn(s2, later, useDomSpeech, hasLineHook).1 == Spawned
  {
  }

  /** The queue entry is consumed even when its kind is unknown. */
  lemma UnknownKindStillAdvances(s: Session, now: int, useDomSpeech: bool, hasLineHook: bool)
    requires Valid(s) && SpawnGatesOpen(s, now)
    requires Current(s).queue[s.cursor].kind !in EnemyConfs
    ensures var r := MaybeSpawn(s, now, useDomSpeech, hasLineHook).0;
      r.cursor == s.cursor + 1 && r.enemies == s.enemies && r.lastSpawnAt == Some(now)
  {
  }

  // ---------------------------------------------------------------------
  // Scene flow (GamePart2.js:688-718)

  /** `sceneCleared()`. */
  predicate SceneCleared(s: Session): (r: bool)
    requires 0 < |s.scenes| && s.index < |s.scenes|
    ensures r <==> s.cursor >= |Current(s).queue| && forall i :: 0 <= i < |s.enemies| ==> s.enemies[i].dead
  {
    s.cursor >= |Current(s).queue| && !AnyAlive(s.enemies)
  }

  /** A cleared scene spawns nothing more. */
  lemma ClearedSceneIsQuiet(s: Session, now: int, useDomSpeech: bool, hasLineHook: bool)
    requires Valid(s) && SceneCleared(s)
    ensures MaybeSpawn(s, now, useDomSpeech, hasLineHook) == (s, NoSpawn)
  {
  }

  /** A dead enemy whose death clip has reached its last frame
      (GamePart2.js:949). */
  predicate Finished(e: Fighter): (r: bool)
    ensures r ==> e.dead && e.state == "death"
    ensures r && e.anim.framesMax > 1 && WellFormed(e.anim) ==> e.anim.framesCurrent == e.anim.framesMax - 1
    ensures e.dead && e.state == "death" && e.anim.framesCurrent == e.anim.framesMax - 1 ==> r
  {
    e.dead && e.state == "death" && e.anim.framesCurrent >= e.anim.framesMax - 1
  }

  /** The removal pass after the enemy updates (GamePart2.js:976-978). */
  function RemoveFinished(es: seq<Fighter>): (r: seq<Fighter>)
    ensures |r| <= |es|
    ensures forall i :: 0 <= i < |r| ==> r[i] in es && !Finished(r[i])
    ensures forall i :: 0 <= i < |es| && !Finished(es[i]) ==> es[i] in r
    ensures AnyAlive(r) <==> AnyAlive(es)
    ensures |es| == 1 ==> r == (if Finished(es[0]) then [] else es)
    decreases |es|
  {
    if |es| == 0 then []
    else
      var rest := RemoveFinished(es[1..]);
      assert forall i :: 1 <= i < |es| ==> es[i] == es[1..][i - 1];
      assert forall e :: e in es[1..] ==> e in es;
      if Finished(es[0]) then rest else [es[0]] + rest
  }

  /** The removal pass is a filter that keeps order: removing from two runs
      of enemies one after the other is removing from each and joining the
      results. With the one-enemy case above this fixes the result. */
  lemma {:induction false} RemoveFinishedAppend(a: seq<Fighter>, b: seq<Fighter>)
    ensures RemoveFinished(a + b) == RemoveFinished(a) + RemoveFinished(b)
    decreases |a|
  {
    if |a| == 0 {
      assert a + b == b;
    } else {
      assert (a + b)[0] == a[0];
      assert (a + b)[1..] == a[1..] + b;
      RemoveFinishedAppend(a[1..], b);
    }
  }

  /** `loadSceneByIndex`: the index clamped onto the scene list; enemies and
      allies gone; cursor, timer, hook flags, killer and pending line reset;
      the player alive at full health at the left edge, idle if it can be. */
  function LoadSceneByIndex(s: Session, index: int): (r: Session)
    requires Valid(s)
    ensures Valid(r)
    ensures r.index == MaxI(0, MinI(index, |s.scenes| - 1))
    ensures 0 <= index < |s.scenes| ==> r.index == index
    ensures r.enemies == [] && r.allies == []
    ensures r.cursor == 0 && r.lastSpawnAt.None?
    ensures !r.nextHookSent && !r.deathHookSent && !r.finaleTransformed
    ensures r.lastKillerKind.None? && !r.pendingPreSpawn
    ensures !r.player.dead && r.player.hp == r.player.maxHp == s.player.maxHp
    ensures r.player.pos == Vec(StartX + SpriteRect(s.player).w * 0.5, s.groundY) && r.player.vel.x == 0.0
    ensures r.scenes == s.scenes && r.cutsceneActive == s.cutsceneActive
    ensures r.playerShots == s.playerShots && r.enemyShots == s.enemyShots
    ensures r.lastEnemyHitAt == s.lastEnemyHitAt && r.lastPlayerHitAt == s.lastPlayerHitAt
  {
    var i := MaxI(0, MinI(index, |s.scenes| - 1));
    var w := SpriteRect(s.player).w;
    var p := s.player.(dead := false, hp := s.player.maxHp,
                       pos := Vec(StartX + w * 0.5, s.groundY), vel := s.player.vel.(x := 0.0));
    s.(index := i, enemies := [], allies := [], cursor := 0, lastSpawnAt := None,
       nextHookSent := false, deathHookSent := false, finaleTransformed := false,
       lastKillerKind := None, pendingPreSpawn := false, player := SwitchSprite(p, "idle"))
  }

  /** Loading the same scene twice is the same as loading it once. */
  lemma LoadIdempotent(s: Session, index: int)
    requires Valid(s)
    ensures LoadSceneByIndex(LoadSceneByIndex(s, index), index) == LoadSceneByIndex(s, index)
  {
    var r := LoadSceneByIndex(s, index);
    var w := SpriteRect(s.player).w;
    var p := s.player.(dead := false, hp := s.player.maxHp,
                       pos := Vec(StartX + w * 0.5, s.groundY), vel := s.player.vel.(x := 0.0));
    SwitchSpriteIdempotent(p, "idle");
    assert SpriteRect(r.player).w == w;
    var p2 := r.player.(dead := false, hp := r.player.maxHp,
                        pos := Vec(StartX + w * 0.5, r.groundY), vel := r.player.vel.(x := 0.0));
    assert p2 == SwitchSprite(p, "idle");
  }

  /** The first scene with the id. */
  function FindScene(scenes: seq<Scene>, id: int): (r: Option<nat>)
    ensures r.Some? ==> r.value < |scenes| && scenes[r.value].id == id
    ensures r.Some? ==> forall j :: 0 <= j < r.value ==> scenes[j].id != id
    ensures r.None? ==> forall j :: 0 <= j < |scenes| ==> scenes[j].id != id
    decreases |scenes|
  {
    if |scenes| == 0 then None
    else if scenes[0].id == id then Some(0)
    else
      var rest := FindScene(scenes[1..], id);
      assert forall j :: 1 <= j < |scenes| ==> scenes[j] == scenes[1..][j - 1];
      if rest.Some? then Some(rest.value + 1) else None
  }

  /** `loadSceneById`: an unknown id changes nothing. */
  function LoadSceneById(s: Session, id: int): (r: Session)
    requires Valid(s)
    ensures Valid(r)
    ensures FindScene(s.scenes, id).None? ==> r == s
    ensures FindScene(s.scenes, id).Some? ==>
      r == LoadSceneByIndex(s, FindScene(s.scenes, id).value) && Current(r).id == id
  {
    match FindScene(s.scenes, id)
    case None => s
    case Some(i) => LoadSceneByIndex(s, i)
  }

  /** `isLastScene()`. */
  predicate IsLastScene(s: Session): (r: bool)
    ensures Valid(s) ==> (r <==> s.index == |s.scenes| - 1)
    ensures !r ==> s.index + 1 < |s.scenes|
  {
    s.index >= |s.scenes| - 1
  }

  /** `gotoNextScene`: the next scene, or the win (the flag) after the last. */
  function GotoNextScene(s: Session): (r: (Session, bool))
    requires Valid(s)
    ensures Valid(r.0)
    ensures r.1 <==> IsLastScene(s)
    ensures r.1 ==> r.0 == s
    ensures !r.1 ==> r.0 == LoadSceneByIndex(s, s.index + 1) && r.0.index == s.index + 1
  {
    if s.index < |s.scenes| - 1 then (LoadSceneByIndex(s, s.index + 1), false) else (s, true)
  }

  /** `retryScene`: the current scene again. */
  function RetryScene(s: Session): (r: Session)
    requires Valid(s)
    ensures Valid(r) && r.index == s.index
    ensures !r.player.dead && r.player.hp == r.player.maxHp && r.cursor == 0 && r.enemies == []
    ensures r == LoadSceneByIndex(s, s.index)
    ensures r.scenes == s.scenes && !r.nextHookSent && !r.deathHookSent && r.lastKillerKind.None?
  {
    LoadSceneByIndex(s, s.index)
  }

  /** Retrying twice is retrying once. */
  lemma RetryIdempotent(s: Session)
    requires Valid(s)
    ensures RetryScene(RetryScene(s)) == RetryScene(s)
  {
    LoadIdempotent(s, s.index);
  }

  // ---------------------------------------------------------------------
  // Hooks (GamePart2.js:1058-1097)

  /** The `onReadyForNext` payload. */
  datatype Ready = Ready(atExit: bool, sceneId: int, sceneIndex: nat, isLast: bool)

  /** The scene-clear check: once per load; the hook, if present, gets the
      payload. Without a hook nothing else happens. */
  function ReadyStep(s: Session, hasHook: bool): (r: (Session, Option<Ready>))
    requires Valid(s)
    ensures Valid(r.0)
    ensures r.0.nextHookSent <==> s.nextHookSent || SceneCleared(s)
    ensures r.0.(nextHookSent := s.nextHookSent) == s
    ensures r.1.Some? <==> hasHook && SceneCleared(s) && !s.nextHookSent
    ensures r.1.Some? ==> (r.1.value.sceneId == Current(s).id && r.1.value.sceneIndex == s.index &&
      (r.1.value.isLast <==> IsLastScene(s)))
    ensures r.1.Some? ==>
      (r.1.value.atExit <==> SpriteRect(s.player).Right() >= s.viewWidth * Current(s).flow.exitThresholdRatio)
  {
    if SceneCleared(s) && !s.nextHookSent then
      var pr := SpriteRect(s.player);
      var info := Ready(pr.x + pr.w >= s.viewWidth * Current(s).flow.exitThresholdRatio,
                        Current(s).id, s.index, IsLastScene(s));
      (s.(nextHookSent := true), if hasHook then Some(info) else None)
    else (s, None)
  }

  /** The ready hook fires at most once between loads. */
  lemma ReadyOncePerLoad(s: Session, hasHook: bool)
    requires Valid(s)
    ensures var s1 := ReadyStep(s, hasHook).0; ReadyStep(s1, hasHook) == (s1, None)
  {
  }

  /** What the death check did. */
  datatype DeathStep =
    | NoDeath
    | DeathHook(sceneId: int, killer: Option<string>)   // `onPlayerDeath` was called
    | BeginTransform                                    // the finale fade and transformation began
    | Retried

  /** The player is dead, the death is not yet reported, and the current clip
      is on its last frame. */
  predicate DeathDue(s: Session) {
    s.player.dead && !s.deathHookSent && s.player.anim.framesCurrent == s.player.anim.framesMax - 1
  }

  /** The finale fallback applies: scene 10, killed by the boss, not yet
      transformed. */
  predicate FinaleRescue(s: Session)
    requires 0 < |s.scenes| && s.index < |s.scenes|
  {
    Current(s).id == FinaleId && s.lastKillerKind == Some("ghostBoss") && !s.finaleTransformed
  }

  /** The death check. With a hook it reports once; without one, a death to
      the finale boss revives the player (health left at 0) and begins the
      transformation, and any other death retries the scene. */
  function DeathCheck(s: Session, hasHook: bool): (r: (Session, DeathStep))
    requires Valid(s)
    ensures Valid(r.0)
    ensures !DeathDue(s) ==> r == (s, NoDeath)
    ensures DeathDue(s) && hasHook ==>
      r == (s.(deathHookSent := true), DeathHook(Current(s).id, s.lastKillerKind))
    ensures DeathDue(s) && !hasHook && FinaleRescue(s) ==>
      r.1 == BeginTransform && !r.0.player.dead && r.0.player.hp == s.player.hp && !r.0.deathHookSent &&
      r.0.(player := s.player) == s
    ensures DeathDue(s) && !hasHook && !FinaleRescue(s) ==>
      r.1 == Retried && r.0 == RetryScene(s.(deathHookSent := true))
  {
    if !DeathDue(s) then (s, NoDeath)
    else
      var s1 := s.(deathHookSent := true);
      if hasHook then (s1, DeathHook(Current(s).id, s.lastKillerKind))
      else if FinaleRescue(s) then
        (s1.(player := SwitchSprite(s.player.(dead := false), "idle"), deathHookSent := false), BeginTransform)
      else (RetryScene(s1), Retried)
  }

  /** The death hook fires at most once between loads. */
  lemma DeathHookOnce(s: Session)
    requires Valid(s)
    ensures var s1 := DeathCheck(s, true).0; DeathCheck(s1, true) == (s1, NoDeath)
  {
  }

  // ---------------------------------------------------------------------
  // Attack slots and the hero theme (GamePart2.js:764-778, 794-817, 884-899)

  const HeroBKind := "heroB"

  /** `attackInternalNameForSlot`: slots 1 and 2 for the second hero, 3 and 4
      for everyone else. */
  function AttackNameForSlot(kind: string, slot: int): (r: Option<string>)
    ensures kind == HeroBKind ==>
      (r == Some("slash") <==> slot == 1) && (r == Some("bolt") <==> slot == 2) && (r.None? <==> slot != 1 && slot != 2)
    ensures kind != HeroBKind ==>
      (r == Some("light") <==> slot == 3) && (r == Some("heavy") <==> slot == 4) && (r.None? <==> slot != 3 && slot != 4)
  {
    if kind == HeroBKind then
      if slot == 1 then Some("slash") else if slot == 2 then Some("bolt") else None
    else
      if slot == 3 then Some("light") else if slot == 4 then Some("heavy") else None
  }

  /** Different slots never name the same attack, and every name of a hero's
      slots is one of its configured attacks. */
  lemma SlotNamesDistinctAndConfigured(kind: string, a: int, b: int)
    ensures a != b && AttackNameForSlot(kind, a).Some? ==> AttackNameForSlot(kind, a) != AttackNameForSlot(kind, b)
    ensures kind == HeroBKind && AttackNameForSlot(kind, a).Some? ==> AttackNameForSlot(kind, a).value in HeroB.attacks
    ensures kind != HeroBKind && AttackNameForSlot(kind, a).Some? ==> AttackNameForSlot(kind, a).value in HeroA.attacks
  {
  }

  /** The cooldown a slot's attack carries, 0 without one. */
  function SlotCooldown(p: Fighter, slot: int): int {
    match AttackNameForSlot(p.kind, slot)
    case None => 0
    case Some(n) => if n in p.conf.attacks then p.conf.attacks[n].cooldownMs.GetOr(0) else 0
  }

  /** `broadcastHeroTheme`'s detail: the captions of the hero's two slots and
      every non-zero slot cooldown. */
  function HeroTheme(p: Fighter): (ev: Toolbar.Theme)
    ensures forall slot :: Toolbar.Names(ev, slot) <==> AttackNameForSlot(p.kind, slot).Some?
    ensures forall slot :: Toolbar.GivesCooldown(ev, slot) <==> 1 <= slot <= 4 && SlotCooldown(p, slot) != 0
    ensures forall slot :: Toolbar.GivesCooldown(ev, slot) ==> ev.cooldowns[slot] == SlotCooldown(p, slot) as real
  {
    var names := if p.kind == HeroBKind then map[1 := "Sword Slash", 2 := "Chi-Slash"]
                 else map[3 := "Aura Sphere", 4 := "Aura Blast"];
    var cds := map slot | slot in {1, 2, 3, 4} && SlotCooldown(p, slot) != 0 :: SlotCooldown(p, slot) as real;
    Toolbar.Theme(names, cds)
  }

  /** A toolbar themed for a hero shows exactly that hero's slots. */
  lemma ThemeShowsHeroSlots(t: Toolbar.State, p: Fighter, slot: int)
    requires Toolbar.IsSlot(slot) && slot in t.slots && t.slots[slot].button
    ensures var r := Toolbar.OnHeroTheme(t, HeroTheme(p));
      !r.slots[slot].hidden <==> AttackNameForSlot(p.kind, slot).Some?
  {
  }

  /** `aimAtNearestEnemyDirection`'s choice: the first live enemy at the
      least horizontal distance from `x`, scanning from `k`. */
  function NearestLive(es: seq<Fighter>, x: real, k: nat): (r: Option<nat>)
    requires k <= |es|
    ensures r.Some? ==> k <= r.value < |es| && !es[r.value].dead
    ensures r.Some? ==> forall j :: k <= j < |es| && !es[j].dead ==>
      AbsR(es[j].pos.x - x) >= AbsR(es[r.value].pos.x - x)
    ensures r.Some? ==> forall j :: k <= j < r.value && !es[j].dead ==>
      AbsR(es[j].pos.x - x) > AbsR(es[r.value].pos.x - x)
    ensures r.None? <==> forall j :: k <= j < |es| ==> es[j].dead
    decreases |es| - k
  {
    if k == |es| then None
    else
      var rest := NearestLive(es, x, k + 1);
      if es[k].dead then rest
      else if rest.None? || AbsR(es[k].pos.x - x) <= AbsR(es[rest.value].pos.x - x) then Some(k)
      else rest
  }

  /** Face the nearest live enemy, or keep facing with none. */
  function AimDirection(p: Fighter, es: seq<Fighter>): (d: int)
    ensures !AnyAlive(es) ==> d == p.facing
    ensures AnyAlive(es) ==> d == 1 || d == -1
    ensures var k := NearestLive(es, p.pos.x, 0);
      k.Some? ==> (d == 1 <==> es[k.value].pos.x >= p.pos.x)
  {
    match NearestLive(es, p.pos.x, 0)
    case None => p.facing
    case Some(i) => if es[i].pos.x >= p.pos.x then 1 else -1
  }

  /** Enemy `i` is alive and no live enemy is horizontally nearer to `x`. */
  predicate NearestAt(es: seq<Fighter>, x: real, i: int) {
    0 <= i < |es| && !es[i].dead &&
    forall j :: 0 <= j < |es| && !es[j].dead ==> AbsR(es[j].pos.x - x) >= AbsR(es[i].pos.x - x)
  }

  /** With some enemy alive, the player turns toward a live enemy that no
      other live enemy is nearer than: right when it stands at or beyond the
      player, left otherwise. */
  lemma AimTowardNearest(p: Fighter, es: seq<Fighter>)
    requires AnyAlive(es)
    ensures exists i :: NearestAt(es, p.pos.x, i) && (AimDirection(p, es) == 1 <==> es[i].pos.x >= p.pos.x)
  {
    var k := NearestLive(es, p.pos.x, 0);
    assert NearestAt(es, p.pos.x, k.value);
  }

  /** The `obon:attack-fired` detail. */
  datatype Fired = Fired(slot: int, cooldownMs: int, at: int)

  /** `triggerAttackBySlot`: a slot without a configured attack does nothing;
      otherwise the player turns to the nearest enemy (even if the attack then
      does not start) and, if the attack starts, the toolbar is told. */
  function TriggerAttackBySlot(s: Session, slot: int, now: int): (r: (Session, Option<Fired>))
    ensures var n := AttackNameForSlot(s.player.kind, slot);
      if n.None? || n.value !in s.player.conf.attacks then r == (s, None)
      else
        var started := AimAndStart(s.player, s.enemies, n.value, now);
        r.0 == s.(player := started.0) && (r.1.Some? <==> started.1)
    ensures r.0.(player := s.player) == s
    ensures r.1.Some? ==> (r.1.value.slot == slot && r.1.value.at == now &&
      r.1.value.cooldownMs == SlotCooldown(s.player, slot) && r.0.player.isAttacking)
  {
    var n := AttackNameForSlot(s.player.kind, slot);
    if n.None? || n.value !in s.player.conf.attacks then (s, None)
    else
      var started := AimAndStart(s.player, s.enemies, n.value, now);
      assert started.1 ==> started.0.isAttacking;
      (s.(player := started.0),
       if started.1 then Some(Fired(slot, s.player.conf.attacks[n.value].cooldownMs.GetOr(0), now)) else None)
  }

  /** The toolbar hears of an attack exactly when the slot names an attack
      the player may start now. */
  lemma TriggerReportsIffStarted(s: Session, slot: int, now: int)
    ensures TriggerAttackBySlot(s, slot, now).1.Some? <==>
      (var n := AttackNameForSlot(s.player.kind, slot); n.Some? && CanStart(s.player, n.value, now))
  {
  }

  /** Turn towards the nearest enemy, then try to start the attack. */
  function AimAndStart(p: Fighter, es: seq<Fighter>, name: string, now: int): (r: (Fighter, bool))
    ensures r.1 <==> CanStart(p, name, now)
    ensures r.1 ==> r.0.isAttacking
    ensures r.0.facing == AimDirection(p, es)
    ensures r.1 ==> r.0 == StartAttack(p.(facing := AimDirection(p, es)), name, now).0
  {
    var aimed := p.(facing := AimDirection(p, es));
    assert CanStart(aimed, name, now) <==> CanStart(p, name, now);
    StartAttack(aimed, name, now)
  }

  /** `transformToGrandpa`: the second hero replaces the player, keeping its
      height and facing and at most half the view from the left; the first
      hero stays on as an ally; the toolbar is re-themed. The frame boxes
      come from the loaded images. */
  function TransformToGrandpa(s: Session, allyFrame: FrameBox, heroFrame: FrameBox): (r: (Session, Toolbar.Theme))
    requires Valid(s)
    ensures Valid(r.0) && r.0.finaleTransformed
    ensures |r.0.allies| == |s.allies| + 1 && r.0.allies[..|s.allies|] == s.allies
    ensures r.0.player.kind == HeroBKind && !r.0.player.dead && r.0.player.hp == r.0.player.maxHp == 100
    ensures r.0.player.facing == s.player.facing && r.0.player.pos.y == s.player.pos.y
    ensures r.0.player.pos.x == MinR(s.viewWidth * 0.5, s.player.pos.x)
    ensures r.1 == HeroTheme(r.0.player)
    ensures r.0.(player := s.player, allies := s.allies, finaleTransformed := s.finaleTransformed) == s
  {
    var anko := NewFighter(Ally, "heroA", HeroA.(frame := allyFrame), Vec(MaxR(20.0, s.viewWidth * 0.12), s.groundY));
    var x := MinR(s.viewWidth * 0.5, s.player.pos.x);
    var hero := NewFighter(Player, HeroBKind, HeroB.(frame := heroFrame), Vec(x, s.player.pos.y)).(facing := s.player.facing);
    (s.(finaleTransformed := true, allies := s.allies + [anko], player := hero), HeroTheme(hero))
  }

  /** After the transformation the finale fallback never applies again
      before a reload: a later death without a hook retries. */
  lemma TransformHappensOnce(s: Session, allyFrame: FrameBox, heroFrame: FrameBox, s2: Session)
    requires Valid(s)
    requires var t := TransformToGrandpa(s, allyFrame, heroFrame).0;
      s2 == t.(player := s2.player, lastKillerKind := s2.lastKillerKind, deathHookSent := s2.deathHookSent)
    requires DeathDue(s2)
    ensures DeathCheck(s2, false).1 == Retried
  {
  }

  // ---------------------------------------------------------------------
  // The combat part of one tick (GamePart2.js:935-1055)

  /** The damage blocks of one tick, in the source's order: the player's
      attack (skipped during a cutscene), removal of finished enemies, player
      shots, enemy shots, contact damage. */
  function CombatTick(s: Session, now: int): (r: Session)
    requires Valid(s)
    ensures Valid(r)
    ensures |r.enemies| <= |s.enemies|
    ensures AnyAlive(r.enemies) ==> AnyAlive(s.enemies)
    ensures !WindowPassed(now, s.lastPlayerHitAt, PlayerInvMs) ==>
      r.player.hp == s.player.hp && r.lastPlayerHitAt == s.lastPlayerHitAt
    ensures r.lastPlayerHitAt == s.lastPlayerHitAt || r.lastPlayerHitAt == Some(now)
    ensures r.player.hp != s.player.hp ==> r.lastPlayerHitAt == Some(now)
    ensures r.lastKillerKind != s.lastKillerKind ==> r.player.hp == 0 && r.player.dead
    ensures r.scenes == s.scenes && r.index == s.index && r.cursor == s.cursor
  {
    var attack :=
      if s.cutsceneActive then (s.player, EnemySide(s.enemies, s.lastEnemyHitAt), None)
      else HandlePlayerActiveAttack(s.player, EnemySide(s.enemies, s.lastEnemyHitAt), now);
    var shots := s.playerShots + (if attack.2.Some? then [attack.2.value] else []);
    var side := attack.1.(enemies := RemoveFinished(attack.1.enemies));
    var pshots := PlayerShotsTick(shots, side, attack.0.pos.x, now, s.cutsceneActive);
    var pside := PlayerSide(attack.0, s.lastPlayerHitAt, s.lastKillerKind);
    var eshots := EnemyShotsTick(s.enemyShots, pside, now, s.cutsceneActive);
    var touched := TouchDamage(pshots.1.enemies, eshots.1, now, s.cutsceneActive);
    s.(player := touched.player, enemies := pshots.1.enemies, lastEnemyHitAt := pshots.1.lastEnemyHitAt,
       playerShots := pshots.0, enemyShots := eshots.0,
       lastPlayerHitAt := touched.lastPlayerHitAt, lastKillerKind := touched.lastKillerKind)
  }
}

=== FILE: fighter.dfy ===
/** Combatants (`class Fighter`, GamePart2.js:258-403): health, the current
    animation clip, the attack lifecycle and damage. One record serves the
    player, allies and enemies. */
module Fighters {
  import opened Wrappers
  import opened Clock
  import opened JsMath
  import opened Geometry
  import opened Config
  import opened Animation

  const PlayerMaxHp := 20
  const DefaultEnemyHp := 3
  /** Default `framesHold` of a clip that gives none. */
  const DefaultHold: nat := 5

  datatype Tag = Player | Ally | Enemy
  datatype Vec = Vec(x: real, y: real)

  /** The attack in flight: its name and definition. */
  datatype Active = Active(name: string, def: AttackDef)

  /** The resolved melee definition (defaults applied). */
  datatype Melee = Melee(damage: int, box: AttackBox, hitFrame: int)

  datatype Fighter = Fighter(
    tag: Tag,
    kind: string,
    conf: FighterConf,
    pos: Vec,
    vel: Vec,
    facing: int,
    dead: bool,
    maxHp: int,
    hp: int,
    state: string,              // name of the current clip
    bound: bool,                // the shown image is `sheets[state]`'s own (false until the first switch)
    anim: Anim,
    isAttacking: bool,
    active: Option<Active>,
    triggered: bool,            // the trigger-frame effect of `active` has fired
    cooldowns: map<string, int>,
    melee: Option<Melee>)

  /** The starting health of a fighter: the player's `maxHp` (default 20),
      everyone else's `hp` (default 3). */
  function InitialHp(tag: Tag, conf: FighterConf): int {
    if tag == Player then conf.maxHp.GetOr(PlayerMaxHp) else conf.hp.GetOr(DefaultEnemyHp)
  }

  function ResolveMelee(conf: FighterConf): Option<Melee> {
    match conf.melee
    case None => None
    case Some(m) =>
      var attackHit :=
        if "attack1" in conf.sheets && conf.sheets["attack1"].hitFrame.Some? then conf.sheets["attack1"].hitFrame.value else 0;
      Some(Melee(m.damage.GetOr(1), m.box.GetOr(AttackBox(0.0, 0.0, 0.0, 0.0)), m.hitFrame.GetOr(attackHit)))
  }

  /** The Fighter constructor: full health, alive, idle, no attack in flight,
      no cooldowns. */
  function NewFighter(tag: Tag, kind: string, conf: FighterConf, pos: Vec): (f: Fighter)
    requires "idle" in conf.sheets
    ensures f.hp == f.maxHp && f.maxHp == InitialHp(tag, conf)
    ensures !f.dead && f.state == "idle" && !f.bound
    ensures !f.isAttacking && f.active.None? && !f.triggered && f.cooldowns == map[]
    ensures f.pos == pos && f.vel == Vec(0.0, 0.0) && f.facing == 1
    ensures WellFormed(f.anim) && f.anim.framesMax == conf.sheets["idle"].framesMax
  {
    var idle := conf.sheets["idle"];
    var hp := InitialHp(tag, conf);
    Fighter(tag, kind, conf, pos, Vec(0.0, 0.0), 1, false, hp, hp, "idle", false,
      Anim(idle.framesMax, idle.framesHold.GetOr(DefaultHold), 0, 0, 1, false),
      false, None, false, map[], ResolveMelee(conf))
  }

  /** `spriteRect`: top-left is the position minus the pivot offset. */
  function SpriteRect(f: Fighter): (r: Rect)
    ensures r.w == f.conf.frame.w && r.h == f.conf.frame.h
  {
    Rect(f.pos.x - f.conf.frame.offX, f.pos.y - f.conf.frame.offY, f.conf.frame.w, f.conf.frame.h)
  }

  function HurtRectOf(e: Fighter): Rect {
    HurtRect(SpriteRect(e), e.conf.insetX, e.conf.insetTop, e.conf.scale)
  }

  /** `playerMeleeRect`: an empty box at the origin without a melee definition. */
  function MeleeRectOf(p: Fighter): (r: Rect)
    ensures p.melee.None? ==> r == Rect(0.0, 0.0, 0.0, 0.0)
  {
    match p.melee
    case None => Rect(0.0, 0.0, 0.0, 0.0)
    case Some(m) => MeleeRect(SpriteRect(p), p.conf.scale, p.facing, m.box)
  }

  // ---------------------------------------------------------------- clips

  /** Mid-attack and not yet on the attack's last frame. */
  predicate AttackLocked(f: Fighter) {
    f.isAttacking && f.anim.framesCurrent < f.anim.framesMax - 1
  }

  /** When `switchSprite(name)` takes effect: the fighter is alive, not held by
      an unfinished attack (unless asking for the clip it already shows), the
      clip exists, and it is not the very sheet already shown. */
  predicate Switches(f: Fighter, name: string) {
    && !f.dead
    && !(AttackLocked(f) && name != f.state)
    && name in f.conf.sheets
    && !(f.bound && f.state == name)
  }

  /** `switchSprite(name)`. */
  function SwitchSprite(f: Fighter, name: string): (r: Fighter)
    ensures !Switches(f, name) ==> r == f
    ensures Switches(f, name) ==>
      && r.state == name && r.bound
      && r.anim == Restart(r.anim)
      && r.anim.framesMax == f.conf.sheets[name].framesMax
      && r.anim.pingPong == f.conf.sheets[name].pingPong
    ensures r.(state := f.state, bound := f.bound, anim := f.anim) == f
  {
    if !Switches(f, name) then f
    else
      var s := f.conf.sheets[name];
      f.(state := name, bound := true, anim := Anim(s.framesMax, s.framesHold.GetOr(DefaultHold), 0, 0, 1, s.pingPong))
  }

  /** Switching twice to the same clip is switching once. */
  lemma SwitchSpriteIdempotent(f: Fighter, name: string)
    ensures SwitchSprite(SwitchSprite(f, name), name) == SwitchSprite(f, name)
  {
  }

  /** A dead fighter and a fighter in an unfinished attack keep their clip. */
  lemma SwitchSpriteGuards(f: Fighter, name: string)
    ensures f.dead ==> SwitchSprite(f, name) == f
    ensures AttackLocked(f) && name != f.state ==> SwitchSprite(f, name) == f
    ensures name !in f.conf.sheets ==> SwitchSprite(f, name) == f
  {
  }

  // ---------------------------------------------------------------- attacks

  function LastUse(f: Fighter, name: string): Stamp {
    if name in f.cooldowns then Some(f.cooldowns[name]) else None
  }

  /** `startAttack(name)` succeeds exactly when the attack exists, the fighter
      is alive and the attack's cooldown (default 0) has passed since its last use. */
  predicate CanStart(f: Fighter, name: string, now: int) {
    && name in f.conf.attacks
    && !f.dead
    && CooledDown(now, LastUse(f, name), f.conf.attacks[name].cooldownMs.GetOr(0))
  }

  /** The clip an attack plays: its own, else "attack1". */
  function AttackClip(def: AttackDef): string {
    if def.anim == "" then "attack1" else def.anim
  }

  /** `startAttack(name)` at time `now`; the flag says whether it started. */
  function StartAttack(f: Fighter, name: string, now: int): (r: (Fighter, bool))
    ensures r.1 <==> CanStart(f, name, now)
    ensures !r.1 ==> r.0 == f
    ensures r.1 ==>
      && r.0.isAttacking && !r.0.triggered
      && r.0.active == Some(Active(name, f.conf.attacks[name]))
      && r.0.cooldowns == f.cooldowns[name := now]
      && r.0.hp == f.hp && r.0.dead == f.dead && r.0.pos == f.pos && r.0.vel == f.vel
    ensures r.1 ==>
      var clip := AttackClip(f.conf.attacks[name]);
      && (Switches(f.(isAttacking := false), clip) ==>
            r.0.state == clip && r.0.anim.framesCurrent == 0 && r.0.anim.framesMax == f.conf.sheets[clip].framesMax)
      && (!Switches(f.(isAttacking := false), clip) ==> r.0.state == f.state && r.0.anim == f.anim)
  {
    if !CanStart(f, name, now) then (f, false)
    else
      var def := f.conf.attacks[name];
      var clip := AttackClip(def);
      var g := SwitchSprite(f.(isAttacking := false), clip);
      (g.(isAttacking := true, active := Some(Active(name, def)), triggered := false, cooldowns := f.cooldowns[name := now]), true)
  }

  /** Within an attack's cooldown window a second start fails and changes nothing. */
  lemma CooldownBlocksRestart(f: Fighter, name: string, t1: int, t2: int)
    requires StartAttack(f, name, t1).1
    requires t1 <= t2 < t1 + f.conf.attacks[name].cooldownMs.GetOr(0)
    ensures var g := StartAttack(f, name, t1).0;
      StartAttack(g, name, t2) == (g, false)
  {
  }

  /** What an attack does on its trigger frame. */
  datatype Effect = NoEffect | Fire(projectile: string) | Swing(damage: int)

  /** The trigger frame: `fireFrame` for projectiles; for melee the attack's
      `hitFrame`, else the melee definition's, else 0. */
  function TriggerFrame(p: Fighter, def: AttackDef): int {
    if def.isProjectile then def.fireFrame.GetOr(0)
    else if def.hitFrame.Some? then def.hitFrame.value
    else if p.melee.Some? then p.melee.value.hitFrame
    else 0
  }

  /** Melee damage: the attack's, else the melee definition's, else 1. */
  function SwingDamage(p: Fighter, def: AttackDef): int {
    if def.damage.Some? then def.damage.value
    else if p.melee.Some? then p.melee.value.damage
    else 1
  }

  /** The effect fires when an untriggered attack is on its trigger frame. */
  predicate Fires(p: Fighter) {
    p.isAttacking && p.active.Some? && !p.triggered && p.anim.framesCurrent == TriggerFrame(p, p.active.value.def)
  }

  /** The attack ends on the last frame of the current clip. */
  predicate Ends(p: Fighter) {
    p.isAttacking && p.active.Some? && p.anim.framesCurrent == p.anim.framesMax - 1
  }

  /** The fighter side of `handlePlayerActiveAttack` (GamePart2.js:840-882):
      fire the effect once on the trigger frame, end the attack and return to
      idle on the last frame. */
  function AttackStep(p: Fighter): (r: (Fighter, Effect))
    ensures r.1 != NoEffect <==> Fires(p)
    ensures Fires(p) && p.active.value.def.isProjectile ==> r.1 == Fire(p.active.value.def.projectile)
    ensures Fires(p) && !p.active.value.def.isProjectile ==> r.1 == Swing(SwingDamage(p, p.active.value.def))
    ensures Ends(p) ==> !r.0.isAttacking && r.0.active.None? && !r.0.triggered
    ensures !Ends(p) ==> r.0.isAttacking == p.isAttacking && r.0.active == p.active
    ensures r.1 != NoEffect ==> r.0.triggered || !r.0.isAttacking
    ensures p.triggered && !Ends(p) ==> r.0 == p
    ensures r.0.hp == p.hp && r.0.dead == p.dead && r.0.pos == p.pos && r.0.cooldowns == p.cooldowns
    ensures var q := p.(isAttacking := false, active := None, triggered := false);
      && (Ends(p) && Switches(q, "idle") ==> r.0.state == "idle" && r.0.anim.framesCurrent == 0)
      && (Ends(p) && !Switches(q, "idle") ==> r.0.state == p.state && r.0.anim == p.anim)
    ensures !Ends(p) ==> r.0.state == p.state && r.0.anim == p.anim
  {
    if !p.isAttacking || p.active.None? then (p, NoEffect)
    else
      var def := p.active.value.def;
      var eff :=
        if !Fires(p) then NoEffect
        else if def.isProjectile then Fire(def.projectile)
        else Swing(SwingDamage(p, def));
      var p1 := if Fires(p) then p.(triggered := true) else p;
      if Ends(p) then (SwitchSprite(p1.(isAttacking := false, active := None, triggered := false), "idle"), eff)
      else (p1, eff)
  }

  /** Effects produced when the attack runs through the given frame indices,
      one `AttackStep` per tick (animation in between only moves the frame). */
  function EffectsOver(p: Fighter, frames: seq<int>): nat
    decreases |frames|
  {
    if |frames| == 0 then 0
    else
      var r := AttackStep(p.(anim := p.anim.(framesCurrent := frames[0])));
      (if r.1 == NoEffect then 0 else 1) + EffectsOver(r.0, frames[1..])
  }

  /** Each started attack fires its effect at most once, whatever frames the
      animation shows; a triggered or finished attack fires none. */
  lemma {:induction false} EffectAtMostOnce(p: Fighter, frames: seq<int>)
    ensures EffectsOver(p, frames) <= (if p.isAttacking && p.active.Some? && !p.triggered then 1 else 0)
    decreases |frames|
  {
    if |frames| > 0 {
      var q := p.(anim := p.anim.(framesCurrent := frames[0]));
      var r := AttackStep(q);
      EffectAtMostOnce(r.0, frames[1..]);
    }
  }

  // ---------------------------------------------------------------- damage

  /** The fatal-hit update as written: `dead = true` first, then
      `switchSprite('death')`, which returns at once for a dead fighter. */
  function KillAsWritten(t: Fighter): (r: Fighter)
    ensures r == t.(dead := true)
    ensures r.dead && r.state == t.state && r.anim == t.anim
  {
    SwitchSprite(t.(dead := true), "death")
  }

  /** A fatal hit as written never reaches the death clip. */
  lemma KillAsWrittenKeepsClip(t: Fighter)
    ensures KillAsWritten(t).state == t.state && KillAsWritten(t).anim == t.anim
    ensures KillAsWritten(t).dead
  {
  }

  /** The evidently intended fatal-hit update: switch to the death clip, then
      mark the fighter dead. */
  function Kill(t: Fighter): (r: Fighter)
    ensures r.dead && r.hp == t.hp && r.pos == t.pos && r.vel == t.vel
    ensures !t.dead && !AttackLocked(t) && "death" in t.conf.sheets ==> r.state == "death"
    ensures Switches(t, "death") ==> r.anim.framesCurrent == 0
  {
    SwitchSprite(t, "death").(dead := true)
  }

  /** Knock-back speeds per tick, 60 Hz tuned and divided by the frame scale. */
  const EnemyKnockX: real := 6.0 / 2.0
  const EnemyKnockY: real := -4.0 / 2.0
  const PlayerKnockX: real := 3.0 / 2.0
  const PlayerKnockY: real := -3.0 / 2.0

  /** Health after a hit: reduced by the damage and floored at 0. */
  function HpAfter(hp: int, dmg: int): (r: int)
    ensures r >= 0
    ensures r == 0 <==> hp <= dmg
    ensures r > 0 ==> r == hp - dmg
  {
    MaxI(0, hp - dmg)
  }

  /** An enemy hit by the player's melee or projectile (GamePart2.js:860-867,
      992-1000): health floored at 0; at 0 it dies; otherwise it is knocked away
      from the player and plays its hit reaction. */
  function HitEnemy(e: Fighter, dmg: int, playerX: real): (r: Fighter)
    ensures r.hp == HpAfter(e.hp, dmg)
    ensures r.dead <==> e.dead || r.hp == 0
    ensures r.hp == 0 && !e.dead && !AttackLocked(e) && "death" in e.conf.sheets ==> r.state == "death"
    ensures r.hp > 0 ==> r.vel.x == EnemyKnockX * PushDir(e.pos.x - playerX) as real
    ensures r.hp > 0 && e.pos.x != playerX ==> (r.vel.x > 0.0 <==> e.pos.x > playerX)
    ensures r.maxHp == e.maxHp && r.pos == e.pos && r.tag == e.tag && r.kind == e.kind
  {
    var hp := HpAfter(e.hp, dmg);
    if hp <= 0 then Kill(e.(hp := hp))
    else
      var push := PushDir(e.pos.x - playerX);
      var e1 := SwitchSprite(e.(hp := hp), "takeHit");
      e1.(vel := Vec(EnemyKnockX * push as real, if e.conf.usesGravity then EnemyKnockY else e.vel.y))
  }

  /** `HitEnemy` with the fatal branch as written. */
  function HitEnemyAsWritten(e: Fighter, dmg: int, playerX: real): (r: Fighter)
    ensures r.hp == HpAfter(e.hp, dmg)
    ensures r.dead <==> e.dead || r.hp == 0
    ensures r.hp == 0 ==> r.state == e.state && r.anim == e.anim
    ensures r.hp > 0 ==> r == HitEnemy(e, dmg, playerX)
  {
    var hp := HpAfter(e.hp, dmg);
    if hp <= 0 then KillAsWritten(e.(hp := hp)) else HitEnemy(e, dmg, playerX)
  }

  /** A freshly spawned rat (3 hp) running at the player, struck by a 5-damage
      slash: as written it is dead but still shows its run clip, so the removal
      test (`state === 'death'` on its last frame) never passes. The corrected
      update puts it on the death clip. */
  lemma DeathClipNeverShown()
    ensures var rat := SwitchSprite(NewFighter(Enemy, "rat", Rat, Vec(500.0, 300.0)), "run");
      var asWritten := HitEnemyAsWritten(rat, 5, 100.0);
      var fixed := HitEnemy(rat, 5, 100.0);
      rat.state == "run" && asWritten.dead && asWritten.state == "run" &&
      fixed.dead && fixed.state == "death"
  {
  }

  /** The player hit by an enemy projectile or by contact (GamePart2.js:1018-1028,
      1043-1052): health floored at 0; at 0 the player dies and stops; otherwise
      it is knocked away from the source of the hit. */
  function HitPlayer(p: Fighter, dmg: int, fromX: real): (r: Fighter)
    ensures r.hp == HpAfter(p.hp, dmg)
    ensures r.dead <==> p.dead || r.hp == 0
    ensures r.hp == 0 ==> r.vel.x == 0.0
    ensures r.hp == 0 && !p.dead && !AttackLocked(p) && "death" in p.conf.sheets ==> r.state == "death"
    ensures r.hp > 0 ==> r.vel.x == PlayerKnockX * PushDir(p.pos.x - fromX) as real
    ensures r.maxHp == p.maxHp && r.pos == p.pos && r.tag == p.tag && r.kind == p.kind
    ensures r.isAttacking == p.isAttacking && r.active == p.active
  {
    var hp := HpAfter(p.hp, dmg);
    if hp <= 0 then
      var k := Kill(p.(hp := hp));
      k.(vel := k.vel.(x := 0.0))
    else
      var push := PushDir(p.pos.x - fromX);
      SwitchSprite(p.(hp := hp, vel := Vec(PlayerKnockX * push as real, if p.conf.usesGravity then PlayerKnockY else p.vel.y)), "takeHit")
  }

  /** `HitPlayer` with the fatal branch as written (GamePart2.js:1022, 1046). */
  function HitPlayerAsWritten(p: Fighter, dmg: int, fromX: real): (r: Fighter)
    ensures r.hp == HpAfter(p.hp, dmg)
    ensures r.dead <==> p.dead || r.hp == 0
    ensures r.hp == 0 ==> r.state == p.state && r.anim == p.anim && r.vel.x == 0.0
    ensures r.hp > 0 ==> r == HitPlayer(p, dmg, fromX)
  {
    var hp := HpAfter(p.hp, dmg);
    if hp <= 0 then
      var k := KillAsWritten(p.(hp := hp));
      k.(vel := k.vel.(x := 0.0))
    else HitPlayer(p, dmg, fromX)
  }

  /** Anko (14 hp) standing on the idle clip takes a 14-damage hit: as
      written she is dead but still shows the idle clip; the corrected update
      puts her on the death clip. */
  lemma PlayerDeathClipNeverShown()
    ensures var anko := SwitchSprite(NewFighter(Player, "heroA", HeroA, Vec(100.0, 300.0)), "idle");
      var asWritten := HitPlayerAsWritten(anko, 14, 200.0);
      var fixed := HitPlayer(anko, 14, 200.0);
      anko.state == "idle" && asWritten.dead && asWritten.state == "idle" &&
      fixed.dead && fixed.state == "death"
  {
  }
}

=== FILE: geometry.dfy ===
/** Axis-aligned rectangle helpers of the combat runtime (GamePart2.js:488-548).
    `y` grows downwards, as on the canvas. */
module Geometry {
  import opened JsMath

  datatype Rect = Rect(x: real, y: real, w: real, h: real) {
    function Right(): real { x + w }
    function Bottom(): real { y + h }
    predicate NonNegative() { w >= 0.0 && h >= 0.0 }
  }

  /** Vertical extents overlap (open on both ends). */
  predicate VOverlap(a: Rect, b: Rect) {
    a.y < b.Bottom() && a.Bottom() > b.y
  }

  /** Horizontal extents overlap (open on both ends). */
  predicate HOverlap(a: Rect, b: Rect) {
    a.x < b.Right() && a.Right() > b.x
  }

  /** `rectanglesOverlap`: the standard strict AABB test. */
  predicate Overlap(a: Rect, b: Rect): (r: bool)
    ensures a.w > 0.0 && a.h > 0.0 && b.w > 0.0 && b.h > 0.0 ==>
      (r <==> MaxR(a.x, b.x) < MinR(a.Right(), b.Right()) && MaxR(a.y, b.y) < MinR(a.Bottom(), b.Bottom()))
    ensures (a.w <= 0.0 && b.w <= 0.0) || (a.h <= 0.0 && b.h <= 0.0) ==> !r
  {
    HOverlap(a, b) && VOverlap(a, b)
  }

  /** `r` lies within `outer`. */
  predicate Within(r: Rect, outer: Rect) {
    outer.x <= r.x && r.Right() <= outer.Right() && outer.y <= r.y && r.Bottom() <= outer.Bottom()
  }

  /** A point strictly inside a rectangle. */
  predicate Inside(px: real, py: real, r: Rect) {
    r.x < px < r.Right() && r.y < py < r.Bottom()
  }

  lemma OverlapSymmetric(a: Rect, b: Rect)
    ensures Overlap(a, b) <==> Overlap(b, a)
  {
  }

  /** For rectangles of positive size the strict test is exactly "some point
      lies strictly inside both". */
  lemma OverlapIffCommonPoint(a: Rect, b: Rect)
    requires a.w > 0.0 && a.h > 0.0 && b.w > 0.0 && b.h > 0.0
    ensures Overlap(a, b) <==> exists px: real, py: real :: Inside(px, py, a) && Inside(px, py, b)
  {
    if Overlap(a, b) {
      var px := (MaxR(a.x, b.x) + MinR(a.Right(), b.Right())) / 2.0;
      var py := (MaxR(a.y, b.y) + MinR(a.Bottom(), b.Bottom())) / 2.0;
      assert Inside(px, py, a) && Inside(px, py, b);
    }
  }

  /** Shrinking a rectangle can only lose overlaps, never gain them. */
  lemma OverlapMonotone(small: Rect, big: Rect, other: Rect)
    requires Within(small, big) && Overlap(small, other)
    ensures Overlap(big, other)
  {
  }

  /** `enemyHurtRect`: the sprite rectangle inset by `insetX` on both sides and
      by `insetTop` from the top, each scaled by the entity's scale (`scale || 1`);
      the size never goes negative. */
  function HurtRect(sprite: Rect, insetX: real, insetTop: real, scale: real): (r: Rect)
    ensures r.NonNegative()
  {
    var s := if scale == 0.0 then 1.0 else scale;
    var ix := insetX * s;
    var it := insetTop * s;
    Rect(sprite.x + ix, sprite.y + it, MaxR(0.0, sprite.w - ix * 2.0), MaxR(0.0, sprite.h - it))
  }

  /** Where the hurt box sits: the left edge moves in by the scaled side
      inset and the top down by the scaled top inset; the width loses both
      side insets and the height the top inset, as long as they fit. */
  lemma HurtRectInsets(sprite: Rect, insetX: real, insetTop: real, scale: real)
    ensures var s := if scale == 0.0 then 1.0 else scale;
      var r := HurtRect(sprite, insetX, insetTop, scale);
      && r.x == sprite.x + insetX * s && r.y == sprite.y + insetTop * s
      && (sprite.w >= insetX * s * 2.0 ==> r.w == sprite.w - insetX * s * 2.0)
      && (sprite.h >= insetTop * s ==> r.h == sprite.h - insetTop * s)
  {
  }

  /** With non-negative insets that fit, the hurt box lies inside the sprite,
      so a hit on the hurt box is always a hit on the sprite as well. */
  lemma HurtRectWithin(sprite: Rect, insetX: real, insetTop: real, scale: real, other: Rect)
    requires scale > 0.0 && insetX >= 0.0 && insetTop >= 0.0
    requires 2.0 * insetX * scale <= sprite.w && insetTop * scale <= sprite.h
    ensures Within(HurtRect(sprite, insetX, insetTop, scale), sprite)
    ensures Overlap(HurtRect(sprite, insetX, insetTop, scale), other) ==> Overlap(sprite, other)
  {
    var r := HurtRect(sprite, insetX, insetTop, scale);
    assert Within(r, sprite);
    if Overlap(r, other) {
      OverlapMonotone(r, sprite, other);
    }
  }

  /** Horizontal distance between the boxes as `isNearContact` computes it:
      zero when they overlap horizontally. */
  function Gap(a: Rect, b: Rect): real {
    if a.Right() <= b.x then b.x - a.Right()
    else if b.Right() <= a.x then a.x - b.Right()
    else 0.0
  }

  /** Independent reference for the gap: the distance between two intervals. */
  function IntervalGap(a: Rect, b: Rect): real {
    MaxR(0.0, MaxR(a.x, b.x) - MinR(a.Right(), b.Right()))
  }

  lemma GapIsIntervalDistance(a: Rect, b: Rect)
    requires a.w >= 0.0 && b.w >= 0.0
    ensures Gap(a, b) == IntervalGap(a, b)
    ensures Gap(a, b) == Gap(b, a)
    ensures Gap(a, b) >= 0.0
  {
  }

  /** `isNearContact(a, b, pad)`: the boxes share vertical extent and are at
      most `pad` apart horizontally. */
  function NearContact(a: Rect, b: Rect, pad: real): (r: bool)
    ensures !VOverlap(a, b) ==> !r
    ensures VOverlap(a, b) && HOverlap(a, b) ==> (r <==> pad >= 0.0)
  {
    if !VOverlap(a, b) then false
    else Gap(a, b) <= pad
  }

  /** For boxes of non-negative width the contact test is symmetric and is the
      interval-distance test. */
  lemma NearContactIsIntervalTest(a: Rect, b: Rect, pad: real)
    requires a.w >= 0.0 && b.w >= 0.0
    ensures NearContact(a, b, pad) <==> VOverlap(a, b) && IntervalGap(a, b) <= pad
    ensures NearContact(a, b, pad) == NearContact(b, a, pad)
  {
    GapIsIntervalDistance(a, b);
  }

  /** An obstacle `blockMovementX` considers, with the flags it skips on. */
  datatype Collider = Collider(rect: Rect, dead: bool, isActor: bool)

  /** Self, dead and vertically disjoint colliders never block. */
  predicate Blocks(actor: Rect, c: Collider) {
    !c.isActor && !c.dead && VOverlap(actor, c.rect)
  }

  /** The collider lies wholly ahead of the actor in the direction of travel. */
  predicate Ahead(actor: Rect, c: Collider, desiredDx: real) {
    if desiredDx > 0.0 then actor.Right() <= c.rect.x else actor.x >= c.rect.Right()
  }

  /** The largest step towards the collider: the gap plus the margin, signed
      with the direction of travel. */
  function Limit(actor: Rect, c: Collider, desiredDx: real, margin: real): real {
    if desiredDx > 0.0 then (c.rect.x - actor.Right()) + margin
    else -((actor.x - c.rect.Right()) + margin)
  }

  predicate Constrains(actor: Rect, c: Collider, desiredDx: real) {
    Blocks(actor, c) && Ahead(actor, c, desiredDx)
  }

  /** A step no longer than `bound` in the direction of travel. */
  predicate NoFurther(dx: real, bound: real, desiredDx: real) {
    if desiredDx > 0.0 then dx <= bound else dx >= bound
  }

  /** `dx` is the limit of one of the constraining colliders. */
  ghost predicate LimitOfSome(actor: Rect, desiredDx: real, cs: seq<Collider>, margin: real, dx: real) {
    exists i :: 0 <= i < |cs| && Constrains(actor, cs[i], desiredDx) && dx == Limit(actor, cs[i], desiredDx, margin)
  }

  /** What `blockMovementX` returns, stated without its loop: the desired step
      cut to the tightest limit of the constraining colliders. It is no longer
      than the desired step or any limit, and it is one of them. */
  ghost predicate IsBlockedStep(actor: Rect, desiredDx: real, cs: seq<Collider>, margin: real, dx: real) {
    && NoFurther(dx, desiredDx, desiredDx)
    && (forall i :: 0 <= i < |cs| && Constrains(actor, cs[i], desiredDx) ==>
          NoFurther(dx, Limit(actor, cs[i], desiredDx, margin), desiredDx))
    && (dx == desiredDx || LimitOfSome(actor, desiredDx, cs, margin, dx))
  }

  /** The loop of `blockMovementX` from the `k`-th collider on, with the step
      cut so far in `dx`. */
  function BlockFrom(actor: Rect, desiredDx: real, cs: seq<Collider>, margin: real, dx: real): (r: real)
    requires NoFurther(dx, desiredDx, desiredDx)
    ensures NoFurther(r, dx, desiredDx)
    ensures forall i :: 0 <= i < |cs| && Constrains(actor, cs[i], desiredDx) ==>
      NoFurther(r, Limit(actor, cs[i], desiredDx, margin), desiredDx)
    ensures r == dx || LimitOfSome(actor, desiredDx, cs, margin, r)
    decreases |cs|
  {
    if |cs| == 0 then dx
    else
      var c := cs[0];
      var dx' :=
        if !Constrains(actor, c, desiredDx) then dx
        else if desiredDx > 0.0 then MinR(dx, Limit(actor, c, desiredDx, margin))
        else MaxR(dx, Limit(actor, c, desiredDx, margin));
      var r := BlockFrom(actor, desiredDx, cs[1..], margin, dx');
      assert forall i :: 1 <= i < |cs| ==> cs[i] == cs[1..][i - 1];
      r
  }

  /** `blockMovementX(actor, desiredDx, colliders, margin)`. */
  function BlockMovementX(actor: Rect, desiredDx: real, cs: seq<Collider>, margin: real): (r: real)
    ensures desiredDx == 0.0 ==> r == 0.0
    ensures desiredDx != 0.0 ==> IsBlockedStep(actor, desiredDx, cs, margin, r)
  {
    if desiredDx == 0.0 then 0.0
    else BlockFrom(actor, desiredDx, cs, margin, desiredDx)
  }

  /** The blocked step is unique: any two values meeting the description agree. */
  lemma BlockedStepUnique(actor: Rect, desiredDx: real, cs: seq<Collider>, margin: real, d1: real, d2: real)
    requires IsBlockedStep(actor, desiredDx, cs, margin, d1)
    requires IsBlockedStep(actor, desiredDx, cs, margin, d2)
    ensures d1 == d2
  {
  }

  /** With a non-negative margin the actor never reverses and never overshoots
      the desired step; its leading edge ends at most `margin` past the near
      edge of any constraining collider (it may pass that edge, by up to `margin`). */
  lemma BlockMovementBounds(actor: Rect, desiredDx: real, cs: seq<Collider>, margin: real)
    requires margin >= 0.0
    ensures var r := BlockMovementX(actor, desiredDx, cs, margin);
      (desiredDx > 0.0 ==> 0.0 <= r <= desiredDx) && (desiredDx < 0.0 ==> desiredDx <= r <= 0.0)
    ensures var r := BlockMovementX(actor, desiredDx, cs, margin);
      forall i :: 0 <= i < |cs| && Constrains(actor, cs[i], desiredDx) ==>
        (desiredDx > 0.0 ==> actor.Right() + r <= cs[i].rect.x + margin) &&
        (desiredDx < 0.0 ==> actor.x + r >= cs[i].rect.Right() - margin)
  {
  }

  /** Colliders that do not block (self, dead, vertically disjoint) can be
      dropped without changing the result. */
  lemma {:induction false} NonBlockingIgnored(actor: Rect, desiredDx: real, cs: seq<Collider>, c: Collider, margin: real)
    requires !Blocks(actor, c)
    ensures BlockMovementX(actor, desiredDx, cs + [c], margin) == BlockMovementX(actor, desiredDx, cs, margin)
    ensures BlockMovementX(actor, desiredDx, [c] + cs, margin) == BlockMovementX(actor, desiredDx, cs, margin)
  {
    if desiredDx != 0.0 {
      var r := BlockMovementX(actor, desiredDx, cs, margin);
      var r1 := BlockMovementX(actor, desiredDx, cs + [c], margin);
      var r2 := BlockMovementX(actor, desiredDx, [c] + cs, margin);
      assert forall i :: 0 <= i < |cs| ==> (cs + [c])[i] == cs[i];
      assert IsBlockedStep(actor, desiredDx, cs + [c], margin, r);
      BlockedStepUnique(actor, desiredDx, cs + [c], margin, r, r1);
      assert forall i :: 0 <= i < |cs| ==> ([c] + cs)[i + 1] == cs[i];
      assert IsBlockedStep(actor, desiredDx, [c] + cs, margin, r);
      BlockedStepUnique(actor, desiredDx, [c] + cs, margin, r, r2);
    }
  }

  /** `playerMeleeRect`: the melee box, placed in front of the sprite on the
      facing side. `None` is a fighter without a melee definition. */
  datatype AttackBox = AttackBox(offX: real, offY: real, width: real, height: real)

  function MeleeRect(base: Rect, scale: real, facing: int, box: AttackBox): (r: Rect)
    ensures r.w == box.width * scale && r.h == box.height * scale
    ensures r.y == base.y + box.offY * scale
    ensures box.offX >= 0.0 && scale >= 0.0 ==>
      (if facing == 1 then r.x >= base.Right() else r.Right() <= base.x)
  {
    assert box.offX >= 0.0 && scale >= 0.0 ==> box.offX * scale >= 0.0;
    var W := box.width * scale;
    var H := box.height * scale;
    var y := base.y + box.offY * scale;
    var xFront := if facing == 1 then base.Right() else base.x;
    var x := if facing == 1 then xFront + box.offX * scale else xFront - box.offX * scale - W;
    Rect(x, y, W, H)
  }

  /** The left-facing box is the right-facing box mirrored about the sprite's
      vertical centre line: their midpoints sit symmetrically about it. */
  lemma MeleeRectMirror(base: Rect, scale: real, box: AttackBox)
    ensures var right := MeleeRect(base, scale, 1, box);
      var left := MeleeRect(base, scale, -1, box);
      (left.x + left.Right()) + (right.x + right.Right()) == 2.0 * (base.x + base.Right())
      && left.y == right.y && left.w == right.w && left.h == right.h
  {
  }
}

=== FILE: jsmath.dfy ===
/** The few JavaScript number operations the runtime relies on, written out
    over Dafny's unbounded integers and exact reals. */
module JsMath {

  function MinR(a: real, b: real): real { if a <= b then a else b }
  function MaxR(a: real, b: real): real { if a >= b then a else b }
  function MinI(a: int, b: int): int { if a <= b then a else b }
  function MaxI(a: int, b: int): int { if a >= b then a else b }
  function AbsR(a: real): real { if a < 0.0 then -a else a }

  /** JavaScript's `%` on integers: the remainder truncates toward zero, so it
      takes the sign of the dividend (Dafny's own `%` never goes negative). */
  function JsRem(a: int, n: int): (r: int)
    requires n > 0
    ensures -n < r < n
    ensures a >= 0 ==> r >= 0
    ensures a <= 0 ==> r <= 0
    ensures (a - r) % n == 0
  {
    if a >= 0 then
      RemCongruent(a, n);
      a % n
    else
      RemCongruent(-a, n);
      NegateMultiple(-a - (-a) % n, n);
      -((-a) % n)
  }

  /** Taking Dafny's remainder leaves a multiple of the divisor. */
  lemma RemCongruent(b: int, n: int)
    requires n > 0
    ensures (b - b % n) % n == 0
  {
    var q := b / n;
    assert b - b % n == n * q;
    DivModUnique(n * q, n, q, 0);
  }

  lemma NegateMultiple(m: int, n: int)
    requires n > 0 && m % n == 0
    ensures (-m) % n == 0
  {
    var q := m / n;
    assert m == n * q;
    assert -m == n * -q;
    DivModUnique(-m, n, -q, 0);
  }

  /** Euclidean division is determined by quotient and remainder bounds. */
  lemma DivModUnique(m: int, n: int, q: int, r: int)
    requires n > 0 && 0 <= r < n && m == n * q + r
    ensures m / n == q && m % n == r
  {
    var q0, r0 := m / n, m % n;
    var d := q0 - q;
    assert n * d == r - r0 by {
      assert n * q0 + r0 == n * q + r;
      assert n * d == n * q0 - n * q;
    }
    if d > 0 {
      MulAtLeast(n, d);
    } else if d < 0 {
      assert n * -d == -(n * d);
      MulAtLeast(n, -d);
    }
  }

  lemma MulAtLeast(n: int, d: int)
    requires n > 0 && d >= 1
    ensures n * d >= n
  {
    assert n * d == n + n * (d - 1);
  }

  /** `Math.sign(d) || 1`: the knock-back direction, where a zero
      displacement pushes to the right. */
  function PushDir(d: real): (r: int)
    ensures r == 1 || r == -1
    ensures d > 0.0 ==> r == 1
    ensures d < 0.0 ==> r == -1
  {
    if d < 0.0 then -1 else 1
  }

  /** `Math.ceil` on reals. */
  function Ceil(x: real): (r: int)
    ensures r as real - 1.0 < x <= r as real
  {
    -((-x).Floor)
  }
}

=== FILE: projectile.dfy ===
/** Projectiles (`class Projectile`, GamePart2.js:406-484): a hit volume that
    flies with a range budget and turns into an impact animation, after which
    it is removed. */
module Projectiles {
  import opened Wrappers
  import opened JsMath
  import opened Geometry
  import opened Config
  import opened Animation
  import opened Fighters

  datatype Phase = Fly | Hit

  datatype Projectile = Projectile(
    ownerTag: Tag,
    ownerKind: Option<string>,
    conf: ProjConf,
    xHit: real,
    yHit: real,
    dir: int,
    phase: Phase,
    velocityX: real,
    remaining: real,
    frame: int,
    elapsed: nat,
    frameDirection: int)

  const DefaultSpeed: real := 6.0
  const DefaultRange: real := 500.0
  const DefaultClipHold: nat := 4

  function ClipHold(c: ProjClip): nat {
    c.framesHold.GetOr(DefaultClipHold)
  }

  /** Both clips advance: a hold of 0 would never drain (the source loops forever). */
  predicate Playable(conf: ProjConf) {
    ClipHold(conf.fly) > 0 && ClipHold(conf.hit) > 0
  }

  /** An impact projectile has stopped. */
  ghost predicate Valid(p: Projectile) {
    Playable(p.conf) && (p.phase == Hit ==> p.velocityX == 0.0)
  }

  /** The constructor: flying, at speed `speed ?? 6` in direction `dir`, with
      `rangePx ?? 500` of travel left. */
  function NewProjectile(ownerTag: Tag, ownerKind: Option<string>, conf: ProjConf, xHit: real, yHit: real, dir: int): (p: Projectile)
    requires Playable(conf)
    ensures Valid(p) && p.phase == Fly
    ensures p.remaining == conf.rangePx.GetOr(DefaultRange)
    ensures p.velocityX == conf.speed.GetOr(DefaultSpeed) * dir as real
    ensures p.frame == 0 && p.elapsed == 0
  {
    Projectile(ownerTag, ownerKind, conf, xHit, yHit, dir, Fly, conf.speed.GetOr(DefaultSpeed) * dir as real,
      conf.rangePx.GetOr(DefaultRange), 0, 0, 1)
  }

  /** Where a shot appears: `spawnOffset` from the shooter's sprite box, on the
      side it faces (the enemy and player spawners agree, GamePart2.js:748-760, 828-837). */
  function SpawnPoint(base: Rect, conf: ProjConf, dir: int): (xy: (real, real))
    ensures xy.1 == base.y + conf.spawnY
    ensures dir == 1 ==> xy.0 == base.x + conf.spawnX
    ensures dir != 1 ==> xy.0 + conf.tile.GetOr(16.0) * conf.scale.GetOr(1.0) == base.Right() - conf.spawnX
  {
    var tileW := conf.tile.GetOr(16.0) * conf.scale.GetOr(1.0);
    var x := if dir == 1 then base.x + conf.spawnX else base.Right() - conf.spawnX - tileW;
    (x, base.y + conf.spawnY)
  }

  /** A left-facing shot starts as the mirror image of a right-facing one: the
      two tiles sit symmetrically about the shooter's centre line. */
  lemma SpawnPointMirror(base: Rect, conf: ProjConf)
    ensures var tileW := conf.tile.GetOr(16.0) * conf.scale.GetOr(1.0);
      var r := SpawnPoint(base, conf, 1).0;
      var l := SpawnPoint(base, conf, -1).0;
      (l + (l + tileW)) + (r + (r + tileW)) == 2.0 * (base.x + base.Right())
  {
  }

  /** `_explode`: only a flying projectile turns into an impact, stopping and
      restarting its animation. */
  function Explode(p: Projectile): (r: Projectile)
    ensures p.phase == Hit ==> r == p
    ensures r.phase == Hit
    ensures p.phase == Fly ==> r.velocityX == 0.0 && r.frame == 0 && r.elapsed == 0
    ensures r.remaining == p.remaining && r.xHit == p.xHit && r.yHit == p.yHit
  {
    if p.phase == Hit then p
    else p.(phase := Hit, velocityX := 0.0, frame := 0, elapsed := 0, frameDirection := 1)
  }

  lemma ExplodeIdempotent(p: Projectile)
    ensures Explode(Explode(p)) == Explode(p)
  {
  }

  function Clip(p: Projectile): ProjClip {
    if p.phase == Fly then p.conf.fly else p.conf.hit
  }

  /** One frame of the projectile's own animation. Ping-pong reverses on
      reaching either end without clamping; a finished impact empties the
      range budget; a non-ping-pong flight clip loops. */
  function ClipStep(p: Projectile): (r: Projectile)
    ensures r.(frame := p.frame, frameDirection := p.frameDirection, remaining := p.remaining) == p
    ensures p.phase == Fly ==> r.remaining == p.remaining
    ensures p.phase == Hit && !p.conf.hit.pingPong ==>
      r.frame == p.frame + 1 && r.remaining == (if r.frame >= p.conf.hit.count then 0.0 else p.remaining)
  {
    var c := Clip(p);
    var p2 :=
      if c.pingPong then
        var f := p.frame + p.frameDirection;
        if f >= c.count - 1 || f <= 0 then p.(frame := f, frameDirection := -p.frameDirection) else p.(frame := f)
      else p.(frame := p.frame + 1);
    var p3 := if p2.phase == Hit && p2.frame >= c.count then p2.(remaining := 0.0) else p2;
    if p3.phase == Fly && !c.pingPong && p3.frame >= c.count then p3.(frame := 0) else p3
  }

  /** The drain loop: one clip step per whole hold period. Only an impact can
      change the range budget, and only by setting it to 0. */
  function Drain(p: Projectile): (r: Projectile)
    requires Playable(p.conf)
    ensures r.(frame := p.frame, elapsed := p.elapsed, frameDirection := p.frameDirection, remaining := p.remaining) == p
    ensures r.elapsed < ClipHold(Clip(p))
    ensures p.phase == Fly ==> r.remaining == p.remaining
    ensures r.remaining == p.remaining || r.remaining == 0.0
    decreases p.elapsed
  {
    var hold := ClipHold(Clip(p));
    if p.elapsed < hold then p
    else Drain(ClipStep(p.(elapsed := p.elapsed - hold)))
  }

  /** In a plain (not ping-pong) impact clip the frame counts up once per
      whole hold period. */
  lemma {:induction false} DrainImpactFrames(p: Projectile)
    requires Playable(p.conf) && p.phase == Hit && !p.conf.hit.pingPong
    ensures var h := ClipHold(p.conf.hit);
      Drain(p).frame == p.frame + p.elapsed / h && Drain(p).elapsed == p.elapsed % h
    decreases p.elapsed
  {
    var h := ClipHold(p.conf.hit);
    if p.elapsed < h {
      DivModUnique(p.elapsed, h, 0, p.elapsed);
    } else {
      var next := ClipStep(p.(elapsed := p.elapsed - h));
      DrainImpactFrames(next);
      var e := p.elapsed - h;
      DivModUnique(e, h, e / h, e % h);
      DivModUnique(p.elapsed, h, e / h + 1, e % h);
    }
  }

  /** Once a plain impact clip has stepped past its length, the range budget
      is 0. */
  lemma {:induction false} DrainImpactSpends(p: Projectile)
    requires Playable(p.conf) && p.phase == Hit && !p.conf.hit.pingPong
    requires p.elapsed >= ClipHold(p.conf.hit) && Drain(p).frame >= p.conf.hit.count
    ensures Drain(p).remaining == 0.0
    decreases p.elapsed
  {
    var h := ClipHold(p.conf.hit);
    var next := ClipStep(p.(elapsed := p.elapsed - h));
    assert Drain(p) == Drain(next);
    if next.elapsed >= h {
      DrainImpactSpends(next);
    }
  }

  /** `updateAndDraw` without the drawing: a flying projectile moves
      `velocityX * frameScale`, pays the distance out of its range budget and
      explodes when the budget is spent; then its animation advances. */
  function Update(p: Projectile): (r: Projectile)
    requires Valid(p)
    ensures Valid(r)
    ensures p.phase == Hit ==> r.phase == Hit && r.xHit == p.xHit
    ensures p.phase == Fly ==> r.xHit == p.xHit + p.velocityX * FrameScale as real
    ensures p.phase == Fly && r.phase == Fly ==>
      r.remaining == p.remaining - AbsR(p.velocityX * FrameScale as real) && r.remaining > 0.0
    ensures p.phase == Fly && p.remaining - AbsR(p.velocityX * FrameScale as real) <= 0.0 ==> r.phase == Hit
    ensures p.phase == Fly && p.remaining >= 0.0 ==> r.remaining <= p.remaining
    ensures r.yHit == p.yHit && r.dir == p.dir && r.ownerTag == p.ownerTag
    ensures r.conf == p.conf && r.ownerKind == p.ownerKind
  {
    var moved :=
      if p.phase == Fly then
        var m := p.(xHit := p.xHit + p.velocityX * FrameScale as real,
                    remaining := p.remaining - AbsR(p.velocityX * FrameScale as real));
        if m.remaining <= 0.0 then Explode(m) else m
      else p;
    Drain(moved.(elapsed := moved.elapsed + FrameScale))
  }

  /** Removal test of the runtime loop (GamePart2.js:1006, 1032). */
  predicate Spent(p: Projectile) {
    p.remaining <= 0.0
  }

  /** A flying shot is removed after a tick exactly when that tick's move
      uses up its remaining range. */
  lemma FlightSpentIffRangeUsed(p: Projectile)
    requires Valid(p) && p.phase == Fly
    ensures Spent(Update(p)) <==> p.remaining - AbsR(p.velocityX * FrameScale as real) <= 0.0
  {
    var m := p.(xHit := p.xHit + p.velocityX * FrameScale as real,
                remaining := p.remaining - AbsR(p.velocityX * FrameScale as real));
    if m.remaining <= 0.0 {
      var q := Explode(m);
      assert Update(p) == Drain(q.(elapsed := q.elapsed + FrameScale));
    } else {
      assert Update(p) == Drain(m.(elapsed := m.elapsed + FrameScale));
    }
  }

  /** The budget can go below 0 before removal: a shot with 1 px left that
      flies 10 px per tick ends with -9 and is removed with that value. */
  lemma RemainingOvershoots()
    ensures var p := NewProjectile(Enemy, Some("ghost"), GhostShot, 0.0, 0.0, 1).(remaining := 1.0);
      var r := Update(p);
      r.remaining == -9.0 && r.phase == Hit && Spent(r)
  {
  }

  /** Once the impact clip (not ping-pong) has played past its last frame, the
      projectile is spent. */
  lemma ImpactEndsInRemoval(p: Projectile)
    requires Valid(p) && p.phase == Hit && !p.conf.hit.pingPong
    requires p.elapsed + FrameScale >= ClipHold(p.conf.hit)
    requires p.frame + (p.elapsed + FrameScale) / ClipHold(p.conf.hit) >= p.conf.hit.count
    ensures Spent(Update(p))
  {
    var q := p.(elapsed := p.elapsed + FrameScale);
    DrainImpactFrames(q);
    DrainImpactSpends(q);
  }

  /** `hitRect`: the hit box (default 16 by 16 at the reference point),
      scaled, and placed relative to the reference point. */
  function HitRect(p: Projectile): (r: Rect)
    ensures var hb := p.conf.hitbox.GetOr(HitBox(0.0, 0.0, 16.0, 16.0));
      var s := p.conf.scale.GetOr(1.0);
      r.w == hb.w * s && r.h == hb.h * s
  {
    var hb := p.conf.hitbox.GetOr(HitBox(0.0, 0.0, 16.0, 16.0));
    var s := p.conf.scale.GetOr(1.0);
    Rect(p.xHit - hb.x * s, p.yHit - hb.y * s, hb.w * s, hb.h * s)
  }

  /** The hit box travels with the projectile and keeps its size. */
  lemma HitRectMovesWithShot(p: Projectile)
    requires Valid(p)
    ensures var a := HitRect(p);
      var b := HitRect(Update(p));
      b.x == a.x + (Update(p).xHit - p.xHit) && b.y == a.y && b.w == a.w && b.h == a.h
  {
  }
}

=== FILE: scenes.dfy ===
/** Scene descriptions (GamePart2.js:556-578): `bgPath`, `normalizeScenes`,
    the default scene list and the choice between it and the caller's. */
module Scenes {
  import opened Wrappers

  const BackgroundDir := "./src/GameAssets/Backgrounds/"

  /** One entry of a scene's spawn queue. `preShown` is the `_preShown` mark
      that a resolved pre-spawn line leaves on the entry itself. */
  datatype SpawnSpec = SpawnSpec(kind: string, preLine: Option<string>, preShown: bool)

  datatype Flow = Flow(exitThresholdRatio: real, offscreenSpawnPx: real, spawnCooldownMs: int)
  datatype Scene = Scene(id: int, background: string, flow: Flow, queue: seq<SpawnSpec>)

  /** A scene as the caller supplies it: every part optional. */
  datatype RawFlow = RawFlow(exitThresholdRatio: Option<real>, offscreenSpawnPx: Option<real>, spawnCooldownMs: Option<int>)
  datatype RawScene = RawScene(id: int, background: Option<string>, flow: Option<RawFlow>, queue: Option<seq<SpawnSpec>>)

  predicate HasSlash(p: string) {
    exists i :: 0 <= i < |p| && p[i] == '/'
  }

  /** `bgPath`: a path that contains '/' is kept; anything else (a bare file
      name, the empty string, a missing value read as "undefined") is placed
      under the backgrounds directory. */
  function BgPath(p: Option<string>): (r: string)
    ensures HasSlash(r)
    ensures p.Some? && HasSlash(p.value) ==> r == p.value
    ensures p.None? ==> r == BackgroundDir + "undefined"
    ensures p.Some? && !HasSlash(p.value) ==> r == BackgroundDir + p.value
  {
    match p
    case None =>
      assert (BackgroundDir + "undefined")[1] == '/';
      BackgroundDir + "undefined"
    case Some(s) =>
      if s != "" && HasSlash(s) then s
      else
        assert (BackgroundDir + s)[1] == '/';
        BackgroundDir + s
  }

  /** Normalising a background twice changes nothing. */
  lemma BgPathIdempotent(p: Option<string>)
    ensures BgPath(Some(BgPath(p))) == BgPath(p)
  {
  }

  /** The flow defaults 0.9 / 160 px / 600 ms, overridden field by field. */
  function NormalizeFlow(f: Option<RawFlow>): (r: Flow)
    ensures f.None? ==> r == Flow(0.9, 160.0, 600)
    ensures f.Some? && f.value.spawnCooldownMs.Some? ==> r.spawnCooldownMs == f.value.spawnCooldownMs.value
    ensures f.Some? && f.value.spawnCooldownMs.None? ==> r.spawnCooldownMs == 600
    ensures f.Some? && f.value.offscreenSpawnPx.Some? ==> r.offscreenSpawnPx == f.value.offscreenSpawnPx.value
    ensures f.Some? && f.value.exitThresholdRatio.Some? ==> r.exitThresholdRatio == f.value.exitThresholdRatio.value
    ensures f.Some? && f.value.offscreenSpawnPx.None? ==> r.offscreenSpawnPx == 160.0
    ensures f.Some? && f.value.exitThresholdRatio.None? ==> r.exitThresholdRatio == 0.9
  {
    match f
    case None => Flow(0.9, 160.0, 600)
    case Some(raw) =>
      Flow(raw.exitThresholdRatio.GetOr(0.9), raw.offscreenSpawnPx.GetOr(160.0), raw.spawnCooldownMs.GetOr(600))
  }

  function NormalizeScene(s: RawScene): (r: Scene)
    ensures r.id == s.id && r.background == BgPath(s.background)
    ensures r.queue == s.queue.GetOr([])
    ensures r.flow == NormalizeFlow(s.flow)
    ensures s.flow.None? ==> r.flow == Flow(0.9, 160.0, 600)
  {
    Scene(s.id, BgPath(s.background), NormalizeFlow(s.flow), s.queue.GetOr([]))
  }

  /** `normalizeScenes`: scene by scene, order and ids preserved; a missing
      list yields no scenes. */
  function NormalizeScenes(arr: Option<seq<RawScene>>): (r: seq<Scene>)
    ensures arr.None? ==> r == []
    ensures arr.Some? ==> |r| == |arr.value|
    ensures arr.Some? ==> forall i :: 0 <= i < |r| ==> r[i] == NormalizeScene(arr.value[i])
  {
    match arr
    case None => []
    case Some(xs) => seq(|xs|, i requires 0 <= i < |xs| => NormalizeScene(xs[i]))
  }

  /** A normalised scene, read back as raw input, normalises to itself. */
  function AsRaw(s: Scene): RawScene {
    RawScene(s.id, Some(s.background),
      Some(RawFlow(Some(s.flow.exitThresholdRatio), Some(s.flow.offscreenSpawnPx), Some(s.flow.spawnCooldownMs))),
      Some(s.queue))
  }

  lemma NormalizeSceneIdempotent(s: RawScene)
    ensures NormalizeScene(AsRaw(NormalizeScene(s))) == NormalizeScene(s)
  {
    BgPathIdempotent(s.background);
  }

  function Plain(kind: string): SpawnSpec { SpawnSpec(kind, None, false) }
  function Voiced(kind: string, line: string): SpawnSpec { SpawnSpec(kind, Some(line), false) }

  /** `DEFAULT_SCENES`: scenes 6 to 10, the last with its three spoken spawns. */
  const DefaultScenes: seq<Scene> := NormalizeScenes(Some([
    RawScene(6, Some("City.png"), Some(RawFlow(Some(0.90), Some(160.0), Some(600))), Some([Plain("rat")])),
    RawScene(7, Some("City.png"), Some(RawFlow(Some(0.90), Some(180.0), Some(650))), Some([Plain("rat"), Plain("rat")])),
    RawScene(8, Some("Festival.png"), Some(RawFlow(Some(0.88), Some(200.0), Some(750))),
      Some([Plain("rat"), Plain("rat"), Plain("rat")])),
    RawScene(9, Some("GY8B.png"), Some(RawFlow(Some(0.87), Some(220.0), Some(850))),
      Some([Plain("rat"), Plain("rat"), Plain("rat"), Plain("rat")])),
    RawScene(10, Some("GYFinale.png"), Some(RawFlow(Some(0.85), Some(260.0), Some(10000))),
      Some([Voiced("ratElectric", "Rat: Turn back now, or you will die."),
            Voiced("ghost", "Ghost: I will eat your soul."),
            Voiced("ghostBoss", "Lich: I will absorb your soul into myself.")]))
  ]))

  /** The finale is scene 10. */
  const FinaleId := 10

  /** The caller's scenes when it gives a non-empty list, the defaults
      otherwise; either way the game has at least one scene. */
  function ChooseScenes(given: Option<seq<RawScene>>): (r: seq<Scene>)
    ensures |r| > 0
    ensures given.Some? && |given.value| > 0 ==> r == NormalizeScenes(given)
    ensures given.None? || |given.value| == 0 ==> r == DefaultScenes
  {
    if given.Some? && |given.value| > 0 then NormalizeScenes(given) else DefaultScenes
  }

  /** The default list: five scenes, ids 6 to 10 in order, the finale last
      with a 10-second spawn cooldown. */
  lemma DefaultScenesShape()
    ensures |DefaultScenes| == 5
    ensures forall i :: 0 <= i < 5 ==> DefaultScenes[i].id == 6 + i
    ensures DefaultScenes[4].id == FinaleId && DefaultScenes[4].flow.spawnCooldownMs == 10000
    ensures forall i :: 0 <= i < 5 ==> HasSlash(DefaultScenes[i].background)
  {
  }
}

=== FILE: spriteframes.dfy ===
/** Frame selection for the sprite elements of the story layer
    (`setSpriteFrame2x2` and `setSpriteFrame`, DOM.js:144-150, 196-205): an
    arbitrary integer index, negative ones included, is wrapped onto the
    sheet and turned into background-position percentages. */
module SpriteFrames {
  import opened JsMath

  /** `((index % total) + total) % total` with JavaScript's `%`: the index
      wrapped onto `[0, total)`, congruent to it modulo `total`. */
  function Wrap(index: int, total: int): (i: int)
    requires total > 0
    ensures 0 <= i < total
    ensures i == index % total
  {
    var a := JsRem(index, total);
    var i := JsRem(a + total, total);
    var k1 := (index - a) / total;
    var k2 := (a + total - i) / total;
    DivExact(index - a, total);
    DivExact(a + total - i, total);
    assert total * (k1 + k2 - 1) == total * k1 + total * k2 - total;
    DivModUnique(index, total, k1 + k2 - 1, i);
    i
  }

  /** A multiple of `n` is `n` times its quotient. */
  lemma DivExact(m: int, n: int)
    requires n > 0 && m % n == 0
    ensures m == n * (m / n)
  {
  }

  /** A background position, in percent of the free space. */
  datatype Position = Position(x: real, y: real)

  /** The 2x2 sheet's frame: column and row of the wrapped index. */
  datatype Cell = Cell(col: int, row: int)

  /** `setSpriteFrame2x2`'s arithmetic: `i % 2` and `i >> 1`. */
  function Cell2x2(index: int): (c: Cell)
    ensures 0 <= c.col < 2 && 0 <= c.row < 2
    ensures 2 * c.row + c.col == index % 4
  {
    var i := Wrap(index, 4);
    Cell(JsRem(i, 2), i / 2)
  }

  /** The position `setSpriteFrame2x2` writes: each axis 0% or 100%. */
  function Frame2x2(index: int): (p: Position)
    ensures p.x == 0.0 || p.x == 100.0
    ensures p.y == 0.0 || p.y == 100.0
  {
    var c := Cell2x2(index);
    Position((c.col * 100) as real, (c.row * 100) as real)
  }

  /** The reading order of `playSprite2x2`'s frame list (DOM.js:158):
      top-left, top-right, bottom-left, bottom-right. */
  const PlayOrder: seq<Position> :=
    [Position(0.0, 0.0), Position(100.0, 0.0), Position(0.0, 100.0), Position(100.0, 100.0)]

  /** Frame `index` of the 2x2 sheet is entry `index mod 4` of that list, so
      negative indices count back from the end. */
  lemma Frame2x2MatchesPlayOrder(index: int)
    ensures Frame2x2(index) == PlayOrder[index % 4]
  {
    var c := Cell2x2(index);
    var i := index % 4;
    assert i == 0 || i == 1 || i == 2 || i == 3;
  }

  /** `setSpriteFrame`'s arithmetic on a `cols` by `rows` sheet. */
  function CellOf(cols: int, rows: int, index: int): (c: Cell)
    requires cols >= 1 && rows >= 1
    ensures 0 <= c.col < cols && 0 <= c.row < rows
    ensures c.row * cols + c.col == index % (cols * rows)
  {
    var total := cols * rows;
    var i := Wrap(index, total);
    var col := JsRem(i, cols);
    var row := i / cols;
    RowBelow(i, cols, rows);
    Cell(col, row)
  }

  lemma RowBelow(i: int, cols: int, rows: int)
    requires cols >= 1 && rows >= 1 && 0 <= i < cols * rows
    ensures i / cols < rows && i == (i / cols) * cols + JsRem(i, cols)
  {
    var q := i / cols;
    assert q * cols <= i;
  }

  /** The axis percentage: 0 on a single-cell axis, otherwise the cell's
      share of the axis in [0, 100]. */
  function AxisPercent(cell: int, cells: int): (p: real)
    requires cells >= 1 && 0 <= cell < cells
    ensures 0.0 <= p <= 100.0
    ensures cells == 1 ==> p == 0.0
    ensures cells > 1 && cell == 0 ==> p == 0.0
    ensures cells > 1 && cell == cells - 1 ==> p == 100.0
  {
    if cells == 1 then 0.0 else (cell as real / (cells - 1) as real) * 100.0
  }

  /** The position `setSpriteFrame` writes. */
  function SpriteFrame(cols: int, rows: int, index: int): (p: Position)
    requires cols >= 1 && rows >= 1
    ensures 0.0 <= p.x <= 100.0 && 0.0 <= p.y <= 100.0
    ensures cols == 1 ==> p.x == 0.0
    ensures rows == 1 ==> p.y == 0.0
    ensures p == Position(AxisPercent(CellOf(cols, rows, index).col, cols), AxisPercent(CellOf(cols, rows, index).row, rows))
  {
    var c := CellOf(cols, rows, index);
    Position(AxisPercent(c.col, cols), AxisPercent(c.row, rows))
  }

  /** Later cells along an axis sit strictly further along it. */
  lemma AxisPercentIncreasing(a: int, b: int, cells: int)
    requires 0 <= a < b < cells
    ensures AxisPercent(a, cells) < AxisPercent(b, cells)
  {
    var d := (cells - 1) as real;
    assert a as real / d < b as real / d;
  }

  /** Distinct frames of one sheet are drawn from distinct positions, so no
      two frames show the same cell. */
  lemma SpriteFrameInjective(cols: int, rows: int, a: int, b: int)
    requires cols >= 1 && rows >= 1
    requires 0 <= a < cols * rows && 0 <= b < cols * rows && a != b
    ensures SpriteFrame(cols, rows, a) != SpriteFrame(cols, rows, b)
  {
    var ca, cb := CellOf(cols, rows, a), CellOf(cols, rows, b);
    CellInjective(cols, rows, a, b);
    if ca.col != cb.col {
      if ca.col < cb.col { AxisPercentIncreasing(ca.col, cb.col, cols); }
      else { AxisPercentIncreasing(cb.col, ca.col, cols); }
    } else {
      if ca.row < cb.row { AxisPercentIncreasing(ca.row, cb.row, rows); }
      else { AxisPercentIncreasing(cb.row, ca.row, rows); }
    }
  }

  /** The cell depends only on the index modulo the frame count. */
  lemma CellPeriodic(cols: int, rows: int, index: int, k: int)
    requires cols >= 1 && rows >= 1
    ensures CellOf(cols, rows, index + k * cols * rows) == CellOf(cols, rows, index)
  {
    var total := cols * rows;
    assert k * cols * rows == total * k;
    ShiftMod(index, total, k);
    CellDeterminedByRem(cols, rows, index, index + k * cols * rows);
  }

  lemma ShiftMod(m: int, n: int, k: int)
    requires n > 0
    ensures (m + n * k) % n == m % n
  {
    DivModUnique(m + n * k, n, m / n + k, m % n);
  }

  /** Two indices with the same remainder land on the same cell. */
  lemma CellDeterminedByRem(cols: int, rows: int, a: int, b: int)
    requires cols >= 1 && rows >= 1 && a % (cols * rows) == b % (cols * rows)
    ensures CellOf(cols, rows, a) == CellOf(cols, rows, b)
  {
  }

  /** Distinct frames of one sheet get distinct cells: the cell is the
      index's row-major position. */
  lemma CellInjective(cols: int, rows: int, a: int, b: int)
    requires cols >= 1 && rows >= 1
    requires 0 <= a < cols * rows && 0 <= b < cols * rows && a != b
    ensures CellOf(cols, rows, a) != CellOf(cols, rows, b)
  {
    var total := cols * rows;
    DivModUnique(a, total, 0, a);
    DivModUnique(b, total, 0, b);
  }

  /** On a 2x2 sheet the general routine and the 2x2 one agree. */
  lemma SpriteFrameGeneralizes2x2(index: int)
    ensures SpriteFrame(2, 2, index) == Frame2x2(index)
  {
    var c := CellOf(2, 2, index);
    var d := Cell2x2(index);
    assert c.row * 2 + c.col == d.row * 2 + d.col;
    assert c == d;
  }
}

=== FILE: text.dfy ===
/** Decimal rendering of naturals, as JavaScript prints a non-negative
    integer, with its inverse. */
module Text {
  predicate IsDigit(c: char) { '0' <= c <= '9' }

  predicate AllDigits(s: string) {
    forall i :: 0 <= i < |s| ==> IsDigit(s[i])
  }

  function DigitChar(d: nat): (c: char)
    requires d < 10
    ensures IsDigit(c) && c as int - '0' as int == d
  {
    ('0' as int + d) as char
  }

  function DigitValue(c: char): (d: nat)
    requires IsDigit(c)
    ensures d < 10 && DigitChar(d) == c
  {
    c as int - '0' as int
  }

  /** The decimal digits of `n`, most significant first, without leading
      zeros. */
  function NatToString(n: nat): (r: string)
    ensures |r| >= 1 && AllDigits(r)
    ensures |r| > 1 ==> r[0] != '0'
    decreases n
  {
    if n < 10 then [DigitChar(n)]
    else NatToString(n / 10) + [DigitChar(n % 10)]
  }

  function StringToNat(s: string): (n: nat)
    requires AllDigits(s)
    decreases |s|
  {
    if |s| == 0 then 0
    else StringToNat(s[..|s| - 1]) * 10 + DigitValue(s[|s| - 1])
  }

  /** Reading the rendered digits back gives the number. */
  lemma {:induction false} NatStringRoundTrip(n: nat)
    ensures StringToNat(NatToString(n)) == n
    decreases n
  {
    if n >= 10 {
      var s := NatToString(n);
      assert s[..|s| - 1] == NatToString(n / 10);
      NatStringRoundTrip(n / 10);
    }
  }

  /** Different numbers render differently. */
  lemma NatToStringInjective(a: nat, b: nat)
    requires NatToString(a) == NatToString(b)
    ensures a == b
  {
    NatStringRoundTrip(a);
    NatStringRoundTrip(b);
  }
}

=== FILE: toolbar.dfy ===
/** The attack toolbar (toolbar.js): per-slot labels, visibility and
    cooldown bookkeeping, driven by the game's theme, attack-fired and
    controls-state events and by its own render tick. Times are
    `performance.now()` readings in milliseconds. */
module Toolbar {
  import opened Wrappers
  import opened JsMath
  import opened Text

  /** `ATTACK_SLOTS`. */
  const AttackSlots: seq<int> := [1, 2, 3, 4]

  predicate IsSlot(slot: int) { 1 <= slot <= 4 }

  // ---------------------------------------------------------------------
  // formatDuration (toolbar.js:11-14)

  /** Whole seconds: digits then 's'. */
  predicate WholeForm(r: string) {
    |r| >= 2 && r[|r| - 1] == 's' && AllDigits(r[..|r| - 1])
  }

  /** One decimal: digits, '.', one digit, 's'. */
  predicate TenthsForm(r: string) {
    |r| >= 4 && r[|r| - 1] == 's' && r[|r| - 3] == '.' && IsDigit(r[|r| - 2]) && AllDigits(r[..|r| - 3])
  }

  /** The number of seconds a rendered duration shows. */
  function ReadDuration(r: string): real
    requires WholeForm(r) || TenthsForm(r)
  {
    if TenthsForm(r) then StringToNat(r[..|r| - 3]) as real + DigitValue(r[|r| - 2]) as real / 10.0
    else StringToNat(r[..|r| - 1]) as real
  }

  /** Seconds, negative input read as 0. */
  function Seconds(ms: real): real { MaxR(0.0, ms) / 1000.0 }

  /** `formatDuration`: ten seconds and more as whole seconds rounded up,
      less than that with one decimal (halves round up). */
  function FormatDuration(ms: real): (r: string)
    ensures Seconds(ms) >= 10.0 ==> WholeForm(r)
    ensures Seconds(ms) < 10.0 ==> TenthsForm(r)
    ensures ms <= 0.0 ==> r == "0.0s"
  {
    var seconds := Seconds(ms);
    if seconds >= 10.0 then
      NatToString(Ceil(seconds)) + "s"
    else
      var t: nat := (seconds * 10.0 + 0.5).Floor;
      var r := NatToString(t / 10) + "." + [DigitChar(t % 10)] + "s";
      assert r[..|r| - 3] == NatToString(t / 10);
      r
  }

  /** The shown value is the duration rounded: up to the next whole second
      from ten seconds on, to the nearest tenth below. */
  lemma FormatDurationReadsBack(ms: real)
    ensures var s := Seconds(ms);
      var v := ReadDuration(FormatDuration(ms));
      (s >= 10.0 ==> s <= v < s + 1.0 && v == v.Floor as real) &&
      (s < 10.0 ==> s - 0.05 < v <= s + 0.05)
  {
    var seconds := Seconds(ms);
    var r := FormatDuration(ms);
    if seconds >= 10.0 {
      assert r[..|r| - 1] == NatToString(Ceil(seconds));
      NatStringRoundTrip(Ceil(seconds));
    } else {
      var t: nat := (seconds * 10.0 + 0.5).Floor;
      assert r[..|r| - 3] == NatToString(t / 10);
      assert r[|r| - 2] == DigitChar(t % 10);
      NatStringRoundTrip(t / 10);
      assert t == 10 * (t / 10) + t % 10;
      assert ReadDuration(r) == t as real / 10.0;
    }
  }

  /** Negative durations show like zero. */
  lemma FormatDurationClampsNegative(ms: real)
    requires ms < 0.0
    ensures FormatDuration(ms) == FormatDuration(0.0)
  {
  }

  // ---------------------------------------------------------------------
  // Toolbar state

  /** What the toolbar keeps for one slot: whether a button exists, the
      stored caption, cooldown duration and end (`state`), and the facts the
      handlers set on the button: hidden, disabled, marked cooling, the
      progress percentage and the countdown text. */
  datatype Slot = Slot(
    button: bool,
    caption: Option<string>,
    duration: Option<real>,
    end: Option<real>,
    hidden: bool,
    disabled: bool,
    cooling: bool,
    progress: Option<real>,
    countdown: Option<string>)

  /** A slot the toolbar has no entry for yet. */
  const Untouched := Slot(false, None, None, None, false, false, false, None, None)

  /** Per-slot state; `running` is a non-zero `rafId`. */
  datatype State = State(slots: map<int, Slot>, running: bool)

  /** The four attack slots are always present; only they have buttons. */
  ghost predicate Valid(t: State) {
    (forall s :: IsSlot(s) ==> s in t.slots) &&
    (forall s :: s in t.slots && t.slots[s].button ==> IsSlot(s))
  }

  /** `initializeToolbar`: the slots with a button element, nothing stored. */
  function Initial(withButton: set<int>): (t: State)
    ensures Valid(t) && !t.running
    ensures forall s :: IsSlot(s) ==> (t.slots[s].button <==> s in withButton)
  {
    State(map s | s in {1, 2, 3, 4} :: Untouched.(button := s in withButton), false)
  }

  /** `obon:hero-theme` detail: captions and cooldowns by slot. */
  datatype Theme = Theme(names: map<int, string>, cooldowns: map<int, real>)

  /** `map[slot]` is truthy. */
  predicate Names(ev: Theme, slot: int) { slot in ev.names && ev.names[slot] != "" }

  /** `cooldowns[slot]` is truthy. */
  predicate GivesCooldown(ev: Theme, slot: int) { slot in ev.cooldowns && ev.cooldowns[slot] != 0.0 }

  /** The button caption: "<name> (<slot>)". */
  function Caption(name: string, slot: nat): (r: string)
    ensures |r| > |name| + 3 && r[|r| - 1] == ')' && r[..|name|] == name
    ensures r[|name|..|name| + 2] == " (" && AllDigits(r[|name| + 2..|r| - 1])
    ensures StringToNat(r[|name| + 2..|r| - 1]) == slot
  {
    var digits := NatToString(slot);
    var r := name + " (" + digits + ")";
    assert r[|name| + 2..|r| - 1] == digits;
    NatStringRoundTrip(slot);
    r
  }

  /** The theme handler's work on one slot (toolbar.js:74-85). */
  function ThemeSlot(sl: Slot, ev: Theme, slot: nat): (r: Slot)
    ensures !sl.button ==> r == sl
    ensures sl.button ==> (r.hidden <==> !Names(ev, slot))
    ensures sl.button && Names(ev, slot) ==> r.caption == Some(Caption(ev.names[slot], slot))
    ensures !Names(ev, slot) ==> r.caption == sl.caption
    ensures sl.button && GivesCooldown(ev, slot) ==> r.duration == Some(ev.cooldowns[slot])
    ensures !GivesCooldown(ev, slot) ==> r.duration == sl.duration
    ensures r.(hidden := sl.hidden, caption := sl.caption, duration := sl.duration) == sl
  {
    if !sl.button then sl
    else
      var s1 := if Names(ev, slot) then sl.(hidden := false, caption := Some(Caption(ev.names[slot], slot)))
                else sl.(hidden := true);
      if GivesCooldown(ev, slot) then s1.(duration := Some(ev.cooldowns[slot])) else s1
  }

  /** Applies a per-slot step to the four attack slots. */
  function EachSlot(t: State, f: (Slot, nat) -> Slot): (r: map<int, Slot>)
    ensures r.Keys == t.slots.Keys
    ensures forall s :: s in t.slots ==> r[s] == (if IsSlot(s) then f(t.slots[s], s) else t.slots[s])
  {
    map s | s in t.slots :: if IsSlot(s) then f(t.slots[s], s) else t.slots[s]
  }

  /** `onHeroTheme`: every attack slot's theme step, nothing else. */
  function OnHeroTheme(t: State, ev: Theme): (r: State)
    ensures Valid(t) ==> Valid(r)
    ensures r.running == t.running && r.slots.Keys == t.slots.Keys
    ensures forall s :: s in t.slots && IsSlot(s) ==> r.slots[s] == ThemeSlot(t.slots[s], ev, s)
    ensures forall s :: s in t.slots && !IsSlot(s) ==> r.slots[s] == t.slots[s]
  {
    State(EachSlot(t, (sl: Slot, s: nat) => ThemeSlot(sl, ev, s)), t.running)
  }

  /** Applying the same theme twice is the same as applying it once. */
  lemma OnHeroThemeIdempotent(t: State, ev: Theme)
    ensures OnHeroTheme(OnHeroTheme(t, ev), ev) == OnHeroTheme(t, ev)
  {
    var once := OnHeroTheme(t, ev);
    var twice := OnHeroTheme(once, ev);
    assert twice.slots == once.slots;
  }

  // ---------------------------------------------------------------------
  // Cooldown render loop (toolbar.js:113-151)

  /** The tick's decision for one slot: cooling while time remains and a
      duration is stored (`x || 0` reads an absent entry as 0). */
  predicate Cooling(sl: Slot, now: real) {
    sl.end.GetOr(0.0) - now > 0.0 && sl.duration.GetOr(0.0) > 0.0
  }

  /** The elapsed share of the cooldown, in percent, clamped to [0, 100]. */
  function Progress(remaining: real, duration: real): (p: real)
    requires duration > 0.0
    ensures 0.0 <= p <= 100.0
    ensures remaining >= duration ==> p == 0.0
    ensures remaining <= 0.0 ==> p == 100.0
  {
    MinR(100.0, MaxR(0.0, (1.0 - remaining / duration) * 100.0))
  }

  /** Progress only grows as the remaining time shrinks. */
  lemma ProgressMonotone(r1: real, r2: real, duration: real)
    requires duration > 0.0 && r2 <= r1
    ensures Progress(r2, duration) >= Progress(r1, duration)
  {
    assert r2 / duration <= r1 / duration by {
      assert r1 / duration - r2 / duration == (r1 - r2) / duration;
    }
  }

  /** The tick's work on one slot (toolbar.js:119-144). */
  function TickSlot(sl: Slot, now: real): (r: Slot)
    ensures !sl.button ==> r == sl
    ensures sl.button ==> (r.disabled <==> Cooling(sl, now)) && (r.cooling <==> Cooling(sl, now))
    ensures sl.button ==> (r.progress.Some? <==> Cooling(sl, now))
    ensures r.progress.Some? && sl.button ==> 0.0 <= r.progress.value <= 100.0
    ensures sl.button && Cooling(sl, now) ==> r.countdown == Some(" \U{00B7} " + FormatDuration(sl.end.GetOr(0.0) - now))
    ensures sl.button && !Cooling(sl, now) && sl.caption.Some? && sl.caption.value != "" ==> r.countdown == Some("")
    ensures r.(disabled := sl.disabled, cooling := sl.cooling, progress := sl.progress, countdown := sl.countdown) == sl
  {
    if !sl.button then sl
    else if Cooling(sl, now) then
      var rem := sl.end.GetOr(0.0) - now;
      sl.(disabled := true, cooling := true,
          progress := Some(Progress(rem, sl.duration.GetOr(0.0))),
          countdown := Some(" \U{00B7} " + FormatDuration(rem)))
    else
      sl.(disabled := false, cooling := false, progress := None,
          countdown := if sl.caption.Some? && sl.caption.value != "" then Some("") else sl.countdown)
  }

  /** Some attack slot with a button is cooling. */
  predicate AnyCooling(t: State, now: real) {
    exists s :: s in t.slots && IsSlot(s) && t.slots[s].button && Cooling(t.slots[s], now)
  }

  /** `tick`: every attack slot's tick step; the loop keeps running only
      while some slot is cooling. */
  function Tick(t: State, now: real): (r: State)
    ensures Valid(t) ==> Valid(r)
    ensures r.slots.Keys == t.slots.Keys
    ensures forall s :: s in t.slots && IsSlot(s) ==> r.slots[s] == TickSlot(t.slots[s], now)
    ensures forall s :: s in t.slots && !IsSlot(s) ==> r.slots[s] == t.slots[s]
    ensures r.running <==> AnyCooling(t, now)
  {
    State(EachSlot(t, (sl: Slot, s: nat) => TickSlot(sl, now)), AnyCooling(t, now))
  }

  /** The loop stops on the first tick at which no slot is cooling, and every
      button is enabled again. */
  lemma TickStopsWhenIdle(t: State, now: real)
    requires Valid(t)
    requires forall s :: s in t.slots ==> !Cooling(t.slots[s], now)
    ensures !Tick(t, now).running
    ensures forall s :: s in t.slots && t.slots[s].button ==> !Tick(t, now).slots[s].disabled
  {
  }

  // ---------------------------------------------------------------------
  // Events

  /** The slot's stored state, or a fresh one. */
  function SlotOf(t: State, slot: int): Slot {
    if slot in t.slots then t.slots[slot] else Untouched
  }

  /** `onAttackFired`: with a slot and a positive duration (the event's,
      else the stored one, else 0) the slot's cooldown ends `duration` after
      the given start (or now); an idle render loop is kicked with one tick,
      which keeps it running only while some slot is cooling. */
  function OnAttackFired(t: State, slot: Option<int>, cooldownMs: Option<real>, at: Option<real>, now: real): (r: State)
    ensures slot.None? || slot.value == 0 ==> r == t
    ensures slot.Some? && slot.value != 0 ==>
      var d := cooldownMs.GetOr(SlotOf(t, slot.value).duration.GetOr(0.0));
      (d <= 0.0 ==> r == t) &&
      (d > 0.0 ==> slot.value in r.slots && r.slots[slot.value].end == Some(at.GetOr(now) + d)) &&
      (d > 0.0 ==> (r.running <==> t.running || AnyCooling(r, now)))
    ensures Valid(t) ==> Valid(r)
    ensures forall s :: s in t.slots ==> (s in r.slots &&
      r.slots[s].(end := t.slots[s].end, disabled := t.slots[s].disabled, cooling := t.slots[s].cooling,
                  progress := t.slots[s].progress, countdown := t.slots[s].countdown) == t.slots[s])
    ensures forall s :: s in t.slots && Some(s) != slot ==> s in r.slots && r.slots[s].end == t.slots[s].end
  {
    if slot.None? || slot.value == 0 then t
    else
      var s := slot.value;
      var d := cooldownMs.GetOr(SlotOf(t, s).duration.GetOr(0.0));
      if d <= 0.0 then t
      else
        var t1 := t.(slots := t.slots[s := SlotOf(t, s).(end := Some(at.GetOr(now) + d))]);
        Kick(t1, now)
  }

  /** `if (!rafId) tick()`: an idle loop gets one tick, which keeps it running
      only while some slot is cooling; a running loop is left alone. */
  function Kick(t: State, now: real): (r: State)
    ensures t.running ==> r == t
    ensures !t.running ==> r == Tick(t, now)
    ensures Valid(t) ==> Valid(r)
    ensures r.running <==> t.running || AnyCooling(r, now)
    ensures r.slots.Keys == t.slots.Keys
    ensures forall s :: s in t.slots ==>
      r.slots[s].(disabled := t.slots[s].disabled, cooling := t.slots[s].cooling,
                  progress := t.slots[s].progress, countdown := t.slots[s].countdown) == t.slots[s]
  {
    if t.running then t
    else
      TickKeepsCooling(t, now);
      Tick(t, now)
  }

  /** A tick leaves every slot's cooling state as it found it. */
  lemma TickKeepsCooling(t: State, now: real)
    ensures AnyCooling(Tick(t, now), now) <==> AnyCooling(t, now)
  {
    var r := Tick(t, now);
    if AnyCooling(t, now) {
      var s :| s in t.slots && IsSlot(s) && t.slots[s].button && Cooling(t.slots[s], now);
      assert r.slots[s] == TickSlot(t.slots[s], now);
    }
    if AnyCooling(r, now) {
      var s :| s in r.slots && IsSlot(s) && r.slots[s].button && Cooling(r.slots[s], now);
      assert r.slots[s] == TickSlot(t.slots[s], now);
    }
  }

  /** A slot whose attack fires now shows as cooling on every tick until the
      cooldown runs out, and is re-enabled on the first tick after. */
  lemma FiredSlotCoolsDown(t: State, slot: int, d: real, now: real, later: real)
    requires Valid(t) && IsSlot(slot) && t.slots[slot].button
    requires t.slots[slot].duration.GetOr(0.0) > 0.0 && d > 0.0
    ensures var t1 := OnAttackFired(t, Some(slot), Some(d), Some(now), now);
      (now <= later < now + d ==> Tick(t1, later).slots[slot].disabled && Tick(t1, later).slots[slot].cooling) &&
      (later >= now + d ==> !Tick(t1, later).slots[slot].disabled && !Tick(t1, later).slots[slot].cooling)
  {
    var t1 := OnAttackFired(t, Some(slot), Some(d), Some(now), now);
    var sl := t1.slots[slot];
    assert sl.end == Some(now + d);
    assert sl.duration == t.slots[slot].duration && sl.button;
    assert Tick(t1, later).slots[slot] == TickSlot(sl, later);
  }

  /** Firing a slot that has a button and a stored duration leaves the render
      loop running. */
  lemma FireStartsLoop(t: State, slot: int, d: real, now: real)
    requires Valid(t) && IsSlot(slot) && t.slots[slot].button
    requires t.slots[slot].duration.GetOr(0.0) > 0.0 && d > 0.0
    ensures OnAttackFired(t, Some(slot), Some(d), None, now).running
  {
    var r := OnAttackFired(t, Some(slot), Some(d), None, now);
    assert r.slots[slot].button && Cooling(r.slots[slot], now);
  }

  /** A fire whose cooldown is already over when it arrives, on an idle
      toolbar where nothing else is cooling, leaves the loop idle: the kick
      tick finds nothing to draw and cancels itself. */
  lemma LateFireLeavesLoopIdle(t: State, slot: int, d: real, at: real, now: real)
    requires Valid(t) && !t.running && IsSlot(slot)
    requires forall s :: s in t.slots ==> !Cooling(t.slots[s], now)
    requires d > 0.0 && at + d <= now
    ensures !OnAttackFired(t, Some(slot), Some(d), Some(at), now).running
  {
  }

  /** `onControlsState`: every attack slot with a button takes the flag. */
  function OnControlsState(t: State, disabled: bool): (r: State)
    ensures r.running == t.running && r.slots.Keys == t.slots.Keys
    ensures forall s :: s in t.slots && IsSlot(s) && t.slots[s].button ==> r.slots[s] == t.slots[s].(disabled := disabled)
    ensures forall s :: s in t.slots && !(IsSlot(s) && t.slots[s].button) ==> r.slots[s] == t.slots[s]
  {
    State(EachSlot(t, (sl: Slot, s: nat) => if sl.button then sl.(disabled := disabled) else sl), t.running)
  }
}

=== FILE: wrappers.dfy ===
/** Optional values: JavaScript's `undefined`/`null` and the `??` operator. */
module Wrappers {

  datatype Option<+T> = None | Some(value: T) {

    /** `x ?? fallback` */
    function GetOr(fallback: T): T {
      match this
      case Some(v) => v
      case None => fallback
    }
  }
}
